=== FILE: README.md ===
# rbxts-asset-sync, modelled in Dafny

rbxts-asset-sync uploads the files of an asset directory to Roblox and records the result in
two maps:

- `hashToAssetIdMap` is a content-addressed cache. It maps the SHA-1 of a file's bytes,
  qualified by `(bleed)` or `(wav->ogg)` when the file is transformed before upload, to a
  Roblox asset ID.
- `pathToAssetIdMap` maps each file path to its asset ID. It is rendered as a generated
  TypeScript module (`export const assets = {...}`).

Each map has a dirty flag. A save writes a map only when its flag is set and persistence has
not been disabled. The first reason for disabling persistence is kept for good. Around this
store sit:

- the Roblox Open Cloud upload and its operation polling;
- a GitHub-hosted record `hash -> {assetId, filePath}` that can be pulled, pushed,
  published under a namespace, and installed from a namespace;
- an alpha-bleed pass over raw RGBA pixels;
- a registry of cleanups run last-first at shutdown.

## How the model is laid out

- `wrappers.dfy` (`Wrappers`) holds `Option`.
- `text.dfy` (`Text`) holds the string operations the source uses:
  - `startsWith`, `includes`, `toLowerCase`, `join` and `replace(/\\/g, "/")`;
  - decimal rendering of a status code;
  - the `/^\d+$/` test;
  - `Array.prototype.sort` on strings, modelled as lexicographic order on characters.
- `records.dfy` (`Records`) models a JavaScript object used as a dictionary. It is an
  ordered list of entries.
  - Assignment replaces a present key in place, or appends a new one.
  - `delete` drops the key.
  - Iteration follows insertion order.
  - This order matters: "first cache key with this value" on push, and "last one wins" on
    publish and pull.
- `nodepath.dfy` (`NodePath`) models the POSIX Node `path` functions the source calls.
  - `basename` and `extname` work on text, and so does `parse().name`.
  - `join`, `resolve` and `relative` work on segment lists. `join` and `resolve` normalise
    the result as Node does: empty and `.` segments vanish and `..` cancels the segment
    before it, so `path.join("./assets", "a.png")` is `assets/a.png`.
- `syncpaths.dfy` (`SyncPaths`) holds the pure parts of `src/sync.ts`:
  - display-name normalisation and truncation;
  - the cache key of a file;
  - the upload name of a WAV file;
  - the recursive directory walk over an abstract tree.
- `api.dfy` (`Api`) models `src/api.ts`.
  - Each answer of the operation endpoint is an element of a `polls` sequence.
  - The POST answer is an input.
- `sync_state.dfy` (`SyncState`) holds the module state of `src/sync.ts`. It is a `Store`
  value, with one function per operation, and the lemmas that relate the operations.
  - A write to disk is an entry in the store's `writes` log.
  - Whether the file system accepts a write is a boolean input.
- `sync.dfy` (`Sync`) holds the imperative form of the same module.
  - Class `AssetStore` has the module's variables as fields.
  - Each of its methods is proved to take `Model()` to exactly the state the `SyncState`
    function gives, and to keep the keys of both maps distinct.
  - The loops of `syncAssetsOnce`, `cleanCache`, `getAllAssetFiles` and the asset-map line
    builder are methods with loop invariants.
- `github.dfy` (`GitHub`) models `src/github.ts`:
  - the classification of the contents response;
  - the sha choice of a commit;
  - the record built by a push;
  - the merge done by a pull, as a loop over an `AssetStore`.
- `install.dfy` (`Install`), `publish.dfy` (`Publish`) and `script_args.dfy` (`ScriptArgs`)
  model the two package scripts, `src/package/install.ts` and `src/package/publish.ts`, and
  the start-up lines they share.
- `bleed.dfy` (`Bleed`) models the pixel loop of `src/bleed.ts`, in place on an
  `array<Byte>`.
  - Its result is proved equal, byte for byte, to a one-pass function of the original
    buffer.
- `shutdown.dfy` (`GracefulShutdown`) models `src/graceful-shutdown.ts` as class `Registry`.
  - Every cleanup call is recorded as an `Attempt`.

## Abstractions

- The SHA-1 digest of a file is an input string (`digest`). Where distinct contents are
  meant, it has the 40 characters of a hex SHA-1.
- How processing and uploading a file ends is an input `UploadResult`, which is one of:
  - `Returned(id?)`;
  - `Threw(message)`;
  - `Unfinished`, an upload whose promise never settles.

  `Api.UploadAsset` gives the same three results from the HTTP answers, so the two can be
  chained, as `SyncState.MissingApiKeyProtectsFiles` does.
- Environment variables are `Option<string>`. JavaScript's `!x` and `x || y` treat the empty
  string as unset, and the model does the same.
- The GitHub contents response is classified as one of:
  - a thrown request;
  - an array;
  - an item with a type and optional content, where the content is either a parsed record or
    text that fails to parse.

## Model

| member | source | states |
|---|---|---|
| Records.Lookup | src/sync.ts:263-264 | a key is absent exactly when it is not among the record's keys |
| Records.Put | src/sync.ts:105-113 | after `r[k] = v` the key reads `v`, every other key reads as before, and a new key is appended after the existing ones |
| Records.Remove | src/sync.ts:114-121 | after `delete r[k]` the key is absent, every other key reads as before, and deleting an absent key changes nothing |
| Records.FromEntries | src/sync.ts:145-147 | a parsed JSON object has distinct keys |
| Records.PutKeepsDistinct | src/sync.ts:105-113 | assignment keeps the keys of a record distinct |
| Records.RemoveKeepsDistinct | src/sync.ts:114-121 | deletion keeps the keys of a record distinct |
| Records.PutSame | src/sync.ts:106-108 | assigning the value a key already holds leaves the record unchanged |
| Text.Sort | src/sync.ts:197 | the keys are emitted sorted, as a permutation of the input |
| Text.LexLeTotal | src/sync.ts:197 | the comparison used to sort keys is total |
| Text.LexLeAntisymmetric | src/sync.ts:197 | the comparison is antisymmetric, so distinct keys have one sorted order |
| Text.LexLeTransitive | src/sync.ts:197 | the comparison is transitive |
| Text.SortedDistinctIsStrict | src/sync.ts:197 | in sorted distinct keys, a later key never sorts before an earlier one |
| Text.ForwardSlashes | src/sync.ts:200 | every backslash becomes `/`, every other character is kept, and no backslash remains |
| Text.Lower | src/api.ts:14 | the extension is lower-cased character by character |
| Text.NatToString | src/api.ts:49 | a status code renders as a non-empty string of decimal digits |
| NodePath.Normalize | src/sync.ts:331 | the normalised path has no empty or `.` segment, and `..` only at the start of a relative path |
| NodePath.NormalizeNormal | src/sync.ts:331 | a path already in normal form is left as it is |
| NodePath.NormalizeIdempotent | src/sync.ts:331 | normalising twice is normalising once |
| NodePath.NormalizeAppendName | src/sync.ts:331 | joining a plain name to a path appends it to the normalised path |
| NodePath.JoinName | src/sync.ts:331 | `path.join(dir, file)` keeps the path absolute or relative, and normalises it |
| NodePath.JoinCurrentDirectory | src/sync.ts:331 | joining drops a leading `./`: `./assets` and `a.png` give `assets/a.png` |
| NodePath.PathText | src/sync.ts:29 | the text of a path of plain names starts with `/` exactly when the path is absolute, and `path.basename` of it is its last segment (empty for the root) |
| NodePath.JoinBasename | src/sync.ts:16 | `path.basename` of a joined path of plain names, with or without a leading `/`, is its last segment |
| NodePath.Resolve | src/sync.ts:13-14 | `path.resolve` of a path of plain names is the path itself when absolute and the working directory followed by it otherwise |
| NodePath.Relative | src/sync.ts:15 | `path.relative` is empty exactly when both paths are the same, is the remainder of the target below the base, starts with `..` when the target is not below the base, and resolves against the base back to the target |
| NodePath.NormalizeAppendNames | src/sync.ts:15 | appending plain names to a path appends them to the normalised path |
| NodePath.NormalizeUps | src/sync.ts:15 | `k` climbs cancel the last `k` plain names of an absolute path |
| NodePath.ResolveRelative | src/sync.ts:15 | climbing to the common prefix and descending into the target reaches the target |
| NodePath.LastSegment | src/sync.ts:16 | the search path's base segment is `path.basename` of its text |
| NodePath.ExtName | src/api.ts:14 | `path.extname` is empty, or the dot-led suffix of the base name that starts at its last dot and is shorter than it; empty when the base name has no dot; never holds a separator; non-empty, hence the suffix from the last dot, when the base name has a dot after its first character and is not `..` |
| NodePath.CommonPrefixLength | src/sync.ts:15 | `path.relative` strips the longest common prefix of the two resolved paths |
| NodePath.Ups | src/sync.ts:15 | `path.relative` climbs out of the search path with one `..` per remaining segment |
| NodePath.Basename | src/sync.ts:248 | `path.basename` has no `/` |
| NodePath.LastIndexOf | src/sync.ts:248 | the last occurrence of a separator character, or none when it does not occur |
| NodePath.LastIndexOfAt | src/sync.ts:248 | the separator found is the one after which no other occurs |
| NodePath.StripTrailingSlashes | src/sync.ts:248 | trailing slashes are ignored by `path.basename` |
| NodePath.ExtOfBase | src/api.ts:14 | `path.extname` is empty or a single dot-led suffix of the base name, shorter than it; empty when the name has no dot; non-empty when a dot follows the first character and the name is not `..`, so it is the suffix from the last dot |
| NodePath.ParsedName | src/sync.ts:283-284 | `path.parse(n).name` followed by the extension is the base name |
| SyncPaths.TruncateAssetPathForRoblox | src/sync.ts:32-45 | the display name has at most 50 characters; it equals the input exactly when the input fits; otherwise it is `...` followed by the input's last 47 characters |
| SyncPaths.TruncateIdempotent | src/sync.ts:32-45 | truncating a display name again changes nothing |
| SyncPaths.GetUploadDisplayInfo | src/sync.ts:47-51 | returns the normalized path and its truncation, which differ only when the path is over 50 characters |
| SyncPaths.JoinHead | src/sync.ts:25 | a joined path starts with its first segment |
| SyncPaths.JoinOfNamesIsInside | src/sync.ts:22 | a path of plain names below the search root is recognised as inside it |
| SyncPaths.NormalizedAssetPath | src/sync.ts:12-30 | the display path is the search path's base segment, starts with that segment and `/`, or is the file's own text; it differs from the file's text only when the file lies at or below the search path |
| SyncPaths.NormalizedSearchRoot | src/sync.ts:18-19 | the search root itself normalizes to the root's last segment |
| SyncPaths.NormalizedInside | src/sync.ts:24-26 | a file below the search root normalizes to the root's last segment, `/`, and the relative path |
| SyncPaths.NormalizedDotDotChild | src/sync.ts:22-29 | a child whose first segment starts with `..` is treated as outside the root, so its own text is kept |
| SyncPaths.NormalizedOutside | src/sync.ts:29 | a file outside the search root keeps its own path text |
| SyncPaths.TransformOf | src/sync.ts:251-252 | a file is bled exactly when bleed mode is on and its name ends in png/jpg/jpeg in any case; it is converted exactly when its name ends in .wav in any case |
| SyncPaths.ImageIsNotWav | src/sync.ts:251-252 | no name is both an image and a WAV, so at most one qualifier applies |
| SyncPaths.CacheKey | src/sync.ts:250-261 | the key is the digest followed by the qualifier of the file's transform |
| SyncPaths.CacheKeyInjective | src/sync.ts:250-261 | two keys with full-length digests are equal exactly when the digests and transforms are |
| SyncPaths.UploadName | src/sync.ts:280-285 | a WAV file is uploaded under a name ending in `.ogg`; any other file keeps its name |
| SyncPaths.StemNotEmpty | src/sync.ts:283 | a name with an extension has a non-empty stem |
| SyncPaths.OggExtension | src/sync.ts:284 | `stem.ogg` has extension `.ogg` |
| SyncPaths.UploadNameOfWav | src/sync.ts:280-285 | the upload name of a WAV file has extension `.ogg` |
| SyncPaths.Walk | src/sync.ts:327-340 | the walk lists one path per file of the tree, each joined to the starting directory and normalised |
| SyncPaths.WalkBelow | src/sync.ts:327-340 | with the plain names `readdirSync` gives, every file found lies below the normalised starting directory |
| SyncPaths.WalkMembers | src/sync.ts:329-338 | a path is walked exactly when it is a file entry joined to the directory, or is found by walking a directory entry |
| SyncPaths.WalkHasEntry | src/sync.ts:329-338 | every file entry, and every file below a directory entry, is walked |
| SyncPaths.WalkFromEntries | src/sync.ts:329-338 | every walked path comes from one entry of the listing |
| Api.GuessAssetType | src/api.ts:92-106 | Audio exactly for .mp3 and .ogg, Model exactly for .fbx, Decal for everything else |
| Api.GetAsset | src/api.ts:59-90 | at most one fetch per answer; no budget throws the max-retries error before the key check or any fetch; a missing key throws its error with no fetch; a finished poll ends on a done answer after fewer failures than the budget |
| Api.AddFetch | src/api.ts:68 | one more request to the operation endpoint is counted |
| Api.FailuresExhaustBudget | src/api.ts:75-79 | a budget of n meeting only failed answers makes exactly n fetches, then throws the max-retries error |
| Api.FirstDoneWithinBudget | src/api.ts:59-89 | the first done answer is returned after one fetch per answer up to it whenever the failures before it stay below the budget |
| Api.BudgetSpentBeforeDone | src/api.ts:59-80 | when the failure that brings the failures up to the budget comes before any done answer, the call throws the max-retries error after exactly that many fetches |
| Api.RetryAfterFailure | test/api.test.ts:75-90 | one failed answer and then a done one, with a budget of two, return the done answer after two fetches |
| Api.PendingIsUnbounded | src/api.ts:82-87 | any number of not-done answers consumes no budget: the done answer after k of them is returned after k+1 fetches |
| Api.Pending | src/api.ts:82-87 | the answer sequence of k not-done answers |
| Api.BuildRequest | src/api.ts:14-25 | display name and description as sent, asset type from the lower-cased extension, a group creator exactly when the group ID is set, a user creator otherwise |
| Api.PostFailureMessage | src/api.ts:47-50 | a rejected POST throws text starting with the status, a space, the status text and a newline |
| Api.UploadAsset | src/api.ts:5-57 | no request and the missing-key error without an API key; otherwise the request is `BuildRequest`; a rejected POST throws its failure message; after an accepted POST, a finished poll returns its response's `assetId` (and one without a response throws reading it), a poll that throws throws the same message, and a poll still waiting leaves the upload unsettled |
| SyncState.DisablePersistence | src/sync.ts:73-85 | persistence ends up disabled; a non-empty reason already set is kept, otherwise (no reason, or the empty one) the new reason is stored; only the reason changes |
| SyncState.Load | src/sync.ts:141-158 | no cache file gives the empty store; a parsed object (an array too, keyed by its indices) becomes the cache with persistence on; `null`, a primitive or a read failure leaves the cache empty and disables persistence with the matching reason |
| SyncState.SetCacheEntry | src/sync.ts:105-113 | the hash reads the asset ID, other hashes are unchanged, and the cache becomes dirty exactly when the value changed or it already was |
| SyncState.RemoveCacheEntry | src/sync.ts:114-121 | the hash is absent, other hashes are unchanged, and the cache becomes dirty exactly when the hash was present or it already was |
| SyncState.SetPathMapping | src/sync.ts:123-130 | the path reads the asset ID, other paths are unchanged, and the asset map becomes dirty exactly when the value changed or it already was |
| SyncState.RemovePathMapping | src/sync.ts:132-139 | the path is absent, other paths are unchanged, and the asset map becomes dirty exactly when the path was present or it already was |
| SyncState.UnlinkAssetFile | src/sync.ts:351-353 | the path mapping is gone and the cache, its flag and the written files are untouched |
| SyncState.EntryLines | src/sync.ts:198-202 | one line per key, in key order, each naming the key and its asset ID |
| SyncState.AssetMapBody | src/sync.ts:197-202 | one line per path mapping |
| SyncState.AssetMapLines | src/sync.ts:195-205 | the module has the mappings' lines plus four fixed lines |
| SyncState.MappingHasLine | src/sync.ts:197-202 | every mapping has its line |
| SyncState.LineHasMapping | src/sync.ts:197-202 | every entry line comes from a mapping |
| SyncState.AssetMapListsMappings | src/sync.ts:195-205 | the module is the header, the opening line, exactly the mappings' lines in sorted order, the closing line and `getAsset` |
| SyncState.SaveCache | src/sync.ts:164-178 | skipped when persistence is disabled, nothing when clean, otherwise one write of the cache with the flag cleared only if the write succeeds |
| SyncState.SaveAssetMap | src/sync.ts:184-210 | the same three cases for the asset map module |
| SyncState.Save | src/sync.ts:216-218 | the maps and the reason are unchanged; at most two writes are appended; nothing happens when disabled; a save that does not reject leaves both flags clear |
| SyncState.SaveAgainWritesNothing | src/sync.ts:164-218 | after a save that did not reject, saving again changes nothing |
| SyncState.SaveDirtyWritesBoth | src/sync.ts:216-218 | with both maps dirty, a successful save writes the cache, then the asset map |
| SyncState.SyncAssetFile | src/sync.ts:246-305 | reused exactly when the key is cached, and then only the path map changes; on a miss, an upload that returns a non-empty ID is recorded under the key and the path, one that returns no ID is skipped, one that throws fails with its message (and disables persistence exactly when the message names an unset variable), and one that never settles hangs, each without touching either map; a map is marked dirty exactly when it changes; no file is written |
| SyncState.SyncFileMapsIt | src/sync.ts:260-295 | a file whose key is cached or whose upload returns an ID gets a path mapping |
| SyncState.SyncFileKeepsMapped | src/sync.ts:246-305 | synchronising a file never drops another file's path mapping |
| SyncState.SyncFilesLast | src/sync.ts:227-230 | the last file of a run that does not hang follows a run that did not hang, keeps every path mapping and adds its own when it maps to an asset |
| SyncState.SyncFilesMapsEarlier | src/sync.ts:227-230 | a file before the last keeps the mapping the earlier part of the run gave it |
| SyncState.StillMapsToAsset | src/sync.ts:263 | a cached key stays cached while the run adds entries, so the later lookup still hits |
| SyncState.SyncFilesMapsFile | src/sync.ts:227-230 | a run that does not hang visits every file in turn: each one whose key was cached or whose upload returns an ID ends up in the asset map |
| SyncState.SyncAgainReuses | src/sync.ts:263-268 | synchronising a file again with the same content reuses its asset and changes nothing |
| SyncState.IdenticalContentUploadsOnce | src/sync.ts:247-268 | a second file with the same content and transform reuses the first file's upload |
| SyncState.MissingApiKeyIsConfigError | src/api.ts:10-12 | the missing-key error contains the configuration marker |
| SyncState.MissingApiKeyProtectsFiles | src/sync.ts:298-304 | without an API key a cache miss disables persistence, and the following save writes nothing |
| SyncState.WavUploadsAsAudio | src/sync.ts:280-287 | a WAV file is uploaded as an Audio asset |
| SyncState.SyncFiles | src/sync.ts:226-231 | the loop writes no file, keeps persistence disabled, and never changes or removes a cached hash |
| SyncState.FileTexts | src/sync.ts:320-343 | the text of every walked path, in walk order |
| SyncState.SyncAssetsOnce | src/sync.ts:226-232 | a run that stalls writes nothing; a run that completes only appends writes |
| SyncState.CompletedRunMapsFiles | src/sync.ts:226-232 | a completed run saves the maps the loop built: every walked file whose key was cached or whose upload returned an ID is in the saved asset map, no cached upload is forgotten, and a save that is not rejected leaves nothing dirty |
| SyncState.DisabledRunWritesNothing | src/sync.ts:226-232 | with persistence disabled, a whole run writes nothing |
| SyncState.UnusedHashes | src/sync.ts:407 | exactly the hashes whose asset ID no path uses |
| SyncState.RemoveCacheEntries | src/sync.ts:409-411 | exactly the listed hashes are removed, and the cache becomes dirty exactly when one of them was present |
| SyncState.CleanCache | src/sync.ts:405-418 | the path map, the reason and the written files are untouched |
| SyncState.CleanCacheKeepsUsed | src/sync.ts:405-418 | a hash survives exactly when its asset ID is used by a path, and the cache becomes dirty exactly when something was dropped |
| SyncState.CleanCacheLeavesUsed | src/sync.ts:405-418 | after cleaning, every cached asset ID is used |
| SyncState.CleanCacheIdempotent | src/sync.ts:405-418 | cleaning twice is cleaning once |
| SyncState.NoUnusedHashes | src/sync.ts:407 | when every asset ID is used, nothing is unused |
| SyncState.AbsolutePath | src/sync.ts:370 | an absolute argument is recorded as given, a relative one resolved against the working directory |
| SyncState.AddWithKey | src/sync.ts:370-399 | a missing file and a non-numeric ID are rejected with their messages; otherwise the key and the absolute path both read the ID, every other key and path reads as before, and the result is the save of that state |
| SyncState.ManualCacheKeyAsWritten | src/sync.ts:385-390 | the key is the `syncAssetFile` key for every file but a WAV file, whose key is the bare digest |
| SyncState.AddAssetToCacheAsWritten | src/sync.ts:368-400 | a missing file and a non-numeric ID are rejected with their messages; otherwise the absolute path reads the ID, and so does the key `syncAssetFile` computes for a non-WAV file, but a WAV file's ID is stored under the bare digest |
| SyncState.ManualWavMappingIsMissed | src/sync.ts:385-390 | a WAV file added by hand is not reused by the next synchronisation of that file |
| SyncState.AddAssetToCache | src/sync.ts:368-400 | a missing file and a non-numeric ID are rejected with their messages; otherwise the ID is recorded under the key `syncAssetFile` computes and under the absolute path, every other key and path reads as before, and the result is the save of that state |
| SyncState.AddThenSyncReuses | src/sync.ts:368-400 | a file added by hand is reused by the next synchronisation of that file, whatever its type |
| Sync.WalkDirectory | src/sync.ts:327-340 | the loop collects exactly the walk of the tree |
| Sync.GetAllAssetFiles | src/sync.ts:320-343 | one path per file of the tree, as walked |
| Sync.BuildAssetMapLines | src/sync.ts:195-205 | the loop builds exactly the asset map module's lines |
| Sync.AssetStore.Load | src/sync.ts:141-158 | loading the module gives the state `SyncState.Load` describes |
| Sync.AssetStore.DisablePersistence | src/sync.ts:73-85 | the state becomes `SyncState.DisablePersistence` of the old one |
| Sync.AssetStore.SetCacheEntry | src/sync.ts:105-113 | the state becomes `SyncState.SetCacheEntry` of the old one; keys stay distinct |
| Sync.AssetStore.RemoveCacheEntry | src/sync.ts:114-121 | the state becomes `SyncState.RemoveCacheEntry` of the old one; keys stay distinct |
| Sync.AssetStore.SetPathMapping | src/sync.ts:123-130 | the state becomes `SyncState.SetPathMapping` of the old one; keys stay distinct |
| Sync.AssetStore.RemovePathMapping | src/sync.ts:132-139 | the state becomes `SyncState.RemovePathMapping` of the old one; keys stay distinct |
| Sync.AssetStore.UnlinkAssetFile | src/sync.ts:351-353 | the state becomes `SyncState.UnlinkAssetFile` of the old one |
| Sync.AssetStore.SaveCache | src/sync.ts:164-178 | the state and step are those of `SyncState.SaveCache` |
| Sync.AssetStore.SaveAssetMap | src/sync.ts:184-210 | the state and step are those of `SyncState.SaveAssetMap` |
| Sync.AssetStore.Save | src/sync.ts:216-218 | the state and steps are those of `SyncState.Save` |
| Sync.AssetStore.SyncAssetFile | src/sync.ts:246-305 | the state and outcome are those of `SyncState.SyncAssetFile` |
| Sync.AssetStore.SyncAssetsOnce | src/sync.ts:226-232 | the loop ends in the state `SyncState.SyncAssetsOnce` gives |
| Sync.AssetStore.SyncFileList | src/sync.ts:227-230 | the loop over the files ends in the state and hang flag `SyncState.SyncFiles` gives; keys stay distinct |
| Sync.AssetStore.CleanCache | src/sync.ts:405-418 | the state becomes `SyncState.CleanCache` of the old one, and every cached asset ID is used by a path |
| Sync.AssetStore.RemoveCacheEntryList | src/sync.ts:409-411 | removing each unused hash in turn gives `SyncState.RemoveCacheEntries` of the old state |
| Sync.AssetStore.AddAssetToCache | src/sync.ts:368-400 | the result is that of the corrected `SyncState.AddAssetToCache`, whose cache key carries `(wav->ogg)` for a WAV file as `syncAssetFile`'s does; a rejection changes nothing |
| GitHub.FetchGithubAssetMap | src/github.ts:70-96 | the record has distinct keys; any non-empty result comes from a file item with parsed content; a thrown request, an array, a non-file or missing content all give `{}` |
| GitHub.ShaForUpdate | src/github.ts:37-48 | the existing sha is passed exactly when the lookup found an item with a non-empty sha |
| GitHub.PushFileToGitHub | src/github.ts:17-59 | no content throws before any request; otherwise the commit carries the content, the message, the branch and the chosen sha, and succeeds when the API accepts it |
| GitHub.FirstKeyWithValue | src/github.ts:121 | a key found holds the asset ID and no key before its first position holds it; none is found only when no key holds it |
| GitHub.FirstKeyHolder | src/github.ts:121 | over the cache's own keys, `find` returns the key of the first entry holding the asset ID, and none only when no entry holds it |
| GitHub.PushKey | src/github.ts:121-122 | a chosen key is non-empty, maps to the asset ID and is the key of the first cache entry holding it; no key is chosen exactly when the first entry holding the ID, if any, has the empty key |
| GitHub.PushRecordEntry | src/github.ts:117-125 | every pushed entry comes from a path mapping whose asset ID the chosen hash holds |
| GitHub.PushRecordSound | src/github.ts:117-125 | every pushed `(h, {assetId, filePath})` has `cache[h] = assetId` and `paths[filePath] = assetId` |
| GitHub.PushRecordLastWins | src/github.ts:117-125 | of several paths with the same key, the last one is pushed |
| GitHub.PushRecordDropsUnkeyed | src/github.ts:117-125 | a hash no path's asset ID selects is absent from the record |
| GitHub.BuildPushRecord | src/github.ts:117-125 | the loop builds exactly the push record |
| GitHub.CheckConfiguration | src/github.ts:109-115 | nothing at all without a repository or branch; a log and nothing without a token; proceed otherwise |
| GitHub.PushGithubAssetMap | src/github.ts:108-141 | skipped as configured; otherwise the record pushed is the push record of the current maps, and the maps are untouched |
| GitHub.MergeRemoteApplies | src/github.ts:162-170 | after a pull every remote hash reads its asset ID, and each remote path not overwritten later reads its asset ID |
| GitHub.MergeRemoteKeepsOthers | src/github.ts:162-170 | hashes and paths the remote record does not mention are unchanged |
| GitHub.ApplyRemote | src/github.ts:164-170 | the loop takes the store to the merged state, without touching the dirty flags, and keeps keys distinct |
| GitHub.PullGithubAssetMap | src/github.ts:153-174 | skipped as configured, store unchanged; otherwise the fetched record is merged into both maps |
| ScriptArgs.FindNamespaceArg | src/package/install.ts:34 | the first argument starting with `@`, or none when no argument does |
| ScriptArgs.ScriptStartup | src/package/install.ts:34-46 | exit 1 without a namespace, repository or token; otherwise the namespace is the argument without `@`, the repository and branch come from the environment before the defaults |
| Install.AnyInNamespaceStep | src/package/install.ts:16-22 | `found` after one more entry is `found` before or that entry matching |
| Install.InjectedKey | src/package/install.ts:20-21 | `@ns/` followed by the key without its prefix is `@` followed by the key |
| Install.InjectedKeyInjective | src/package/install.ts:20-21 | distinct namespace keys inject distinct paths |
| Install.InjectStep | src/package/install.ts:17-24 | one more remote entry injects one more mapping when it matches |
| Install.InjectMappingsStep | src/package/install.ts:17-24 | one more remote entry goes through `setPathMapping` exactly when it is in the namespace |
| Install.InjectApplies | src/package/install.ts:17-22 | every remote key in the namespace is injected as `@key` with its asset ID |
| Install.InjectKeepsOthers | src/package/install.ts:17-22 | paths outside `@ns/` are untouched |
| Install.InjectLookup | src/package/install.ts:17-22 | a namespace key's asset ID is what `@key` reads after injection |
| Install.DownloadAssetLibraryAsWritten | src/package/install.ts:14-32 | `found` exactly when some key is in the namespace; the paths are injected directly, then saved |
| Install.InstallAsWrittenWritesNothing | src/package/install.ts:21-31 | in a fresh process the injected mappings are never written |
| Install.AssignLibrary | src/package/install.ts:16-24 | the loop assigns exactly the injected mappings, `found` holds iff some key is in the namespace, and keys stay distinct |
| Install.InjectMappingsPaths | src/package/install.ts:17-22 | injecting through `setPathMapping` gives the same paths as direct injection |
| Install.InjectMappingsMarksDirty | src/package/install.ts:21 | injecting through `setPathMapping` marks the asset map dirty whenever it changes |
| Install.InstallWritesAssetMap | src/package/install.ts:14-32 | in a fresh process the save writes the asset map with the injected mappings |
| Install.RecordEntry | src/package/install.ts:18-23 | an entry in the namespace is recorded through `setPathMapping` under `@key`; any other entry changes nothing |
| Install.RecordLibrary | src/package/install.ts:16-24 | the loop leaves the state `InjectMappings` describes, and `found` holds iff some key is in the namespace |
| Install.DownloadAssetLibrary | src/package/install.ts:14-32 | `found` exactly when some key is in the namespace; each mapping goes through `setPathMapping`, then the store is saved |
| Publish.PublishKey | src/package/publish.ts:22-23 | the key is the namespace, `/` and the base name, so install selects it |
| Publish.PublishStep | src/package/publish.ts:21-24 | one more local mapping assigns one more key |
| Publish.PublishKeepsDistinct | src/package/publish.ts:21-24 | publishing keeps the record's keys distinct |
| Publish.PublishWrites | src/package/publish.ts:21-24 | each local mapping is published as `{assetId, filePath}`, and of several with one base name the last wins |
| Publish.PublishKeepsOthers | src/package/publish.ts:18-24 | remote keys no local mapping is published under are unchanged |
| Publish.PublishThenInstall | src/package/publish.ts:21-24 | installing a published namespace maps `@ns/basename` to the published asset ID |
| Publish.MergeLocalPaths | src/package/publish.ts:21-24 | the loop builds exactly the published record |
| Publish.PublishAssetLibraryAsWritten | src/package/publish.ts:16-38 | the record is merged and written locally, and the commit throws because it is given no content |
| Publish.PublishAssetLibrary | src/package/publish.ts:16-38 | the commit carries exactly the record written locally, and succeeds when the API accepts it |
| Publish.PublishCovers | src/package/publish.ts:21-24 | every local mapping is published under its namespace key |
| Publish.PublishScriptAsWritten | src/package/publish.ts:41-55 | run as its own process, the script publishes the fetched record unchanged, because the freshly loaded path map is empty, and the commit throws |
| Publish.PublishSyncedScript | src/package/publish.ts:16-38 | with the path map filled by a synchronisation pass first, every walked file whose key was cached or whose upload returned an ID is published under `namespace/basename`, and the commit carries the record written |
| Bleed.PixelIndexBounds | src/bleed.ts:30-43 | an in-bounds pixel's index lies inside the buffer |
| Bleed.PixelIndexInjective | src/bleed.ts:30-43 | distinct pixels have distinct indices |
| Bleed.FirstOpaque | src/bleed.ts:49-59 | the first direction, in the fixed order, whose neighbour is in bounds with alpha above 0, or none |
| Bleed.BledKeepsOpaque | src/bleed.ts:47-48 | a pixel with alpha above 0 is never changed |
| Bleed.BledKeepsAlpha | src/bleed.ts:55 | every pixel keeps its alpha |
| Bleed.BledTakesFirstNeighbour | src/bleed.ts:49-58 | a transparent pixel takes the colour of the first opaque neighbour |
| Bleed.BledUnchanged | src/bleed.ts:47-60 | an opaque pixel, or one with no opaque neighbour, bleeds to itself |
| Bleed.BledFromNeighbour | src/bleed.ts:49-56 | a transparent pixel's bled colour is its first opaque neighbour's bytes, with alpha 0 |
| Bleed.FirstOpaqueAgrees | src/bleed.ts:48-58 | buffers with the same alphas pick the same neighbour |
| Bleed.BledByteAgrees | src/bleed.ts:48-58 | bleeding reads only alphas and opaque pixels, so the in-place pass agrees with a pass over the original |
| Bleed.ProcessedAgrees | src/bleed.ts:45-62 | mid-pass, alphas and opaque pixels are as in the original |
| Bleed.ProcessedStep | src/bleed.ts:46-61 | bleeding one more pixel keeps the pass invariant |
| Bleed.ProcessedNextRow | src/bleed.ts:45-46 | the end of a row is the start of the next |
| Bleed.SetPixel | src/bleed.ts:35-41 | the pixel's four bytes become the colour; no other byte changes |
| Bleed.FindOpaqueNeighbour | src/bleed.ts:49-59 | the loop with `break` finds exactly the first opaque neighbour |
| Bleed.CopyNeighbour | src/bleed.ts:53-56 | the pixel becomes its bled value taken from the neighbour; no other byte changes |
| Bleed.BleedPixel | src/bleed.ts:47-60 | the pixel becomes its bled value; no other byte changes |
| Bleed.BleedPass | src/bleed.ts:45-62 | every byte ends equal to the one-pass bleed of the original buffer |
| Bleed.BleedAlpha | src/bleed.ts:22-62 | missing or zero dimensions throw before any pixel work; otherwise the buffer is bled |
| GracefulShutdown.LifoAttempts | src/graceful-shutdown.ts:53-62 | one call per cleanup, the last registered first |
| GracefulShutdown.EveryCleanupAttempted | src/graceful-shutdown.ts:53-62 | every registered cleanup is called, in strictly decreasing registration order |
| GracefulShutdown.ThrowsOnlyChangeTheLog | src/graceful-shutdown.ts:56-61 | which cleanups throw never changes which are called, or in which order |
| GracefulShutdown.Registry.constructor | src/graceful-shutdown.ts:8-13 | nothing registered, not shutting down |
| GracefulShutdown.Registry.RegisterCleanup | src/graceful-shutdown.ts:29-31 | one cleanup is appended after the others |
| GracefulShutdown.Registry.GracefulShutdown | src/graceful-shutdown.ts:37-73 | a second request exits 1 and calls nothing; otherwise the flag is set, every cleanup is called last-first, and the exit code is 0 |

## Left out

- Disk I/O is left out: reading and writing files, JSON parsing and serialisation, and
  `existsSync`.
  - A write is an entry in the `writes` log.
  - A read of the cache file is one of four outcomes: no file, an object (a JSON array counts,
    its indices as keys), `null` or a primitive, or an unreadable file.
  - `readdirSync`/`statSync` are replaced by an abstract directory tree.
- The SHA-1 digest (`src/hash.ts`) is an input.
- The foreign libraries and processes are left out:
  - `sharp` image decoding and PNG encoding;
  - the ffmpeg conversion (`src/audio.ts`);
  - `mime`;
  - `FormData`;
  - `fetch` and Octokit;
  - base64 encoding of content.

  Only the raw RGBA pixel loop of `src/bleed.ts` is modelled.
- The three-second sleeps are left out. So are the 30-second force-exit timer, the signal
  handlers and `process.exit` itself; the exit code is returned instead.
- Logging and the once-per-target skip logging (`src/sync.ts:91-103`) are left out. So are
  `src/watcher.ts`, `src/main.ts`, `src/test-upload.ts` and `src/parameters.ts`.
  - The bleed mode, the search path, the repository default and the output paths are
    parameters.
- Promises are left out. Each async operation is modelled as running to completion in the
  order the source awaits it.
  - An upload that never settles is `Unfinished`. It makes `syncAssetsOnce` stall before its
    save.
  - Concurrent calls, such as the watcher's unawaited `syncAssetFile` calls, are not
    modelled.
  - `save()` runs `saveCache` before `saveAssetMap`, which is the order `Promise.all` starts
    them in.
- Embedding of text files is left out. The tests import `pathToTextContentMap`, which is not
  part of this model because `src/sync.ts` has no such map.
- Api.GuessAssetType follows the code: unknown extensions fall back to `Decal`. A test
  expects `undefined` for them.
- The display name `syncAssetFile` passes as a third argument to `uploadAsset` is dropped,
  because `uploadAsset` takes two parameters. The uploaded asset is named after the upload
  name.
- SyncPaths.TruncateAssetPathForRoblox does not model the branch for a limit of 3 or less,
  because the limit is the constant 50.
- JavaScript objects enumerate integer-like keys first, in numeric order. The model
  enumerates every key in insertion order; hashes, paths and namespace keys are never
  integer-like.
- Strings are sequences of characters; JavaScript compares and measures UTF-16 code units.
  Only POSIX paths are modelled, and `path.sep` is `/`.
- GitHub.ApplyRemote merges into copies of the two maps and assigns them at the end. The
  source writes each entry into the shared maps as it goes. Nothing else runs in between,
  because the loop does not await, so the final state is the same.
- GitHub.PullGithubAssetMap and GitHub.PushGithubAssetMap do not model the catch-and-log of
  a rejected fetch or commit beyond its outcome. The fetch itself never throws, because
  `fetchGithubAssetMap` returns `{}` on every failure.
- ScriptArgs.ScriptStartup stops at the decision to call the script's function. The final
  `process.exit(0)` is left out.
- Publish.PublishAssetLibrary returns the local `github-asset-map.json` as the value
  `written`; the file path it is written to is left out.
- SyncPaths.NormalizedDotDotChild records that a child of the search root whose name
  starts with `..` (such as `..x`) is normalized like an outside file. This is kept as the
  code does it.

## Findings

| source | as written | input that shows it | evidently intended | confidence | as-written member | corrected member |
|---|---|---|---|---|---|---|
| src/package/install.ts:21-31 | mappings are assigned straight into `pathToAssetIdMap`, so `assetMapDirty` stays false and the `save()` that follows skips the asset map | a fresh process (no cache file) installing a namespace with at least one key: no file is written | inject through `setPathMapping`, so the save writes the asset map; in a fresh process that asset map holds only the installed library (`Inject([], namespace, remote)`), replacing the project's own mappings in the file | not executed | Install.DownloadAssetLibraryAsWritten, Install.InstallAsWrittenWritesNothing | Install.DownloadAssetLibrary, Install.InstallWritesAssetMap |
| src/package/publish.ts:29-36 | `pushFileToGitHub` is called with `filePath` but no `content`, and `content.toString` throws before any request | any namespace: the commit always throws | pass the merged record as `content` | not executed | Publish.PublishAssetLibraryAsWritten | Publish.PublishAssetLibrary, Publish.PublishThenInstall |
| src/package/publish.ts:21-24 | the loop publishes `pathToAssetIdMap`, but the script runs as its own process, where loading `sync.ts` fills only the cache (src/sync.ts:142-158) and leaves that map empty | any namespace and any project: the record committed is the fetched one, with nothing local added | fill the path map before publishing, here by a synchronisation pass, which maps cached files without uploading them | not executed; the intended source of the mappings is a guess | Publish.PublishScriptAsWritten | Publish.PublishSyncedScript, Publish.PublishCovers |
| src/sync.ts:386-390 | the manual cache key gets `(bleed)` but never `(wav->ogg)` | adding `a.wav` by hand, then synchronising `a.wav` with the same content: a cache miss and a second upload | the same key `syncAssetFile` computes | not executed | SyncState.ManualCacheKeyAsWritten, SyncState.ManualWavMappingIsMissed | SyncState.AddAssetToCache, SyncState.AddThenSyncReuses, Sync.AssetStore.AddAssetToCache |

=== FILE: api.dfy ===
/**
 * `src/api.ts`: uploading one file to the Roblox Open Cloud assets endpoint and polling
 * the returned operation until it is done. The network is replaced by the answers the
 * server gives, supplied in order; the waits between requests are not modelled.
 */
module Api {
  import opened Wrappers
  import opened Text
  import opened NodePath

  const MissingApiKeyMessage: string := "ROBLOX_API_KEY " + "environment variable is not set"
  const MaxRetriesMessage: string := "Max retries exceeded while fetching asset"
  const Description: string := "Uploaded via rbx-asset-sync"
  /** What reading `response.assetId` of an operation without a response throws. */
  const MissingResponseMessage: string := "Cannot read properties of undefined (reading 'assetId')"
  /** Polling budget `getAsset` starts with. */
  const DefaultRetries: int := 3

  /** The environment variables the upload reads (`undefined` is `None`). */
  datatype Env = Env(apiKey: Option<string>, userId: Option<string>, groupId: Option<string>)

  /** A variable is truthy when it is set to a non-empty text. */
  predicate IsSet(v: Option<string>) {
    v.Some? && v.value != ""
  }

  /** `guessAssetType`: the asset type for a lower-case extension; anything unknown is a Decal. */
  function GuessAssetType(ext: string): (assetType: string)
    ensures assetType == "Audio" <==> ext == ".mp3" || ext == ".ogg"
    ensures assetType == "Model" <==> ext == ".fbx"
    ensures assetType != "Audio" && assetType != "Model" ==> assetType == "Decal"
  {
    match ext
    case ".png" => "Decal"
    case ".jpg" => "Decal"
    case ".jpeg" => "Decal"
    case ".mp3" => "Audio"
    case ".ogg" => "Audio"
    case ".fbx" => "Model"
    case _ => "Decal"
  }

  // ---------------------------------------------------------------------------
  // Polling the operation (`getAsset`)

  /** The result object of a finished operation; its `assetId` may be missing. */
  datatype AssetResponse = AssetResponse(assetId: Option<string>)

  /** One answer to a GET of the operation. */
  datatype Poll =
    | PollFailed(status: nat, statusText: string, body: string)   // a non-ok status
    | PollPending                                                 // `done` is falsy
    | PollDone(response: Option<AssetResponse>)                   // `done` is truthy

  /** How `getAsset` ends: with the finished operation, by throwing, or still waiting when
      the supplied answers run out. `fetches` counts the GET requests made. */
  datatype Polled =
    | Finished(response: Option<AssetResponse>, fetches: nat)
    | Thrown(message: string, fetches: nat)
    | OutOfAnswers(fetches: nat)

  function AddFetch(p: Polled): (q: Polled)
    ensures q.fetches == p.fetches + 1
  {
    match p
    case Finished(r, n) => Finished(r, n + 1)
    case Thrown(m, n) => Thrown(m, n + 1)
    case OutOfAnswers(n) => OutOfAnswers(n + 1)
  }

  /** The number of failed answers in a sequence of answers. */
  function Failures(polls: seq<Poll>): nat {
    if polls == [] then 0 else (if polls[0].PollFailed? then 1 else 0) + Failures(polls[1..])
  }

  /**
   * `getAsset(operationPath, retries)`. A failed answer spends one unit of the budget and
   * an unfinished one spends none; with no budget left the call throws before any request.
   */
  function GetAsset(retries: int, apiKey: Option<string>, polls: seq<Poll>): (r: Polled)
    decreases |polls|
    ensures r.fetches <= |polls|
    ensures retries <= 0 ==> r == Thrown(MaxRetriesMessage, 0)
    ensures retries > 0 && !IsSet(apiKey) ==> r == Thrown(MissingApiKeyMessage, 0)
    ensures r.Finished? ==>
      r.fetches >= 1 && polls[r.fetches - 1] == PollDone(r.response)
      && (forall i :: 0 <= i < r.fetches - 1 ==> !polls[i].PollDone?)
      && Failures(polls[..r.fetches - 1]) < retries
  {
    if retries <= 0 then Thrown(MaxRetriesMessage, 0)
    else if !IsSet(apiKey) then Thrown(MissingApiKeyMessage, 0)
    else if polls == [] then OutOfAnswers(0)
    else
      var rest := match polls[0]
        case PollFailed(_, _, _) => GetAsset(retries - 1, apiKey, polls[1..])
        case PollPending => GetAsset(retries, apiKey, polls[1..])
        case PollDone(response) => Finished(response, 0);
      var r := AddFetch(rest);
      assert r.Finished? && r.fetches > 1 ==> polls[..r.fetches - 1] == [polls[0]] + polls[1..][..r.fetches - 2];
      r
  }

  /** `n` failed answers in a row exhaust a budget of `n`: the `n` requests are made and the
      call then throws, whatever the server would have said next. */
  lemma {:induction false} FailuresExhaustBudget(n: nat, apiKey: Option<string>, polls: seq<Poll>)
    requires n > 0 && IsSet(apiKey) && |polls| >= n
    requires forall i :: 0 <= i < n ==> polls[i].PollFailed?
    ensures GetAsset(n, apiKey, polls) == Thrown(MaxRetriesMessage, n)
  {
    if n > 1 {
      FailuresExhaustBudget(n - 1, apiKey, polls[1..]);
    }
  }

  /** Unfinished answers cost nothing: after any number of them the first finished answer is
      returned, as long as the budget is positive. */
  lemma {:induction false} PendingIsUnbounded(retries: int, apiKey: Option<string>, k: nat, response: Option<AssetResponse>)
    requires retries > 0 && IsSet(apiKey)
    ensures GetAsset(retries, apiKey, Pending(k) + [PollDone(response)]) == Finished(response, k + 1)
  {
    var polls := Pending(k) + [PollDone(response)];
    assert polls[..k] == Pending(k);
    PendingFailsNothing(k);
    FirstDoneWithinBudget(retries, apiKey, polls, k);
  }

  /** A failed answer among the first `i` counts towards the failures. */
  lemma {:induction false} FailuresPositive(polls: seq<Poll>, i: nat)
    requires i < |polls| && polls[i].PollFailed?
    ensures Failures(polls) >= 1
  {
    if i > 0 {
      FailuresPositive(polls[1..], i - 1);
    }
  }

  /** The first done answer is returned, after one fetch per answer up to it, as long as the
      failures before it stay below the budget. */
  lemma {:induction false} FirstDoneWithinBudget(retries: int, apiKey: Option<string>, polls: seq<Poll>, i: nat)
    requires retries > 0 && IsSet(apiKey)
    requires i < |polls| && polls[i].PollDone?
    requires forall j :: 0 <= j < i ==> !polls[j].PollDone?
    requires Failures(polls[..i]) < retries
    ensures GetAsset(retries, apiKey, polls) == Finished(polls[i].response, i + 1)
  {
    if i > 0 {
      var rest := polls[1..];
      assert polls[..i][1..] == rest[..i - 1];
      assert forall j :: 0 <= j < i - 1 ==> rest[j] == polls[j + 1];
      var spent := if polls[0].PollFailed? then 1 else 0;
      assert Failures(polls[..i]) == spent + Failures(rest[..i - 1]);
      FirstDoneWithinBudget(retries - spent, apiKey, rest, i - 1);
    }
  }

  /** When the failed answer that spends the last unit of the budget comes before any done
      answer, the next call throws the max-retries error without another fetch. */
  lemma {:induction false} BudgetSpentBeforeDone(retries: int, apiKey: Option<string>, polls: seq<Poll>, i: nat)
    requires IsSet(apiKey)
    requires 0 < i <= |polls| && polls[i - 1].PollFailed?
    requires forall j :: 0 <= j < i ==> !polls[j].PollDone?
    requires Failures(polls[..i]) == retries
    ensures GetAsset(retries, apiKey, polls) == Thrown(MaxRetriesMessage, i)
  {
    FailuresPositive(polls[..i], i - 1);
    var rest := polls[1..];
    assert polls[..i][1..] == rest[..i - 1];
    var spent := if polls[0].PollFailed? then 1 else 0;
    assert Failures(polls[..i]) == spent + Failures(rest[..i - 1]);
    if i > 1 {
      assert forall j :: 0 <= j < i - 1 ==> rest[j] == polls[j + 1];
      BudgetSpentBeforeDone(retries - spent, apiKey, rest, i - 1);
    } else {
      assert rest[..0] == [];
    }
  }

  /** One failed answer and then a done one, with a budget of two: the done answer is
      returned after two fetches. */
  lemma RetryAfterFailure(apiKey: Option<string>, failure: Poll, response: Option<AssetResponse>)
    requires IsSet(apiKey) && failure.PollFailed?
    ensures GetAsset(2, apiKey, [failure, PollDone(response)]) == Finished(response, 2)
  {
    var polls := [failure, PollDone(response)];
    assert polls[..1] == [failure];
    assert Failures([failure]) == 1 by {
      assert [failure][1..] == [];
    }
    FirstDoneWithinBudget(2, apiKey, polls, 1);
  }

  lemma {:induction false} PendingFailsNothing(k: nat)
    ensures Failures(Pending(k)) == 0
  {
    if k > 0 {
      assert Pending(k)[1..] == Pending(k - 1);
      PendingFailsNothing(k - 1);
    }
  }

  function Pending(k: nat): (polls: seq<Poll>)
    ensures |polls| == k && forall i :: 0 <= i < k ==> polls[i] == PollPending
  {
    if k == 0 then [] else [PollPending] + Pending(k - 1)
  }

  // ---------------------------------------------------------------------------
  // Uploading (`uploadAsset`)

  datatype Creator = GroupCreator(groupId: string) | UserCreator(userId: Option<string>)

  /** The JSON `request` part of the multipart upload. */
  datatype UploadRequest = UploadRequest(assetType: string, displayName: string, description: string, creator: Creator)

  /** The answer to the POST of the upload. */
  datatype PostResponse =
    | PostRejected(status: nat, statusText: string, body: string)
    | PostAccepted(operationPath: string)

  /** What `uploadAsset` resolves to (`Returned`, possibly `undefined`) or rejects with. */
  datatype UploadResult = Returned(assetId: Option<string>) | Threw(message: string) | Unfinished

  /** The request that was sent, if any, and how the call ended. */
  datatype Upload = Upload(request: Option<UploadRequest>, result: UploadResult)

  /** The request `uploadAsset` builds for a file name. */
  function BuildRequest(filename: string, env: Env): (req: UploadRequest)
    ensures req.displayName == filename && req.description == Description
    ensures req.assetType == GuessAssetType(Lower(ExtName(filename)))
    ensures req.creator.GroupCreator? <==> IsSet(env.groupId)
    ensures req.creator.GroupCreator? ==> req.creator.groupId == env.groupId.value
    ensures req.creator.UserCreator? ==> req.creator.userId == env.userId
  {
    UploadRequest(
      GuessAssetType(Lower(ExtName(filename))),
      filename,
      Description,
      if IsSet(env.groupId) then GroupCreator(env.groupId.value) else UserCreator(env.userId))
  }

  function PostFailureMessage(status: nat, statusText: string, body: string): (m: string)
    ensures StartsWith(m, NatToString(status) + " " + statusText + "\n")
  {
    NatToString(status) + " " + statusText + "\n" + body
  }

  /**
   * `uploadAsset(filename, buffer)`: no request without an API key; otherwise one POST,
   * then `getAsset` on the returned operation with the default budget, and the finished
   * operation's `response.assetId`.
   */
  function UploadAsset(filename: string, env: Env, post: PostResponse, polls: seq<Poll>): (u: Upload)
    ensures !IsSet(env.apiKey) <==> u.request.None?
    ensures !IsSet(env.apiKey) ==> u.result == Threw(MissingApiKeyMessage)
    ensures u.request.Some? ==> u.request.value == BuildRequest(filename, env)
    ensures IsSet(env.apiKey) && post.PostRejected? ==>
      u.result == Threw(PostFailureMessage(post.status, post.statusText, post.body))
    ensures u.result.Returned? ==>
      post.PostAccepted? && exists n :: GetAsset(DefaultRetries, env.apiKey, polls) == Finished(Some(AssetResponse(u.result.assetId)), n)
    ensures IsSet(env.apiKey) && post.PostAccepted? ==>
      var g := GetAsset(DefaultRetries, env.apiKey, polls);
      (g.Finished? && g.response.Some? ==> u.result == Returned(g.response.value.assetId))
      && (g.Finished? && g.response.None? ==> u.result == Threw(MissingResponseMessage))
      && (g.Thrown? ==> u.result == Threw(g.message))
      && (g.OutOfAnswers? ==> u.result == Unfinished)
  {
    if !IsSet(env.apiKey) then Upload(None, Threw(MissingApiKeyMessage))
    else
      var request := BuildRequest(filename, env);
      match post
      case PostRejected(status, statusText, body) =>
        Upload(Some(request), Threw(PostFailureMessage(status, statusText, body)))
      case PostAccepted(_) =>
        var result := match GetAsset(DefaultRetries, env.apiKey, polls)
          case Finished(Some(response), _) => Returned(response.assetId)
          case Finished(None, _) => Threw(MissingResponseMessage)
          case Thrown(message, _) => Threw(message)
          case OutOfAnswers(_) => Unfinished;
        Upload(Some(request), result)
  }
}

=== FILE: bleed.dfy ===
/**
 * `src/bleed.ts`: alpha bleeding on a decoded RGBA buffer. Every fully transparent pixel
 * takes the colour of its first neighbour, in a fixed order of eight directions, that is
 * inside the image and not fully transparent; its alpha stays 0. The image codec is not
 * modelled: the buffer is the decoded raw RGBA bytes, one row after another.
 *
 * The pass works in place, so a pixel it has already filled could in principle serve as a
 * neighbour later. It cannot: a filled pixel keeps alpha 0. `BleedPass` is therefore proved
 * equal to `BledByte`, which reads only the original buffer.
 */
module Bleed {
  import opened Wrappers

  type Byte = b: int | 0 <= b < 256

  const Channels: nat := 4
  const InvalidDimensions: string := "Invalid image dimensions"

  /** The neighbour offsets `(dx, dy)`, in the order they are tried. */
  const Directions: seq<(int, int)> := [(-1, 0), (1, 0), (0, -1), (0, 1), (-1, -1), (-1, 1), (1, -1), (1, 1)]

  predicate InBounds(width: int, height: int, x: int, y: int) {
    x >= 0 && y >= 0 && x < width && y < height
  }

  /** The number of the pixel at `(x, y)`, row after row. */
  function PixelIndex(width: int, x: int, y: int): int {
    y * width + x
  }

  /** Pixels inside the image have numbers below `width * height`. */
  lemma PixelIndexBounds(width: int, height: int, x: int, y: int)
    requires InBounds(width, height, x, y)
    ensures 0 <= PixelIndex(width, x, y) < width * height
  {
    assert y * width <= (height - 1) * width by {
      MulLeft(y, height - 1, width);
    }
  }

  /** Different pixels inside the image have different numbers. */
  lemma PixelIndexInjective(width: int, height: int, x1: int, y1: int, x2: int, y2: int)
    requires InBounds(width, height, x1, y1) && InBounds(width, height, x2, y2)
    requires PixelIndex(width, x1, y1) == PixelIndex(width, x2, y2)
    ensures x1 == x2 && y1 == y2
  {
    if y1 < y2 {
      MulLeft(y1 + 1, y2, width);
    } else if y2 < y1 {
      MulLeft(y2 + 1, y1, width);
    }
  }

  lemma MulLeft(a: int, b: int, c: int)
    requires a <= b && 0 <= c
    ensures a * c <= b * c
  {
  }

  // ---------------------------------------------------------------------------
  // The buffer as an image

  /** A buffer holding `width * height` RGBA pixels. */
  predicate IsImage(s: seq<Byte>, width: nat, height: nat) {
    |s| == width * height * Channels
  }

  /** Channel `k` of the pixel at `(x, y)`: `raw[(y * width + x) * channels + k]`. */
  function At(s: seq<Byte>, width: nat, height: nat, x: int, y: int, k: int): Byte
    requires IsImage(s, width, height) && InBounds(width, height, x, y) && 0 <= k < Channels
  {
    PixelIndexBounds(width, height, x, y);
    s[PixelIndex(width, x, y) * Channels + k]
  }

  function Alpha(s: seq<Byte>, width: nat, height: nat, x: int, y: int): Byte
    requires IsImage(s, width, height) && InBounds(width, height, x, y)
  {
    At(s, width, height, x, y, 3)
  }

  /** Direction `d` from `(x, y)` leads to a pixel inside the image with alpha above 0. */
  predicate OpaqueNeighbour(s: seq<Byte>, width: nat, height: nat, x: int, y: int, d: nat)
    requires IsImage(s, width, height) && d < |Directions|
  {
    var nx, ny := x + Directions[d].0, y + Directions[d].1;
    InBounds(width, height, nx, ny) && Alpha(s, width, height, nx, ny) > 0
  }

  /** The first direction, from `d` on, that leads to an opaque neighbour. */
  function FirstOpaque(s: seq<Byte>, width: nat, height: nat, x: int, y: int, d: nat): (r: Option<nat>)
    requires IsImage(s, width, height) && d <= |Directions|
    decreases |Directions| - d
    ensures r.Some? ==> d <= r.value < |Directions| && OpaqueNeighbour(s, width, height, x, y, r.value)
    ensures r.Some? ==> forall e :: d <= e < r.value ==> !OpaqueNeighbour(s, width, height, x, y, e)
    ensures r.None? ==> forall e :: d <= e < |Directions| ==> !OpaqueNeighbour(s, width, height, x, y, e)
  {
    if d == |Directions| then None
    else if OpaqueNeighbour(s, width, height, x, y, d) then Some(d)
    else FirstOpaque(s, width, height, x, y, d + 1)
  }

  /** Channel `k` of the pixel at `(x, y)` after bleeding, computed from the original buffer:
      an opaque pixel, or a transparent one without an opaque neighbour, is as it was; any
      other takes its first opaque neighbour's colour with alpha 0. */
  function BledByte(s: seq<Byte>, width: nat, height: nat, x: int, y: int, k: int): Byte
    requires IsImage(s, width, height) && InBounds(width, height, x, y) && 0 <= k < Channels
  {
    if Alpha(s, width, height, x, y) != 0 then At(s, width, height, x, y, k)
    else
      match FirstOpaque(s, width, height, x, y, 0)
      case None => At(s, width, height, x, y, k)
      case Some(d) => if k == 3 then 0 else At(s, width, height, x + Directions[d].0, y + Directions[d].1, k)
  }

  /** Pixels with alpha above 0 are never modified. */
  lemma BledKeepsOpaque(s: seq<Byte>, width: nat, height: nat, x: int, y: int, k: int)
    requires IsImage(s, width, height) && InBounds(width, height, x, y) && 0 <= k < Channels
    requires Alpha(s, width, height, x, y) > 0
    ensures BledByte(s, width, height, x, y, k) == At(s, width, height, x, y, k)
  {
  }

  /** Bleeding never changes any pixel's alpha. */
  lemma BledKeepsAlpha(s: seq<Byte>, width: nat, height: nat, x: int, y: int)
    requires IsImage(s, width, height) && InBounds(width, height, x, y)
    ensures BledByte(s, width, height, x, y, 3) == Alpha(s, width, height, x, y)
  {
  }

  /** A transparent pixel with an opaque neighbour takes the colour of the first one in the
      order of `Directions`; no earlier direction leads to an opaque pixel. */
  lemma BledTakesFirstNeighbour(s: seq<Byte>, width: nat, height: nat, x: int, y: int, d: nat, k: int)
    requires IsImage(s, width, height) && InBounds(width, height, x, y) && 0 <= k < 3
    requires Alpha(s, width, height, x, y) == 0
    requires d < |Directions| && OpaqueNeighbour(s, width, height, x, y, d)
    requires forall e :: 0 <= e < d ==> !OpaqueNeighbour(s, width, height, x, y, e)
    ensures BledByte(s, width, height, x, y, k) == At(s, width, height, x + Directions[d].0, y + Directions[d].1, k)
  {
    assert FirstOpaque(s, width, height, x, y, 0) == Some(d);
  }

  // ---------------------------------------------------------------------------
  // Why reading the partly bled buffer is the same as reading the original

  /** Two buffers that agree on every alpha and on every opaque pixel find the same first
      opaque neighbour. */
  lemma {:induction false} FirstOpaqueAgrees(cur: seq<Byte>, orig: seq<Byte>, width: nat, height: nat, x: int, y: int, d: nat)
    requires IsImage(cur, width, height) && IsImage(orig, width, height) && d <= |Directions|
    requires forall x', y' :: InBounds(width, height, x', y') ==> Alpha(cur, width, height, x', y') == Alpha(orig, width, height, x', y')
    ensures FirstOpaque(cur, width, height, x, y, d) == FirstOpaque(orig, width, height, x, y, d)
    decreases |Directions| - d
  {
    if d < |Directions| {
      FirstOpaqueAgrees(cur, orig, width, height, x, y, d + 1);
    }
  }

  /** Bleeding a pixel of a buffer that agrees with the original on that pixel, on every
      alpha and on every opaque pixel gives the same bytes as bleeding it in the original. */
  lemma BledByteAgrees(cur: seq<Byte>, orig: seq<Byte>, width: nat, height: nat, x: int, y: int, k: int)
    requires IsImage(cur, width, height) && IsImage(orig, width, height)
    requires InBounds(width, height, x, y) && 0 <= k < Channels
    requires forall x', y' :: InBounds(width, height, x', y') ==> Alpha(cur, width, height, x', y') == Alpha(orig, width, height, x', y')
    requires forall x', y', j :: InBounds(width, height, x', y') && 0 <= j < Channels && Alpha(orig, width, height, x', y') > 0 ==>
      At(cur, width, height, x', y', j) == At(orig, width, height, x', y', j)
    requires At(cur, width, height, x, y, k) == At(orig, width, height, x, y, k)
    ensures BledByte(cur, width, height, x, y, k) == BledByte(orig, width, height, x, y, k)
  {
    FirstOpaqueAgrees(cur, orig, width, height, x, y, 0);
  }

  /** The buffer after the pixels before `(x, y)` in scan order have been bled and the rest
      have not been touched. */
  ghost predicate Processed(cur: seq<Byte>, orig: seq<Byte>, width: nat, height: nat, x: int, y: int)
    requires IsImage(cur, width, height) && IsImage(orig, width, height)
  {
    forall x', y', k :: InBounds(width, height, x', y') && 0 <= k < Channels ==>
      At(cur, width, height, x', y', k) ==
        if y' < y || (y' == y && x' < x) then BledByte(orig, width, height, x', y', k) else At(orig, width, height, x', y', k)
  }

  /** Part way through the pass the buffer still agrees with the original on every alpha and
      on every opaque pixel. */
  lemma ProcessedAgrees(cur: seq<Byte>, orig: seq<Byte>, width: nat, height: nat, x: int, y: int)
    requires IsImage(cur, width, height) && IsImage(orig, width, height) && Processed(cur, orig, width, height, x, y)
    ensures forall x', y' :: InBounds(width, height, x', y') ==> Alpha(cur, width, height, x', y') == Alpha(orig, width, height, x', y')
    ensures forall x', y', j :: InBounds(width, height, x', y') && 0 <= j < Channels && Alpha(orig, width, height, x', y') > 0 ==>
      At(cur, width, height, x', y', j) == At(orig, width, height, x', y', j)
  {
    forall x', y' | InBounds(width, height, x', y')
      ensures Alpha(cur, width, height, x', y') == Alpha(orig, width, height, x', y')
    {
      BledKeepsAlpha(orig, width, height, x', y');
    }
  }

  /** Bleeding the pixel at `(x, y)` of a buffer processed up to it, and touching no other
      byte, gives a buffer processed up to the next pixel. */
  lemma ProcessedStep(before: seq<Byte>, after: seq<Byte>, orig: seq<Byte>, width: nat, height: nat, x: int, y: int)
    requires IsImage(before, width, height) && IsImage(after, width, height) && IsImage(orig, width, height)
    requires InBounds(width, height, x, y) && Processed(before, orig, width, height, x, y)
    requires forall k :: 0 <= k < Channels ==> At(after, width, height, x, y, k) == BledByte(before, width, height, x, y, k)
    requires forall i :: 0 <= i < |after| && !(PixelIndex(width, x, y) * Channels <= i < PixelIndex(width, x, y) * Channels + Channels) ==>
      after[i] == before[i]
    ensures Processed(after, orig, width, height, x + 1, y)
  {
    ProcessedAgrees(before, orig, width, height, x, y);
    forall x', y', k | InBounds(width, height, x', y') && 0 <= k < Channels
      ensures At(after, width, height, x', y', k) ==
        if y' < y || (y' == y && x' < x + 1) then BledByte(orig, width, height, x', y', k) else At(orig, width, height, x', y', k)
    {
      if x' == x && y' == y {
        BledByteAgrees(before, orig, width, height, x, y, k);
      } else {
        PixelIndexBounds(width, height, x', y');
        PixelIndexBounds(width, height, x, y);
        if PixelIndex(width, x', y') == PixelIndex(width, x, y) {
          PixelIndexInjective(width, height, x', y', x, y);
        }
        assert At(after, width, height, x', y', k) == At(before, width, height, x', y', k);
      }
    }
  }

  /** A whole row processed is the start of the next row. */
  lemma ProcessedNextRow(cur: seq<Byte>, orig: seq<Byte>, width: nat, height: nat, y: int)
    requires IsImage(cur, width, height) && IsImage(orig, width, height)
    requires Processed(cur, orig, width, height, width, y)
    ensures Processed(cur, orig, width, height, 0, y + 1)
  {
  }

  // ---------------------------------------------------------------------------
  // The pass on the buffer

  /** `setPixel(x, y, rgba)`: the four bytes of one pixel are replaced and nothing else. */
  method SetPixel(raw: array<Byte>, width: nat, height: nat, x: int, y: int, rgba: seq<Byte>)
    requires IsImage(raw[..], width, height) && InBounds(width, height, x, y) && |rgba| == Channels
    modifies raw
    ensures forall k :: 0 <= k < Channels ==> At(raw[..], width, height, x, y, k) == rgba[k]
    ensures forall i :: 0 <= i < raw.Length && !(PixelIndex(width, x, y) * Channels <= i < PixelIndex(width, x, y) * Channels + Channels) ==>
      raw[i] == old(raw[i])
  {
    PixelIndexBounds(width, height, x, y);
    var i := PixelIndex(width, x, y) * Channels;
    raw[i] := rgba[0];
    raw[i + 1] := rgba[1];
    raw[i + 2] := rgba[2];
    raw[i + 3] := rgba[3];
    assert forall k :: 0 <= k < Channels ==> At(raw[..], width, height, x, y, k) == raw[i + k];
  }

  /** The loop over `directions` for one transparent pixel: the first direction leading to an
      opaque neighbour, found by trying them in order and stopping at the first hit. */
  method FindOpaqueNeighbour(raw: array<Byte>, width: nat, height: nat, x: int, y: int) returns (found: Option<nat>)
    requires IsImage(raw[..], width, height)
    ensures found == FirstOpaque(raw[..], width, height, x, y, 0)
  {
    ghost var image := raw[..];
    var d := 0;
    while d < |Directions|
      invariant 0 <= d <= |Directions|
      invariant FirstOpaque(image, width, height, x, y, 0) == FirstOpaque(image, width, height, x, y, d)
    {
      var (dx, dy) := Directions[d];
      var nx, ny := x + dx, y + dy;
      if InBounds(width, height, nx, ny) {
        PixelIndexBounds(width, height, nx, ny);
        var alpha := raw[PixelIndex(width, nx, ny) * Channels + 3];
        assert alpha == Alpha(image, width, height, nx, ny);
        if alpha > 0 {
          return Some(d);
        }
      }
      d := d + 1;
    }
    return None;
  }

  /** The loop body for one pixel: a transparent pixel with an opaque neighbour takes that
      neighbour's colour with alpha 0; every other pixel is left alone. */
  method BleedPixel(raw: array<Byte>, width: nat, height: nat, x: int, y: int)
    requires IsImage(raw[..], width, height) && InBounds(width, height, x, y)
    modifies raw
    ensures forall k :: 0 <= k < Channels ==> At(raw[..], width, height, x, y, k) == BledByte(old(raw[..]), width, height, x, y, k)
    ensures forall i :: 0 <= i < raw.Length && !(PixelIndex(width, x, y) * Channels <= i < PixelIndex(width, x, y) * Channels + Channels) ==>
      raw[i] == old(raw[i])
  {
    PixelIndexBounds(width, height, x, y);
    ghost var orig := raw[..];
    var i := PixelIndex(width, x, y) * Channels;
    assert Alpha(orig, width, height, x, y) == raw[i + 3];
    if raw[i + 3] == 0 {
      var found := FindOpaqueNeighbour(raw, width, height, x, y);
      if found.Some? {
        CopyNeighbour(raw, width, height, x, y, found.value);
      } else {
        BledUnchanged(orig, width, height, x, y);
      }
    } else {
      BledUnchanged(orig, width, height, x, y);
    }
  }

  /** The transparent pixel at `(x, y)` takes the colour of its first opaque neighbour, in
      direction `d`, with alpha 0. */
  method CopyNeighbour(raw: array<Byte>, width: nat, height: nat, x: int, y: int, d: nat)
    requires IsImage(raw[..], width, height) && InBounds(width, height, x, y)
    requires Alpha(raw[..], width, height, x, y) == 0 && FirstOpaque(raw[..], width, height, x, y, 0) == Some(d)
    modifies raw
    ensures forall k :: 0 <= k < Channels ==> At(raw[..], width, height, x, y, k) == BledByte(old(raw[..]), width, height, x, y, k)
    ensures forall i :: 0 <= i < raw.Length && !(PixelIndex(width, x, y) * Channels <= i < PixelIndex(width, x, y) * Channels + Channels) ==>
      raw[i] == old(raw[i])
  {
    BledFromNeighbour(raw[..], width, height, x, y, d);
    var j := PixelIndex(width, x + Directions[d].0, y + Directions[d].1) * Channels;
    SetPixel(raw, width, height, x, y, [raw[j], raw[j + 1], raw[j + 2], 0]);
  }

  /** A pixel that is opaque, or has no opaque neighbour, bleeds to itself. */
  lemma BledUnchanged(s: seq<Byte>, width: nat, height: nat, x: int, y: int)
    requires IsImage(s, width, height) && InBounds(width, height, x, y)
    requires Alpha(s, width, height, x, y) != 0 || FirstOpaque(s, width, height, x, y, 0).None?
    ensures forall k :: 0 <= k < Channels ==> BledByte(s, width, height, x, y, k) == At(s, width, height, x, y, k)
  {
  }

  /** A transparent pixel whose first opaque neighbour lies in direction `d` bleeds to that
      neighbour's colour channels and alpha 0. */
  lemma BledFromNeighbour(s: seq<Byte>, width: nat, height: nat, x: int, y: int, d: nat)
    requires IsImage(s, width, height) && InBounds(width, height, x, y)
    requires Alpha(s, width, height, x, y) == 0 && FirstOpaque(s, width, height, x, y, 0) == Some(d)
    ensures d < |Directions| && InBounds(width, height, x + Directions[d].0, y + Directions[d].1)
    ensures 0 <= PixelIndex(width, x + Directions[d].0, y + Directions[d].1) * Channels
    ensures PixelIndex(width, x + Directions[d].0, y + Directions[d].1) * Channels + Channels <= |s|
    ensures forall k :: 0 <= k < 3 ==>
      BledByte(s, width, height, x, y, k) == s[PixelIndex(width, x + Directions[d].0, y + Directions[d].1) * Channels + k]
    ensures BledByte(s, width, height, x, y, 3) == 0
  {
    PixelIndexBounds(width, height, x + Directions[d].0, y + Directions[d].1);
  }

  /** The nested loop over rows and columns: afterwards every byte is what bleeding the
      original buffer gives. */
  method BleedPass(raw: array<Byte>, width: nat, height: nat)
    requires IsImage(raw[..], width, height)
    modifies raw
    ensures forall x, y, k :: InBounds(width, height, x, y) && 0 <= k < Channels ==>
      At(raw[..], width, height, x, y, k) == BledByte(old(raw[..]), width, height, x, y, k)
  {
    ghost var orig := raw[..];
    var y := 0;
    while y < height
      invariant 0 <= y <= height
      invariant IsImage(raw[..], width, height)
      invariant Processed(raw[..], orig, width, height, 0, y)
    {
      var x := 0;
      while x < width
        invariant 0 <= x <= width
        invariant IsImage(raw[..], width, height)
        invariant Processed(raw[..], orig, width, height, x, y)
      {
        ghost var before := raw[..];
        BleedPixel(raw, width, height, x, y);
        ProcessedStep(before, raw[..], orig, width, height, x, y);
        x := x + 1;
      }
      ProcessedNextRow(raw[..], orig, width, height, y);
      y := y + 1;
    }
  }

  /** `bleedAlpha` once the image is decoded: a missing or zero width or height throws before
      any pixel is touched; otherwise the pass runs on the raw buffer. */
  method BleedAlpha(width: Option<nat>, height: Option<nat>, raw: array<Byte>) returns (error: Option<string>)
    requires width.Some? && width.value != 0 && height.Some? && height.value != 0 ==>
      IsImage(raw[..], width.value, height.value)
    modifies raw
    ensures error.Some? <==> width.None? || width.value == 0 || height.None? || height.value == 0
    ensures error.Some? ==> error.value == InvalidDimensions && raw[..] == old(raw[..])
    ensures error.None? ==> forall x, y, k :: InBounds(width.value, height.value, x, y) && 0 <= k < Channels ==>
      At(raw[..], width.value, height.value, x, y, k) == BledByte(old(raw[..]), width.value, height.value, x, y, k)
  {
    if width.None? || width.value == 0 || height.None? || height.value == 0 {
      return Some(InvalidDimensions);
    }
    BleedPass(raw, width.value, height.value);
    return None;
  }
}

=== FILE: github.dfy ===
/**
 * `src/github.ts`: sharing the cache through a JSON file in a GitHub repository. The file
 * maps a cache key to the asset ID and the path it was uploaded from. The GitHub API is
 * replaced by its answers; JSON and base64 encoding are not modelled, so a pushed file's
 * content is the record itself.
 */
module GitHub {
  import opened Wrappers
  import opened Text
  import opened Records
  import opened SyncState
  import Sync

  /** One value of the shared record. */
  datatype RemoteEntry = RemoteEntry(assetId: string, filePath: string)

  type RemoteMap = seq<Entry<RemoteEntry>>

  const AssetMapPath: string := "github-asset-map.json"
  const DefaultBranch: string := "main"

  // ---------------------------------------------------------------------------
  // Reading and writing one file of the repository

  /** What parsing the file's text produced. */
  datatype Parsed = ParseFailed | ParsedRecord(members: RemoteMap)

  /** The answer to `repos.getContent` for the shared file. */
  datatype ContentResponse =
    | RequestFailed                                      // the request threw
    | DirectoryListing                                   // `data` is an array
    | ContentItem(itemType: string, content: Option<Parsed>)  // `content` absent is `None`

  /** `fetchGithubAssetMap`: the parsed record, or an empty one whenever the request fails,
      the path is not a file with content, or the content is not valid JSON. */
  function FetchGithubAssetMap(response: ContentResponse): (remote: RemoteMap)
    ensures DistinctKeys(remote)
    ensures remote != [] ==>
      response.ContentItem? && response.itemType == "file" && response.content.Some? && response.content.value.ParsedRecord?
    ensures response.ContentItem? && response.itemType == "file" && response.content.Some? && response.content.value.ParsedRecord? ==>
      forall k :: Lookup(remote, k) == Lookup(FromEntries(response.content.value.members), k)
  {
    match response
    case ContentItem(itemType, Some(ParsedRecord(members))) =>
      if itemType == "file" then FromEntries(members) else []
    case _ => []
  }

  /** The answer to the `getContent` call `pushFileToGitHub` makes to find the current sha. */
  datatype ShaLookup = LookupFailed | LookupListing | LookupItem(sha: Option<string>)

  /** The sha sent with the commit: the existing file's sha when it has a non-empty one. */
  function ShaForUpdate(lookup: ShaLookup): (sha: Option<string>)
    ensures sha.Some? <==> lookup.LookupItem? && lookup.sha.Some? && lookup.sha.value != ""
    ensures sha.Some? ==> sha == lookup.sha
  {
    match lookup
    case LookupItem(Some(sha)) => if sha != "" then Some(sha) else None
    case _ => None
  }

  /** The `createOrUpdateFileContents` request. */
  datatype CommitRequest = CommitRequest(repoSlug: string, path: string, message: string,
                                         content: RemoteMap, branch: string, sha: Option<string>)

  datatype PushOutcome =
    | PushThrew(message: string)              // thrown before any request
    | Committed(request: CommitRequest)       // the commit was accepted
    | CommitRejected(request: CommitRequest)  // the commit request threw

  /** What calling `toString` on a missing `content` throws. */
  const MissingContentMessage: string := "Cannot read properties of undefined (reading 'toString')"

  /** `pushFileToGitHub`: encode the content, look up the current sha, commit. A missing
      `content` throws before either request is made. */
  function PushFileToGitHub(repoSlug: string, branch: string, content: Option<RemoteMap>, destPath: string,
                            commitMessage: string, lookup: ShaLookup, commitOk: bool): (r: PushOutcome)
    ensures content.None? <==> r.PushThrew?
    ensures content.Some? ==>
      r.request == CommitRequest(repoSlug, destPath, commitMessage, content.value, branch, ShaForUpdate(lookup))
      && (r.Committed? <==> commitOk)
  {
    match content
    case None => PushThrew(MissingContentMessage)
    case Some(record) =>
      var request := CommitRequest(repoSlug, destPath, commitMessage, record, branch, ShaForUpdate(lookup));
      if commitOk then Committed(request) else CommitRejected(request)
  }

  // ---------------------------------------------------------------------------
  // Pushing the local maps

  /** `Object.keys(cache).find(h => cache[h] === assetId)`: the first cache key holding the ID. */
  function FirstKeyWithValue(keys: seq<string>, cache: seq<Entry<string>>, assetId: string): (h: Option<string>)
    ensures h.Some? ==> h.value in keys && Lookup(cache, h.value) == Some(assetId)
    ensures h.None? ==> forall k :: k in keys ==> Lookup(cache, k) != Some(assetId)
    ensures h.Some? ==> exists j :: (0 <= j < |keys| && keys[j] == h.value
      && forall i :: 0 <= i < j ==> Lookup(cache, keys[i]) != Some(assetId))
  {
    if keys == [] then None
    else if Lookup(cache, keys[0]) == Some(assetId) then Some(keys[0])
    else
      var h := FirstKeyWithValue(keys[1..], cache, assetId);
      if h.Some? then
        var j :| 0 <= j < |keys[1..]| && keys[1..][j] == h.value
          && forall i :: 0 <= i < j ==> Lookup(cache, keys[1..][i]) != Some(assetId);
        assert forall i :: 1 <= i < j + 1 ==> keys[i] == keys[1..][i - 1];
        h
      else
        h
  }

  /** Entry `j` of the cache is the first whose key reads `assetId`. */
  predicate FirstHolder(cache: seq<Entry<string>>, assetId: string, j: int) {
    0 <= j < |cache| && Lookup(cache, cache[j].key) == Some(assetId)
    && forall i :: 0 <= i < j ==> Lookup(cache, cache[i].key) != Some(assetId)
  }

  /** The key a path entry is pushed under: the first cache key holding its asset ID, unless
      there is none or it is the empty string. */
  function PushKey(cache: seq<Entry<string>>, assetId: string): (h: Option<string>)
    ensures h.Some? ==> h.value != "" && Lookup(cache, h.value) == Some(assetId)
    ensures h.Some? ==> exists j :: FirstHolder(cache, assetId, j) && cache[j].key == h.value
    ensures h.None? <==> forall j :: FirstHolder(cache, assetId, j) ==> cache[j].key == ""
  {
    var f := FirstKeyWithValue(Keys(cache), cache, assetId);
    FirstKeyHolder(cache, assetId);
    FirstHolderUnique(cache, assetId);
    match f
    case Some(hash) => if hash != "" then Some(hash) else None
    case None => None
  }

  /** The key `find` returns over the cache's own keys is that of the first entry holding the ID. */
  lemma FirstKeyHolder(cache: seq<Entry<string>>, assetId: string)
    ensures var f := FirstKeyWithValue(Keys(cache), cache, assetId);
      (f.Some? ==> exists j :: FirstHolder(cache, assetId, j) && cache[j].key == f.value)
      && (f.None? ==> forall j :: !FirstHolder(cache, assetId, j))
  {
    var keys := Keys(cache);
    match FirstKeyWithValue(keys, cache, assetId)
    case Some(hash) =>
      var j :| 0 <= j < |keys| && keys[j] == hash && forall i :: 0 <= i < j ==> Lookup(cache, keys[i]) != Some(assetId);
      assert forall i :: 0 <= i <= j ==> keys[i] == cache[i].key;
      assert FirstHolder(cache, assetId, j);
    case None =>
      forall j | 0 <= j < |cache| ensures Lookup(cache, cache[j].key) != Some(assetId) {
        assert keys[j] == cache[j].key && keys[j] in keys;
      }
  }

  lemma FirstHolderUnique(cache: seq<Entry<string>>, assetId: string)
    ensures forall j1, j2 :: FirstHolder(cache, assetId, j1) && FirstHolder(cache, assetId, j2) ==> j1 == j2
  {
  }

  /** The record `pushGithubAssetMap` builds, one path entry after another. */
  function PushRecord(cache: seq<Entry<string>>, paths: seq<Entry<string>>): (record: RemoteMap)
    decreases |paths|
  {
    if paths == [] then []
    else
      var prev := PushRecord(cache, paths[..|paths| - 1]);
      var e := paths[|paths| - 1];
      match PushKey(cache, e.value)
      case Some(h) => Put(prev, h, RemoteEntry(e.value, e.key))
      case None => prev
  }

  /** A pushed entry comes from a path entry, under the key that entry is pushed under. */
  lemma {:induction false} PushRecordEntry(cache: seq<Entry<string>>, paths: seq<Entry<string>>, h: string)
    requires Lookup(PushRecord(cache, paths), h).Some?
    ensures var v := Lookup(PushRecord(cache, paths), h).value;
      PushKey(cache, v.assetId) == Some(h) && Lookup(cache, h) == Some(v.assetId)
      && exists i :: 0 <= i < |paths| && paths[i] == Entry(v.filePath, v.assetId)
  {
    var init := paths[..|paths| - 1];
    var e := paths[|paths| - 1];
    if PushKey(cache, e.value) == Some(h) {
      assert Lookup(PushRecord(cache, paths), h) == Some(RemoteEntry(e.value, e.key));
      assert paths[|paths| - 1] == Entry(e.key, e.value);
    } else {
      assert Lookup(PushRecord(cache, paths), h) == Lookup(PushRecord(cache, init), h);
      PushRecordEntry(cache, init, h);
      var v := Lookup(PushRecord(cache, paths), h).value;
      var i :| 0 <= i < |init| && init[i] == Entry(v.filePath, v.assetId);
      assert paths[i] == init[i];
    }
  }

  /** Every pushed entry agrees with both local maps. */
  lemma PushRecordSound(cache: seq<Entry<string>>, paths: seq<Entry<string>>, h: string)
    requires DistinctKeys(paths) && Lookup(PushRecord(cache, paths), h).Some?
    ensures var v := Lookup(PushRecord(cache, paths), h).value;
      Lookup(cache, h) == Some(v.assetId) && Lookup(paths, v.filePath) == Some(v.assetId)
  {
    PushRecordEntry(cache, paths, h);
    var v := Lookup(PushRecord(cache, paths), h).value;
    var i :| 0 <= i < |paths| && paths[i] == Entry(v.filePath, v.assetId);
    LookupAt(paths, i);
  }

  /** When several paths share a pushed key, the last of them is the one recorded; so every
      path whose asset ID has a non-empty cache key is represented under that key. */
  lemma {:induction false} PushRecordLastWins(cache: seq<Entry<string>>, paths: seq<Entry<string>>, j: nat, h: string)
    requires j < |paths| && PushKey(cache, paths[j].value) == Some(h)
    requires forall i :: j < i < |paths| ==> PushKey(cache, paths[i].value) != Some(h)
    ensures Lookup(PushRecord(cache, paths), h) == Some(RemoteEntry(paths[j].value, paths[j].key))
  {
    var init := paths[..|paths| - 1];
    PushRecordLast(cache, paths, h);
    if j < |paths| - 1 {
      assert forall i :: j < i < |init| ==> init[i] == paths[i];
      PushRecordLastWins(cache, init, j, h);
    }
  }

  /** What the last path entry does to the record under one key. */
  lemma PushRecordLast(cache: seq<Entry<string>>, paths: seq<Entry<string>>, h: string)
    requires paths != []
    ensures var e := paths[|paths| - 1];
      Lookup(PushRecord(cache, paths), h)
      == if PushKey(cache, e.value) == Some(h) then Some(RemoteEntry(e.value, e.key))
         else Lookup(PushRecord(cache, paths[..|paths| - 1]), h)
  {
  }

  /** A path entry whose asset ID has no pushable cache key contributes nothing. */
  lemma {:induction false} PushRecordDropsUnkeyed(cache: seq<Entry<string>>, paths: seq<Entry<string>>, h: string)
    requires forall i :: 0 <= i < |paths| ==> PushKey(cache, paths[i].value) != Some(h)
    ensures Lookup(PushRecord(cache, paths), h) == None
  {
    if paths != [] {
      PushRecordDropsUnkeyed(cache, paths[..|paths| - 1], h);
    }
  }

  /** The loop of `pushGithubAssetMap` that builds the record. */
  method BuildPushRecord(cache: seq<Entry<string>>, paths: seq<Entry<string>>) returns (hashMap: RemoteMap)
    ensures hashMap == PushRecord(cache, paths)
  {
    hashMap := [];
    var i := 0;
    while i < |paths|
      invariant 0 <= i <= |paths|
      invariant hashMap == PushRecord(cache, paths[..i])
    {
      assert paths[..i + 1][..i] == paths[..i];
      var hash := FirstKeyWithValue(Keys(cache), cache, paths[i].value);
      if hash.Some? && hash.value != "" {
        hashMap := Put(hashMap, hash.value, RemoteEntry(paths[i].value, paths[i].key));
      }
      i := i + 1;
    }
    assert paths[..|paths|] == paths;
  }

  /** The configuration checks push and pull start with. */
  datatype Gate = NotConfigured | MissingToken | Proceed(token: string)

  function CheckConfiguration(repoSlug: string, branch: string, token: Option<string>): (g: Gate)
    ensures g.NotConfigured? <==> repoSlug == "" || branch == ""
    ensures g.Proceed? <==> repoSlug != "" && branch != "" && token.Some? && token.value != ""
    ensures g.Proceed? ==> g.token == token.value
  {
    if repoSlug == "" || branch == "" then NotConfigured
    else if token.None? || token.value == "" then MissingToken
    else Proceed(token.value)
  }

  datatype PushResult = PushSkipped(gate: Gate) | PushAttempted(outcome: PushOutcome)

  /** `pushGithubAssetMap`: the record built from the local maps, committed to the shared file.
      The local maps are only read. */
  method PushGithubAssetMap(store: Sync.AssetStore, repoSlug: string, branch: string, token: Option<string>,
                            lookup: ShaLookup, commitOk: bool) returns (result: PushResult)
    ensures !CheckConfiguration(repoSlug, branch, token).Proceed? ==> result == PushSkipped(CheckConfiguration(repoSlug, branch, token))
    ensures CheckConfiguration(repoSlug, branch, token).Proceed? ==>
      result == PushAttempted(PushFileToGitHub(repoSlug, branch, Some(PushRecord(store.cache, store.paths)), AssetMapPath,
                                               "Update asset map from asset sync", lookup, commitOk))
  {
    var gate := CheckConfiguration(repoSlug, branch, token);
    if !gate.Proceed? {
      return PushSkipped(gate);
    }
    var hashMap := BuildPushRecord(store.cache, store.paths);
    var outcome := PushFileToGitHub(repoSlug, branch, Some(hashMap), AssetMapPath, "Update asset map from asset sync", lookup, commitOk);
    return PushAttempted(outcome);
  }

  // ---------------------------------------------------------------------------
  // Pulling into the local maps

  /** The cache after assigning each remote entry's asset ID under its key, in order. */
  function MergeCache(cache: seq<Entry<string>>, remote: RemoteMap): seq<Entry<string>>
    decreases |remote|
  {
    if remote == [] then cache
    else
      var e := remote[|remote| - 1];
      Put(MergeCache(cache, remote[..|remote| - 1]), e.key, e.value.assetId)
  }

  /** The path map after assigning each remote entry's asset ID under its file path, in order. */
  function MergePaths(paths: seq<Entry<string>>, remote: RemoteMap): seq<Entry<string>>
    decreases |remote|
  {
    if remote == [] then paths
    else
      var e := remote[|remote| - 1];
      Put(MergePaths(paths, remote[..|remote| - 1]), e.value.filePath, e.value.assetId)
  }

  /** The store after a pull: both maps merged, written directly, so the dirty flags, the
      persistence state and the written files are untouched. */
  function MergeRemote(s: Store, remote: RemoteMap): Store
  {
    s.(cache := MergeCache(s.cache, remote), paths := MergePaths(s.paths, remote))
  }

  /** After a pull every remote key holds its remote asset ID, overwriting any local value, and
      every remote path holds the asset ID of the last remote entry naming it. */
  lemma {:induction false} MergeRemoteApplies(s: Store, remote: RemoteMap, j: nat)
    requires DistinctKeys(remote) && j < |remote|
    ensures Lookup(MergeRemote(s, remote).cache, remote[j].key) == Some(remote[j].value.assetId)
    ensures (forall i :: j < i < |remote| ==> remote[i].value.filePath != remote[j].value.filePath) ==>
      Lookup(MergeRemote(s, remote).paths, remote[j].value.filePath) == Some(remote[j].value.assetId)
  {
    if j < |remote| - 1 {
      var init := remote[..|remote| - 1];
      assert forall i :: j < i < |init| ==> init[i] == remote[i];
      MergeRemoteApplies(s, init, j);
    }
  }

  /** A pull leaves every key and path the remote record does not mention as it was. */
  lemma {:induction false} MergeRemoteKeepsOthers(s: Store, remote: RemoteMap, h: string, p: string)
    requires forall i :: 0 <= i < |remote| ==> remote[i].key != h && remote[i].value.filePath != p
    ensures Lookup(MergeRemote(s, remote).cache, h) == Lookup(s.cache, h)
    ensures Lookup(MergeRemote(s, remote).paths, p) == Lookup(s.paths, p)
  {
    if remote != [] {
      MergeRemoteKeepsOthers(s, remote[..|remote| - 1], h, p);
    }
  }

  datatype PullResult = PullSkipped(gate: Gate) | Pulled(remote: RemoteMap)

  /** The loop of `pullGithubAssetMap`: assign each remote entry into the cache under its key and
      into the path map under its file path, in record order. */
  method ApplyRemote(store: Sync.AssetStore, remote: RemoteMap)
    requires store.Valid()
    modifies store
    ensures store.Valid()
    ensures store.Model() == MergeRemote(old(store.Model()), remote)
  {
    var cache, paths := store.cache, store.paths;
    var i := 0;
    while i < |remote|
      invariant 0 <= i <= |remote|
      invariant DistinctKeys(cache) && DistinctKeys(paths)
      invariant cache == MergeCache(store.cache, remote[..i])
      invariant paths == MergePaths(store.paths, remote[..i])
      invariant unchanged(store)
    {
      var e := remote[i];
      assert remote[..i + 1][..i] == remote[..i] && remote[..i + 1][i] == e;
      PutKeepsDistinct(cache, e.key, e.value.assetId);
      PutKeepsDistinct(paths, e.value.filePath, e.value.assetId);
      cache := Put(cache, e.key, e.value.assetId);
      paths := Put(paths, e.value.filePath, e.value.assetId);
      i := i + 1;
    }
    assert remote[..|remote|] == remote;
    store.cache, store.paths := cache, paths;
  }

  /** `pullGithubAssetMap`: when configured, fetch the shared record and merge it into both maps. */
  method PullGithubAssetMap(store: Sync.AssetStore, repoSlug: string, branch: string, token: Option<string>,
                            response: ContentResponse) returns (result: PullResult)
    requires store.Valid()
    modifies store
    ensures store.Valid()
    ensures !CheckConfiguration(repoSlug, branch, token).Proceed? ==>
      result == PullSkipped(CheckConfiguration(repoSlug, branch, token)) && store.Model() == old(store.Model())
    ensures CheckConfiguration(repoSlug, branch, token).Proceed? ==>
      result == Pulled(FetchGithubAssetMap(response)) && store.Model() == MergeRemote(old(store.Model()), result.remote)
  {
    var gate := CheckConfiguration(repoSlug, branch, token);
    if !gate.Proceed? {
      return PullSkipped(gate);
    }
    var remoteMap := FetchGithubAssetMap(response);
    ApplyRemote(store, remoteMap);
    return Pulled(remoteMap);
  }
}

=== FILE: install.dfy ===
/**
 * `src/package/install.ts`: download the shared record and add every entry published under
 * a namespace to the local path map as `@namespace/name`, then save.
 *
 * The script assigns into `pathToAssetIdMap` directly, so the asset map is not marked dirty
 * and the following `save()` does not write it. `DownloadAssetLibraryAsWritten` models the
 * script as it is; `DownloadAssetLibrary` goes through `setPathMapping`, which is what the
 * saved asset map needs.
 */
module Install {
  import opened Wrappers
  import opened Text
  import opened Records
  import opened SyncState
  import opened GitHub
  import Sync

  /** `key.startsWith(`${namespace}/`)`. */
  predicate InNamespace(namespace: string, key: string) {
    StartsWith(key, namespace + "/")
  }

  /** Some key of the record is published under the namespace. */
  predicate AnyInNamespace(namespace: string, remote: RemoteMap) {
    exists i :: 0 <= i < |remote| && InNamespace(namespace, remote[i].key)
  }

  /** Extending a record by one entry: some key matches iff one did before or the new one does. */
  lemma AnyInNamespaceStep(namespace: string, remote: RemoteMap, n: nat)
    requires n < |remote|
    ensures AnyInNamespace(namespace, remote[..n + 1]) <==>
      AnyInNamespace(namespace, remote[..n]) || InNamespace(namespace, remote[n].key)
  {
    var prefix := remote[..n + 1];
    if AnyInNamespace(namespace, prefix) && !InNamespace(namespace, remote[n].key) {
      var i :| 0 <= i < |prefix| && InNamespace(namespace, prefix[i].key);
      assert remote[..n][i] == prefix[i];
    }
    if AnyInNamespace(namespace, remote[..n]) {
      var i :| 0 <= i < n && InNamespace(namespace, remote[..n][i].key);
      assert prefix[i] == remote[..n][i];
    }
    assert prefix[n] == remote[n];
  }

  /** The path key a matching remote key is installed under: the namespace, prefixed with `@`,
      and the rest of the key. It is the remote key itself behind an `@`. */
  function InjectedKey(namespace: string, key: string): (p: string)
    requires InNamespace(namespace, key)
    ensures p == "@" + key
    ensures StartsWith(p, "@" + namespace + "/")
  {
    var assetName := key[|namespace| + 1..];
    assert key == key[..|namespace| + 1] + assetName;
    "@" + namespace + "/" + assetName
  }

  /** Different remote keys are installed under different path keys. */
  lemma InjectedKeyInjective(namespace: string, k1: string, k2: string)
    requires InNamespace(namespace, k1) && InNamespace(namespace, k2)
    ensures InjectedKey(namespace, k1) == InjectedKey(namespace, k2) <==> k1 == k2
  {
    if InjectedKey(namespace, k1) == InjectedKey(namespace, k2) {
      assert k1 == InjectedKey(namespace, k1)[1..];
      assert k2 == InjectedKey(namespace, k2)[1..];
    }
  }

  // ---------------------------------------------------------------------------
  // The path map after installing

  /** The path map after assigning, in record order, the asset ID of every entry under the
      namespace to its injected key. The remote file path is not used. */
  function Inject(paths: seq<Entry<string>>, namespace: string, remote: RemoteMap): seq<Entry<string>>
    decreases |remote|
  {
    if remote == [] then paths
    else
      var prev := Inject(paths, namespace, remote[..|remote| - 1]);
      var e := remote[|remote| - 1];
      if InNamespace(namespace, e.key) then Put(prev, InjectedKey(namespace, e.key), e.value.assetId) else prev
  }

  /** One more entry of the record: the path map as before, with that entry installed if it
      is under the namespace. */
  lemma InjectStep(paths: seq<Entry<string>>, namespace: string, remote: RemoteMap, n: nat)
    requires n < |remote|
    ensures Inject(paths, namespace, remote[..n + 1]) ==
      if InNamespace(namespace, remote[n].key)
      then Put(Inject(paths, namespace, remote[..n]), InjectedKey(namespace, remote[n].key), remote[n].value.assetId)
      else Inject(paths, namespace, remote[..n])
  {
    assert remote[..n + 1][..n] == remote[..n];
  }

  /** Every entry under the namespace is installed with its asset ID. */
  lemma {:induction false} InjectApplies(paths: seq<Entry<string>>, namespace: string, remote: RemoteMap, j: nat)
    requires DistinctKeys(remote) && j < |remote| && InNamespace(namespace, remote[j].key)
    ensures Lookup(Inject(paths, namespace, remote), "@" + remote[j].key) == Some(remote[j].value.assetId)
  {
    var init := remote[..|remote| - 1];
    var e := remote[|remote| - 1];
    if j < |remote| - 1 {
      assert init[j] == remote[j];
      assert DistinctKeys(init);
      InjectApplies(paths, namespace, init, j);
      if InNamespace(namespace, e.key) {
        InjectedKeyInjective(namespace, e.key, remote[j].key);
      }
    }
  }

  /** Path keys outside `@namespace/` keep their values: other libraries and the project's
      own files are untouched. */
  lemma {:induction false} InjectKeepsOthers(paths: seq<Entry<string>>, namespace: string, remote: RemoteMap, p: string)
    requires !StartsWith(p, "@" + namespace + "/")
    ensures Lookup(Inject(paths, namespace, remote), p) == Lookup(paths, p)
  {
    if remote != [] {
      InjectKeepsOthers(paths, namespace, remote[..|remote| - 1], p);
    }
  }

  /** Looking up an installed key: a remote key `k` under the namespace is found at `@k`
      with the asset ID the record holds for `k`. */
  lemma InjectLookup(paths: seq<Entry<string>>, namespace: string, remote: RemoteMap, k: string)
    requires DistinctKeys(remote) && InNamespace(namespace, k) && Lookup(remote, k).Some?
    ensures Lookup(Inject(paths, namespace, remote), "@" + k) == Some(Lookup(remote, k).value.assetId)
  {
    LookupFound(remote, k);
    var j :| 0 <= j < |remote| && remote[j].key == k && remote[j].value == Lookup(remote, k).value;
    InjectApplies(paths, namespace, remote, j);
  }

  // ---------------------------------------------------------------------------
  // The script as written: direct assignment

  /** The loop of `downloadAssetLibrary` as written, on the path map: each key under the
      namespace is assigned directly; `found` records whether any matched. */
  method AssignLibrary(paths: seq<Entry<string>>, namespace: string, remoteMap: RemoteMap)
    returns (paths': seq<Entry<string>>, found: bool)
    requires DistinctKeys(paths)
    ensures DistinctKeys(paths')
    ensures paths' == Inject(paths, namespace, remoteMap)
    ensures found <==> AnyInNamespace(namespace, remoteMap)
  {
    paths' := paths;
    found := false;
    var i := 0;
    while i < |remoteMap|
      invariant 0 <= i <= |remoteMap|
      invariant DistinctKeys(paths')
      invariant paths' == Inject(paths, namespace, remoteMap[..i])
      invariant found <==> AnyInNamespace(namespace, remoteMap[..i])
    {
      var e := remoteMap[i];
      InjectStep(paths, namespace, remoteMap, i);
      AnyInNamespaceStep(namespace, remoteMap, i);
      if StartsWith(e.key, namespace + "/") {
        var injected := InjectedKey(namespace, e.key);
        PutKeepsDistinct(paths', injected, e.value.assetId);
        paths' := Put(paths', injected, e.value.assetId);
        found := true;
      }
      i := i + 1;
    }
    assert remoteMap[..|remoteMap|] == remoteMap;
  }

  /** `downloadAssetLibrary` as written: `found` says whether any key matched; the cache is
      not touched, the path map is assigned directly and `save()` follows. */
  method DownloadAssetLibraryAsWritten(store: Sync.AssetStore, namespace: string, response: ContentResponse,
                                       cacheOk: bool, assetMapOk: bool) returns (found: bool, saved: Saved)
    requires store.Valid()
    modifies store
    ensures store.Valid()
    ensures found <==> AnyInNamespace(namespace, FetchGithubAssetMap(response))
    ensures saved == SyncState.Save(old(store.Model()).(paths := Inject(old(store.paths), namespace, FetchGithubAssetMap(response))),
                                    cacheOk, assetMapOk)
    ensures store.Model() == saved.store
  {
    var remoteMap := FetchGithubAssetMap(response);
    var paths;
    paths, found := AssignLibrary(store.paths, namespace, remoteMap);
    store.paths := paths;
    saved := store.Save(cacheOk, assetMapOk);
  }

  /** In a fresh process (`sync.ts` has just loaded the cache file, the path map is empty)
      the installed mappings are present but `save()` writes nothing at all. */
  lemma InstallAsWrittenWritesNothing(file: CacheFileState, cachePath: string, namespace: string, remote: RemoteMap,
                                      cacheOk: bool, assetMapOk: bool)
    requires DistinctKeys(remote) && AnyInNamespace(namespace, remote)
    ensures var s := SyncState.Load(file, cachePath);
      Inject(s.paths, namespace, remote) != [] &&
      SyncState.Save(s.(paths := Inject(s.paths, namespace, remote)), cacheOk, assetMapOk).store.writes == []
  {
    var s := SyncState.Load(file, cachePath);
    var j :| 0 <= j < |remote| && InNamespace(namespace, remote[j].key);
    InjectApplies(s.paths, namespace, remote, j);
  }

  // ---------------------------------------------------------------------------
  // Installing through `setPathMapping`

  /** The store after `setPathMapping(@key, assetId)` for every entry under the namespace. */
  function InjectMappings(s: Store, namespace: string, remote: RemoteMap): Store
    decreases |remote|
  {
    if remote == [] then s
    else
      var prev := InjectMappings(s, namespace, remote[..|remote| - 1]);
      var e := remote[|remote| - 1];
      if InNamespace(namespace, e.key) then SetPathMapping(prev, InjectedKey(namespace, e.key), e.value.assetId) else prev
  }

  /** One more entry of the record: the store as before, with that entry recorded through
      `setPathMapping` if it is under the namespace. */
  lemma InjectMappingsStep(s: Store, namespace: string, remote: RemoteMap, n: nat)
    requires n < |remote|
    ensures InjectMappings(s, namespace, remote[..n + 1]) ==
      if InNamespace(namespace, remote[n].key)
      then SetPathMapping(InjectMappings(s, namespace, remote[..n]), InjectedKey(namespace, remote[n].key), remote[n].value.assetId)
      else InjectMappings(s, namespace, remote[..n])
  {
    assert remote[..n + 1][..n] == remote[..n];
  }

  /** Going through `setPathMapping` installs the same path map as direct assignment and
      changes nothing else but the asset map's dirty flag. */
  lemma {:induction false} InjectMappingsPaths(s: Store, namespace: string, remote: RemoteMap)
    ensures InjectMappings(s, namespace, remote) ==
      s.(paths := Inject(s.paths, namespace, remote), assetMapDirty := InjectMappings(s, namespace, remote).assetMapDirty)
  {
    if remote != [] {
      var init := remote[..|remote| - 1];
      var e := remote[|remote| - 1];
      InjectMappingsPaths(s, namespace, init);
      if InNamespace(namespace, e.key) {
        var prev := InjectMappings(s, namespace, init);
        if Lookup(prev.paths, InjectedKey(namespace, e.key)) == Some(e.value.assetId) {
          PutSame(prev.paths, InjectedKey(namespace, e.key), e.value.assetId);
        }
      }
    }
  }

  /** A path map that ends up different from where it started is marked dirty. */
  lemma {:induction false} InjectMappingsMarksDirty(s: Store, namespace: string, remote: RemoteMap)
    ensures InjectMappings(s, namespace, remote).paths != s.paths ==> InjectMappings(s, namespace, remote).assetMapDirty
  {
    if remote != [] {
      InjectMappingsMarksDirty(s, namespace, remote[..|remote| - 1]);
    }
  }

  /** Installed through `setPathMapping` in a fresh process with persistence enabled, a
      successful `save()` ends by writing the asset map module with the installed mappings. */
  lemma InstallWritesAssetMap(file: CacheFileState, cachePath: string, namespace: string, remote: RemoteMap, cacheOk: bool)
    requires file.NoCacheFile? || file.ParsedObject?
    requires DistinctKeys(remote) && AnyInNamespace(namespace, remote)
    ensures var s := SyncState.Load(file, cachePath);
      var w := SyncState.Save(InjectMappings(s, namespace, remote), cacheOk, true).store.writes;
      w != [] && w[|w| - 1] == AssetMapFile(AssetMapText(Inject([], namespace, remote)))
  {
    var s := SyncState.Load(file, cachePath);
    var j :| 0 <= j < |remote| && InNamespace(namespace, remote[j].key);
    InjectApplies(s.paths, namespace, remote, j);
    InjectMappingsPaths(s, namespace, remote);
    InjectMappingsMarksDirty(s, namespace, remote);
    var t := InjectMappings(s, namespace, remote);
    assert t.paths != s.paths by {
      assert Lookup(t.paths, "@" + remote[j].key).Some?;
    }
    var c := SyncState.SaveCache(t, cacheOk).store;
    assert c.paths == t.paths && c.assetMapDirty && !PersistenceDisabled(c);
  }

  /** One entry of the fetched record: recorded through `setPathMapping` under its injected
      key when it is under the namespace, ignored otherwise. */
  method RecordEntry(store: Sync.AssetStore, namespace: string, e: Entry<RemoteEntry>) returns (hit: bool)
    requires store.Valid()
    modifies store
    ensures store.Valid()
    ensures hit <==> InNamespace(namespace, e.key)
    ensures store.Model() == if hit then SetPathMapping(old(store.Model()), InjectedKey(namespace, e.key), e.value.assetId)
                             else old(store.Model())
  {
    hit := StartsWith(e.key, namespace + "/");
    if hit {
      var injected := InjectedKey(namespace, e.key);
      store.SetPathMapping(injected, e.value.assetId);
    }
  }

  /** The assignment loop of `downloadAssetLibrary`, each mapping recorded through
      `setPathMapping`. */
  method RecordLibrary(store: Sync.AssetStore, namespace: string, remoteMap: RemoteMap) returns (found: bool)
    requires store.Valid()
    modifies store
    ensures store.Valid()
    ensures store.Model() == InjectMappings(old(store.Model()), namespace, remoteMap)
    ensures found <==> AnyInNamespace(namespace, remoteMap)
  {
    ghost var start := store.Model();
    found := false;
    var i := 0;
    while i < |remoteMap|
      invariant 0 <= i <= |remoteMap|
      invariant store.Valid()
      invariant store.Model() == InjectMappings(start, namespace, remoteMap[..i])
      invariant found <==> AnyInNamespace(namespace, remoteMap[..i])
    {
      InjectMappingsStep(start, namespace, remoteMap, i);
      AnyInNamespaceStep(namespace, remoteMap, i);
      var hit := RecordEntry(store, namespace, remoteMap[i]);
      found := found || hit;
      i := i + 1;
    }
    assert remoteMap[..|remoteMap|] == remoteMap;
  }

  /** `downloadAssetLibrary` with each mapping recorded through `setPathMapping`. */
  method DownloadAssetLibrary(store: Sync.AssetStore, namespace: string, response: ContentResponse,
                              cacheOk: bool, assetMapOk: bool) returns (found: bool, saved: Saved)
    requires store.Valid()
    modifies store
    ensures store.Valid()
    ensures found <==> AnyInNamespace(namespace, FetchGithubAssetMap(response))
    ensures saved == SyncState.Save(InjectMappings(old(store.Model()), namespace, FetchGithubAssetMap(response)),
                                    cacheOk, assetMapOk)
    ensures store.Model() == saved.store
  {
    var remoteMap := FetchGithubAssetMap(response);
    found := RecordLibrary(store, namespace, remoteMap);
    saved := store.Save(cacheOk, assetMapOk);
  }
}

=== FILE: nodepath.dfy ===
/**
 * The parts of Node's POSIX `path` module that the source calls: `basename`,
 * `extname`, `parse(..).name`, `join`, `resolve` and `relative`. A path is a list of
 * segments; `join` and `resolve` normalise it as Node does.
 */
module NodePath {
  import opened Wrappers
  import opened Text

  /** A path as a caller writes it: absolute (leading `/`) or relative to the working directory. */
  datatype PathArg = PathArg(absolute: bool, segments: seq<string>)

  /** A plain path segment: not empty, not `.` or `..`, no separator. */
  predicate IsName(segment: string) {
    segment != "" && segment != "." && segment != ".." && '/' !in segment
  }

  predicate AllNames(segments: seq<string>) {
    forall i :: 0 <= i < |segments| ==> IsName(segments[i])
  }

  /** The text of a path argument. For plain names, it starts with `/` exactly when the path
      is absolute, and `path.basename` of it is the last segment. */
  function PathText(p: PathArg): (t: string)
    ensures AllNames(p.segments) ==> (StartsWith(t, "/") <==> p.absolute)
    ensures AllNames(p.segments) ==>
      Basename(t) == if p.segments == [] then "" else p.segments[|p.segments| - 1]
  {
    if AllNames(p.segments) then
      JoinedPath(p.absolute, p.segments);
      (if p.absolute then "/" else "") + Join(p.segments, "/")
    else
      (if p.absolute then "/" else "") + Join(p.segments, "/")
  }

  /** The facts `PathText` states, about its text. */
  lemma JoinedPath(absolute: bool, segments: seq<string>)
    requires AllNames(segments)
    ensures var t := (if absolute then "/" else "") + Join(segments, "/");
      (StartsWith(t, "/") <==> absolute)
      && Basename(t) == if segments == [] then "" else segments[|segments| - 1]
  {
    var prefix := if absolute then "/" else "";
    var t := prefix + Join(segments, "/");
    if segments == [] {
      assert t == prefix;
      if absolute {
        assert StripTrailingSlashes(t) == StripTrailingSlashes("");
      }
    } else {
      assert IsName(segments[0]);
      JoinFirstChar(segments, "/");
      assert !absolute ==> t[0] == segments[0][0];
      JoinBasename(prefix, segments);
    }
  }

  /** A normalised path: no empty or `.` segment, and `..` only at the start of a relative
      path. */
  predicate IsNormal(absolute: bool, segments: seq<string>) {
    forall i :: 0 <= i < |segments| ==>
      segments[i] != "" && segments[i] != "."
      && (segments[i] == ".." ==> !absolute && forall j :: 0 <= j < i ==> segments[j] == "..")
  }

  /**
   * `path.normalize` on segments: empty and `.` segments vanish and `..` cancels the
   * segment before it. At the root `..` stays at the root; in a relative path a `..` with
   * nothing left to cancel is kept.
   */
  function Normalize(absolute: bool, segments: seq<string>): (r: seq<string>)
    decreases |segments|
    ensures IsNormal(absolute, r)
  {
    if segments == [] then []
    else
      var prev := Normalize(absolute, segments[..|segments| - 1]);
      var s := segments[|segments| - 1];
      if s == "" || s == "." then prev
      else if s == ".." then
        if prev != [] && prev[|prev| - 1] != ".." then prev[..|prev| - 1]
        else if absolute then prev
        else
          assert forall i :: 0 <= i < |prev| ==> prev[i] == "..";
          prev + [".."]
      else prev + [s]
  }

  /** A path already in normal form is left as it is, so normalising twice is normalising once. */
  lemma {:induction false} NormalizeNormal(absolute: bool, segments: seq<string>)
    requires IsNormal(absolute, segments)
    ensures Normalize(absolute, segments) == segments
  {
    if segments != [] {
      var n := |segments| - 1;
      NormalizeNormal(absolute, segments[..n]);
      if segments[n] == ".." {
        assert n > 0 ==> segments[n - 1] == "..";
      }
    }
  }

  lemma NormalizeIdempotent(absolute: bool, segments: seq<string>)
    ensures Normalize(absolute, Normalize(absolute, segments)) == Normalize(absolute, segments)
  {
    NormalizeNormal(absolute, Normalize(absolute, segments));
  }

  /** Appending a plain name to a path appends it to the normalised path. */
  lemma NormalizeAppendName(absolute: bool, segments: seq<string>, name: string)
    requires IsName(name)
    ensures Normalize(absolute, segments + [name]) == Normalize(absolute, segments) + [name]
  {
    assert (segments + [name])[..|segments|] == segments;
  }

  /** `path.join(dir, name)`, as segments. */
  function JoinName(dir: PathArg, name: string): (p: PathArg)
    ensures p.absolute == dir.absolute && IsNormal(p.absolute, p.segments)
  {
    PathArg(dir.absolute, Normalize(dir.absolute, dir.segments + [name]))
  }

  /** Joining drops a leading `./`: `path.join("./assets", "a.png")` is `assets/a.png`. */
  lemma JoinCurrentDirectory()
    ensures PathText(JoinName(PathArg(false, [".", "assets"]), "a.png")) == "assets/a.png"
  {
    NormalizeCurrentDirectory();
    assert Join(["assets", "a.png"], "/") == "assets" + "/" + Join(["a.png"], "/");
  }

  lemma NormalizeCurrentDirectory()
    ensures Normalize(false, [".", "assets"] + ["a.png"]) == ["assets", "a.png"]
  {
    assert Normalize(false, [".", "assets"]) == ["assets"] by {
      assert [".", "assets"] == ["."] + ["assets"];
      assert Normalize(false, ["."]) == [] by {
        assert ["."][..0] == [];
      }
      NormalizeAppendName(false, ["."], "assets");
    }
    NormalizeAppendName(false, [".", "assets"], "a.png");
  }

  /** `path.resolve(p)` with working directory `cwd`, as absolute segments. A path of plain
      names resolves to itself when absolute and to the working directory followed by it
      otherwise. */
  function Resolve(cwd: seq<string>, p: PathArg): (r: seq<string>)
    ensures AllNames(cwd) && AllNames(p.segments) ==>
      r == if p.absolute then p.segments else cwd + p.segments
  {
    var joined := if p.absolute then p.segments else cwd + p.segments;
    assert AllNames(cwd) && AllNames(p.segments) ==> Normalize(true, joined) == joined by {
      if AllNames(cwd) && AllNames(p.segments) {
        assert AllNames(joined);
        NormalizeNormal(true, joined);
      }
    }
    Normalize(true, joined)
  }

  function CommonPrefixLength(a: seq<string>, b: seq<string>): (n: nat)
    ensures n <= |a| && n <= |b| && a[..n] == b[..n]
    ensures n < |a| && n < |b| ==> a[n] != b[n]
  {
    if a == [] || b == [] || a[0] != b[0] then 0
    else
      var n := 1 + CommonPrefixLength(a[1..], b[1..]);
      assert a[..n] == [a[0]] + a[1..][..n - 1];
      assert b[..n] == [b[0]] + b[1..][..n - 1];
      n
  }

  function Ups(n: nat): (r: seq<string>)
    ensures |r| == n && forall i :: 0 <= i < n ==> r[i] == ".."
  {
    if n == 0 then [] else [".."] + Ups(n - 1)
  }

  /**
   * `path.relative(from, to)` for two absolute paths, as segments: empty exactly when the
   * paths are the same, the remainder of `to` when `to` lies below `from`, and a climb
   * (`..` first) otherwise. Resolving it against `from` gives `to` back.
   */
  function Relative(from: seq<string>, to: seq<string>): (r: seq<string>)
    ensures r == [] <==> from == to
    ensures |from| <= |to| && to[..|from|] == from ==> r == to[|from|..]
    ensures !(|from| <= |to| && to[..|from|] == from) ==> r != [] && r[0] == ".."
    ensures AllNames(from) && AllNames(to) ==> Normalize(true, from + r) == to
  {
    var common := CommonPrefixLength(from, to);
    var r := Ups(|from| - common) + to[common..];
    assert common == |from| <==> |from| <= |to| && to[..|from|] == from;
    assert AllNames(from) && AllNames(to) ==> Normalize(true, from + r) == to by {
      if AllNames(from) && AllNames(to) {
        ResolveRelative(from, to, common);
      }
    }
    r
  }

  /** Appending plain names to a path appends them to the normalised path. */
  lemma {:induction false} NormalizeAppendNames(absolute: bool, segments: seq<string>, names: seq<string>)
    requires AllNames(names)
    ensures Normalize(absolute, segments + names) == Normalize(absolute, segments) + names
    decreases |names|
  {
    if names == [] {
      assert segments + names == segments;
    } else {
      var init := names[..|names| - 1];
      var last := names[|names| - 1];
      assert names == init + [last];
      assert segments + names == (segments + init) + [last];
      assert IsName(last);
      NormalizeAppendName(absolute, segments + init, last);
      NormalizeAppendNames(absolute, segments, init);
    }
  }

  /** `k` climbs cancel the last `k` plain names of an absolute path. */
  lemma {:induction false} NormalizeUps(from: seq<string>, k: nat)
    requires AllNames(from) && k <= |from|
    ensures Normalize(true, from + Ups(k)) == from[..|from| - k]
  {
    if k == 0 {
      assert from + Ups(k) == from && from[..|from|] == from;
      NormalizeNormal(true, from);
    } else {
      var s := from + Ups(k);
      var prev := from[..|from| - k + 1];
      assert s[..|s| - 1] == from + Ups(k - 1);
      NormalizeUps(from, k - 1);
      assert prev[|prev| - 1] == from[|from| - k];
      assert IsName(from[|from| - k]);
      NormalizeClimb(true, s);
      assert prev[..|prev| - 1] == from[..|from| - k];
    }
  }

  /** A final `..` cancels a final plain segment of the normalised rest. */
  lemma NormalizeClimb(absolute: bool, segments: seq<string>)
    requires segments != [] && segments[|segments| - 1] == ".."
    requires var prev := Normalize(absolute, segments[..|segments| - 1]);
      prev != [] && prev[|prev| - 1] != ".."
    ensures var prev := Normalize(absolute, segments[..|segments| - 1]);
      Normalize(absolute, segments) == prev[..|prev| - 1]
  {
  }

  /** Climbing out of `from` to the common prefix and descending into `to` reaches `to`. */
  lemma ResolveRelative(from: seq<string>, to: seq<string>, common: nat)
    requires AllNames(from) && AllNames(to)
    requires common <= |from| && common <= |to| && from[..common] == to[..common]
    ensures Normalize(true, from + (Ups(|from| - common) + to[common..])) == to
  {
    var climb := from + Ups(|from| - common);
    var rest := to[common..];
    AllNamesSuffix(to, common);
    calc {
      Normalize(true, from + (Ups(|from| - common) + rest));
      { AppendAssociative(from, Ups(|from| - common), rest); }
      Normalize(true, climb + rest);
      { NormalizeAppendNames(true, climb, rest); }
      Normalize(true, climb) + rest;
      { NormalizeUps(from, |from| - common); }
      from[..common] + rest;
      to[..common] + to[common..];
      to;
    }
  }

  lemma AllNamesSuffix(segments: seq<string>, k: nat)
    requires AllNames(segments) && k <= |segments|
    ensures AllNames(segments[k..])
  {
    forall i | 0 <= i < |segments| - k ensures IsName(segments[k..][i]) {
      assert segments[k..][i] == segments[k + i];
    }
  }

  /** The last segment of an absolute path; empty for the root. For plain names it is
      `path.basename` of the path. */
  function LastSegment(segments: seq<string>): (r: string)
    ensures AllNames(segments) ==> r == Basename(PathText(PathArg(true, segments)))
  {
    if segments == [] then "" else segments[|segments| - 1]
  }

  /** A joined text starts with the first character of a non-empty first part. */
  lemma JoinFirstChar(parts: seq<string>, sep: string)
    requires parts != [] && parts[0] != ""
    ensures Join(parts, sep) != "" && Join(parts, sep)[0] == parts[0][0]
  {
    if |parts| > 1 {
      assert Join(parts, sep) == parts[0] + (sep + Join(parts[1..], sep));
    }
  }

  /** Joining the last part on is the same as appending it after a separator. */
  lemma {:induction false} JoinLast(parts: seq<string>, sep: string)
    requires |parts| >= 2
    ensures Join(parts, sep) == Join(parts[..|parts| - 1], sep) + sep + parts[|parts| - 1]
  {
    if |parts| > 2 {
      JoinLast(parts[1..], sep);
      assert parts[1..][..|parts| - 2] == parts[..|parts| - 1][1..];
    } else {
      assert parts[..1] == [parts[0]];
    }
  }

  /** `path.basename` of a path of plain names, with or without a leading `/`, is its last
      segment. */
  lemma JoinBasename(prefix: string, segments: seq<string>)
    requires prefix == "" || prefix == "/"
    requires segments != [] && AllNames(segments)
    ensures Basename(prefix + Join(segments, "/")) == segments[|segments| - 1]
  {
    var n := |segments|;
    var last := segments[n - 1];
    assert IsName(last);
    var head := if n == 1 then prefix else prefix + (Join(segments[..n - 1], "/") + "/");
    JoinSplitLast(prefix, segments);
    BasenameAfterSeparator(head, last);
  }

  lemma JoinSplitLast(prefix: string, segments: seq<string>)
    requires segments != []
    ensures var n := |segments|;
      prefix + Join(segments, "/")
      == (if n == 1 then prefix else prefix + (Join(segments[..n - 1], "/") + "/")) + segments[n - 1]
  {
    if |segments| > 1 {
      JoinLast(segments, "/");
    }
  }

  /** A name after a separator, or alone, is the base name. */
  lemma BasenameAfterSeparator(head: string, name: string)
    requires head == "" || head[|head| - 1] == '/'
    requires IsName(name)
    ensures Basename(head + name) == name
  {
    var t := head + name;
    assert t[|t| - 1] == name[|name| - 1];
    assert StripTrailingSlashes(t) == t;
    if head == "" {
      assert t == name;
    } else {
      forall j | |head| - 1 < j < |t| ensures t[j] != '/' {
        assert t[j] == name[j - |head|];
      }
      LastIndexOfAt(t, '/', |head| - 1);
      assert t[|head|..] == name;
    }
  }

  /** The index of the last occurrence of `c` in `s`. */
  function LastIndexOf(s: string, c: char): (r: Option<nat>)
    ensures r.None? ==> c !in s
    ensures r.Some? ==> r.value < |s| && s[r.value] == c && c !in s[r.value + 1..]
  {
    if s == [] then None
    else if s[|s| - 1] == c then Some(|s| - 1)
    else
      var r := LastIndexOf(s[..|s| - 1], c);
      assert r.Some? ==> s[r.value + 1..] == s[..|s| - 1][r.value + 1..] + [s[|s| - 1]];
      r
  }

  /** The last occurrence is the one with no occurrence after it. */
  lemma {:induction false} LastIndexOfAt(s: string, c: char, p: nat)
    requires p < |s| && s[p] == c && forall j :: p < j < |s| ==> s[j] != c
    ensures LastIndexOf(s, c) == Some(p)
  {
    if p < |s| - 1 {
      LastIndexOfAt(s[..|s| - 1], c, p);
    }
  }

  function StripTrailingSlashes(s: string): (r: string)
    ensures |r| <= |s| && r == s[..|r|]
    ensures r == [] || r[|r| - 1] != '/'
  {
    if s != [] && s[|s| - 1] == '/' then StripTrailingSlashes(s[..|s| - 1]) else s
  }

  /** `path.basename(p)`: the last component, ignoring trailing separators. */
  function Basename(p: string): (b: string)
    ensures '/' !in b
  {
    var t := StripTrailingSlashes(p);
    match LastIndexOf(t, '/')
    case None => t
    case Some(i) => t[i + 1..]
  }

  /** `path.extname` of a single component: from its last dot, unless that dot is the
      component's first character, and `..` has none. */
  function ExtOfBase(base: string): (ext: string)
    ensures ext == [] || (ext[0] == '.' && '.' !in ext[1..] && EndsWith(base, ext) && |ext| < |base|)
    ensures '.' !in base ==> ext == ""
    ensures (exists i :: 0 < i < |base| && base[i] == '.') && base != ".." ==> ext != ""
  {
    match LastIndexOf(base, '.')
    case None => ""
    case Some(i) =>
      assert forall k :: i < k < |base| ==> base[k] != '.' by {
        forall k | i < k < |base| ensures base[k] != '.' {
          assert base[k] == base[i + 1..][k - i - 1];
        }
      }
      if i == 0 || base == ".." then ""
      else
        assert base[i..][1..] == base[i + 1..];
        base[i..]
  }

  /** `path.extname(p)`: empty, or the dot-led suffix of the last component that starts at its
      last dot. */
  function ExtName(p: string): (ext: string)
    ensures ext == [] || (ext[0] == '.' && '.' !in ext[1..] && EndsWith(Basename(p), ext)
      && |ext| < |Basename(p)|)
    ensures '.' !in Basename(p) ==> ext == ""
    ensures var base := Basename(p);
      (exists i :: 0 < i < |base| && base[i] == '.') && base != ".." ==> ext != ""
    ensures '/' !in ext
  {
    ExtOfBase(Basename(p))
  }

  /** `path.parse(p).name`: the last component without its extension. */
  function ParsedName(p: string): (name: string)
    ensures name + ExtName(p) == Basename(p)
  {
    var base := Basename(p);
    ExtSplitsBase(base);
    base[..|base| - |ExtOfBase(base)|]
  }

  /** The extension is the tail of the base name, so the stem and the extension make it up. */
  lemma ExtSplitsBase(base: string)
    ensures base[..|base| - |ExtOfBase(base)|] + ExtOfBase(base) == base
  {
    var ext := ExtOfBase(base);
    var n := |base| - |ext|;
    assert base[n..] == ext;
    assert base[..n] + base[n..] == base;
  }
}

=== FILE: publish.dfy ===
/**
 * `src/package/publish.ts`: merge every local path mapping into the shared record under
 * `namespace/basename`, write the record to a local file and commit it.
 *
 * The script hands `pushFileToGitHub` the local file's path where the function expects the
 * content, so the commit throws before any request. `PublishAssetLibraryAsWritten` models the
 * script as it is; `PublishAssetLibrary` passes the merged record as the content.
 */
module Publish {
  import opened Wrappers
  import opened Text
  import opened Records
  import opened NodePath
  import opened GitHub
  import opened Install
  import Sync
  import SyncState
  import SyncPaths

  /** The key a local file is published under: the namespace, a slash and the file's base name. */
  function PublishKey(namespace: string, filePath: string): (k: string)
    ensures InNamespace(namespace, k)
    ensures "@" + k == "@" + namespace + "/" + Basename(filePath)
  {
    namespace + "/" + Basename(filePath)
  }

  /** The commit message of a publication. */
  function PublishMessage(namespace: string): string {
    "Publish asset library for @" + namespace
  }

  /** The remote record after assigning, in path-map order, `{assetId, filePath}` under the
      publish key of every local path mapping. */
  function PublishMerge(remote: RemoteMap, namespace: string, paths: seq<Entry<string>>): RemoteMap
    decreases |paths|
  {
    if paths == [] then remote
    else
      var e := paths[|paths| - 1];
      Put(PublishMerge(remote, namespace, paths[..|paths| - 1]), PublishKey(namespace, e.key), RemoteEntry(e.value, e.key))
  }

  /** One more local mapping: the record as before with that mapping assigned. */
  lemma PublishStep(remote: RemoteMap, namespace: string, paths: seq<Entry<string>>, n: nat)
    requires n < |paths|
    ensures PublishMerge(remote, namespace, paths[..n + 1]) ==
      Put(PublishMerge(remote, namespace, paths[..n]), PublishKey(namespace, paths[n].key), RemoteEntry(paths[n].value, paths[n].key))
  {
    assert paths[..n + 1][..n] == paths[..n];
  }

  /** Publishing into a record keeps its keys distinct. */
  lemma {:induction false} PublishKeepsDistinct(remote: RemoteMap, namespace: string, paths: seq<Entry<string>>)
    requires DistinctKeys(remote)
    ensures DistinctKeys(PublishMerge(remote, namespace, paths))
  {
    if paths != [] {
      var e := paths[|paths| - 1];
      PublishKeepsDistinct(remote, namespace, paths[..|paths| - 1]);
      PutKeepsDistinct(PublishMerge(remote, namespace, paths[..|paths| - 1]), PublishKey(namespace, e.key), RemoteEntry(e.value, e.key));
    }
  }

  /** A local mapping whose base name no later mapping shares is published with its asset ID
      and its own path; of several files with one base name, the last one wins. */
  lemma {:induction false} PublishWrites(remote: RemoteMap, namespace: string, paths: seq<Entry<string>>, j: nat)
    requires j < |paths|
    requires forall i :: j < i < |paths| ==> Basename(paths[i].key) != Basename(paths[j].key)
    ensures Lookup(PublishMerge(remote, namespace, paths), PublishKey(namespace, paths[j].key)) ==
      Some(RemoteEntry(paths[j].value, paths[j].key))
  {
    if j < |paths| - 1 {
      var init := paths[..|paths| - 1];
      assert init[j] == paths[j];
      PublishWrites(remote, namespace, init, j);
      assert PublishKey(namespace, paths[|paths| - 1].key) != PublishKey(namespace, paths[j].key) by {
        var b1, b2 := Basename(paths[|paths| - 1].key), Basename(paths[j].key);
        assert (namespace + "/" + b1)[|namespace| + 1..] == b1;
        assert (namespace + "/" + b2)[|namespace| + 1..] == b2;
      }
    }
  }

  /** Remote keys that no local mapping is published under stay as they were. */
  lemma {:induction false} PublishKeepsOthers(remote: RemoteMap, namespace: string, paths: seq<Entry<string>>, k: string)
    requires forall i :: 0 <= i < |paths| ==> PublishKey(namespace, paths[i].key) != k
    ensures Lookup(PublishMerge(remote, namespace, paths), k) == Lookup(remote, k)
  {
    if paths != [] {
      PublishKeepsOthers(remote, namespace, paths[..|paths| - 1], k);
    }
  }

  /** Publish, then install the same namespace: every published file (the last one of its
      base name) is installed as `@namespace/basename` with its asset ID. */
  lemma PublishThenInstall(remote: RemoteMap, namespace: string, paths: seq<Entry<string>>,
                           installed: seq<Entry<string>>, j: nat)
    requires DistinctKeys(remote) && j < |paths|
    requires forall i :: j < i < |paths| ==> Basename(paths[i].key) != Basename(paths[j].key)
    ensures Lookup(Inject(installed, namespace, PublishMerge(remote, namespace, paths)),
                   "@" + namespace + "/" + Basename(paths[j].key)) == Some(paths[j].value)
  {
    var merged := PublishMerge(remote, namespace, paths);
    PublishKeepsDistinct(remote, namespace, paths);
    PublishWrites(remote, namespace, paths, j);
    InjectLookup(installed, namespace, merged, PublishKey(namespace, paths[j].key));
  }

  /** The merge loop of `publishAssetLibrary`, on the fetched record. */
  method MergeLocalPaths(remote: RemoteMap, namespace: string, paths: seq<Entry<string>>) returns (merged: RemoteMap)
    ensures merged == PublishMerge(remote, namespace, paths)
  {
    merged := remote;
    var i := 0;
    while i < |paths|
      invariant 0 <= i <= |paths|
      invariant merged == PublishMerge(remote, namespace, paths[..i])
    {
      var filePath, assetId := paths[i].key, paths[i].value;
      PublishStep(remote, namespace, paths, i);
      merged := Put(merged, namespace + "/" + Basename(filePath), RemoteEntry(assetId, filePath));
      i := i + 1;
    }
    assert paths[..|paths|] == paths;
  }

  /** `publishAssetLibrary` as written: the merged record goes to the local file, and the
      commit throws because it is handed no content. */
  method PublishAssetLibraryAsWritten(store: Sync.AssetStore, namespace: string, repoSlug: string, branch: string,
                                      response: ContentResponse, lookup: ShaLookup, commitOk: bool)
    returns (written: RemoteMap, outcome: PushOutcome)
    ensures written == PublishMerge(FetchGithubAssetMap(response), namespace, store.paths)
    ensures outcome == PushThrew(MissingContentMessage)
  {
    var remoteMap := FetchGithubAssetMap(response);
    remoteMap := MergeLocalPaths(remoteMap, namespace, store.paths);
    written := remoteMap;
    outcome := PushFileToGitHub(repoSlug, branch, None, AssetMapPath, PublishMessage(namespace), lookup, commitOk);
  }

  /** `publishAssetLibrary` with the merged record as the committed content: the commit
      carries exactly the record written locally and succeeds when the API accepts it. */
  method PublishAssetLibrary(store: Sync.AssetStore, namespace: string, repoSlug: string, branch: string,
                             response: ContentResponse, lookup: ShaLookup, commitOk: bool)
    returns (written: RemoteMap, outcome: PushOutcome)
    ensures written == PublishMerge(FetchGithubAssetMap(response), namespace, store.paths)
    ensures !outcome.PushThrew? && outcome.request.content == written
    ensures outcome.request == CommitRequest(repoSlug, AssetMapPath, PublishMessage(namespace), written, branch, ShaForUpdate(lookup))
    ensures outcome.Committed? <==> commitOk
  {
    var remoteMap := FetchGithubAssetMap(response);
    remoteMap := MergeLocalPaths(remoteMap, namespace, store.paths);
    written := remoteMap;
    outcome := PushFileToGitHub(repoSlug, branch, Some(written), AssetMapPath, PublishMessage(namespace), lookup, commitOk);
  }

  /** Every local mapping is published under its publish key (with some asset ID: the last
      mapping of a base name wins). */
  lemma {:induction false} PublishCovers(remote: RemoteMap, namespace: string, paths: seq<Entry<string>>, j: nat)
    requires j < |paths|
    ensures Lookup(PublishMerge(remote, namespace, paths), PublishKey(namespace, paths[j].key)).Some?
  {
    if j < |paths| - 1 {
      assert paths[..|paths| - 1][j] == paths[j];
      PublishCovers(remote, namespace, paths[..|paths| - 1], j);
    }
  }

  /** The script `publish.ts` as written, run as its own process: `sync.js` is loaded, which
      reads the cache file but leaves the path map empty, so the record written is the
      fetched one unchanged, and the commit throws. */
  method PublishScriptAsWritten(file: SyncState.CacheFileState, cachePath: string, namespace: string, repoSlug: string,
                                branch: string, response: ContentResponse, lookup: ShaLookup, commitOk: bool)
    returns (written: RemoteMap, outcome: PushOutcome)
    ensures written == FetchGithubAssetMap(response)
    ensures outcome == PushThrew(MissingContentMessage)
  {
    var store := new Sync.AssetStore.Load(file, cachePath);
    written, outcome := PublishAssetLibraryAsWritten(store, namespace, repoSlug, branch, response, lookup, commitOk);
  }

  /** The publish script with the path map filled first by a synchronisation pass over the
      search path (a cached file is mapped without an upload): when the pass completes, every
      walked file that maps to an asset is published under `namespace/basename`, and the
      commit carries the record written. */
  method PublishSyncedScript(file: SyncState.CacheFileState, cachePath: string, bleedMode: bool, searchPath: PathArg,
                             listing: seq<SyncPaths.DirEntry>, answer: string -> SyncState.FileAnswer,
                             cacheOk: bool, assetMapOk: bool, namespace: string, repoSlug: string, branch: string,
                             response: ContentResponse, lookup: ShaLookup, commitOk: bool)
    returns (run: SyncState.Once, written: RemoteMap, outcome: PushOutcome)
    ensures run == SyncState.SyncAssetsOnce(SyncState.Load(file, cachePath), bleedMode, searchPath, listing, answer, cacheOk, assetMapOk)
    ensures run.Completed? ==>
      var files := SyncState.FileTexts(SyncPaths.Walk(searchPath, listing));
      forall i :: 0 <= i < |files| && SyncState.MapsToAsset(SyncState.Load(file, cachePath), bleedMode, files[i], answer(files[i])) ==>
        Lookup(written, PublishKey(namespace, files[i])).Some?
    ensures !outcome.PushThrew? && outcome.request.content == written
    ensures outcome.Committed? <==> commitOk
  {
    var store := new Sync.AssetStore.Load(file, cachePath);
    ghost var loaded := store.Model();
    run := store.SyncAssetsOnce(bleedMode, searchPath, listing, answer, cacheOk, assetMapOk);
    written, outcome := PublishAssetLibrary(store, namespace, repoSlug, branch, response, lookup, commitOk);
    if run.Completed? {
      SyncState.CompletedRunMapsFiles(loaded, bleedMode, searchPath, listing, answer, cacheOk, assetMapOk);
      var files := SyncState.FileTexts(SyncPaths.Walk(searchPath, listing));
      forall i | 0 <= i < |files| && SyncState.MapsToAsset(loaded, bleedMode, files[i], answer(files[i]))
        ensures Lookup(written, PublishKey(namespace, files[i])).Some?
      {
        var ks := Keys(store.paths);
        var j :| 0 <= j < |ks| && ks[j] == files[i];
        PublishCovers(FetchGithubAssetMap(response), namespace, store.paths, j);
      }
    }
  }
}

=== FILE: records.dfy ===
/**
 * A JavaScript object used as a dictionary (`Record<string, V>`), modelled as the
 * sequence of its entries in iteration order. Assigning to an existing key keeps
 * its position; assigning to a new key appends it; `delete` removes it.
 */
module Records {
  import opened Wrappers

  datatype Entry<V> = Entry(key: string, value: V)

  /** The keys in iteration order (`Object.keys`). */
  function Keys<V>(r: seq<Entry<V>>): (ks: seq<string>)
    ensures |ks| == |r|
    ensures forall i :: 0 <= i < |r| ==> ks[i] == r[i].key
  {
    if r == [] then [] else [r[0].key] + Keys(r[1..])
  }

  /** The set of values (`new Set(Object.values(r))`). */
  function Values<V(!new)>(r: seq<Entry<V>>): (vs: set<V>)
    ensures forall v :: v in vs <==> exists i :: 0 <= i < |r| && r[i].value == v
  {
    set i | 0 <= i < |r| :: r[i].value
  }

  /** No key occurs twice, as in every JavaScript object. */
  predicate DistinctKeys<V>(r: seq<Entry<V>>) {
    forall i, j :: 0 <= i < j < |r| ==> r[i].key != r[j].key
  }

  /** `r[k]`, with `None` for a missing key. */
  function Lookup<V>(r: seq<Entry<V>>, k: string): (v: Option<V>)
    ensures v.None? <==> k !in Keys(r)
  {
    if r == [] then None
    else if r[0].key == k then Some(r[0].value)
    else Lookup(r[1..], k)
  }

  /** `r[k] = v`. */
  function Put<V>(r: seq<Entry<V>>, k: string, v: V): (r': seq<Entry<V>>)
    ensures Lookup(r', k) == Some(v)
    ensures forall k' :: k' != k ==> Lookup(r', k') == Lookup(r, k')
    ensures Keys(r') == if k in Keys(r) then Keys(r) else Keys(r) + [k]
  {
    forall k' ensures Lookup(Assign(r, k, v), k') == if k' == k then Some(v) else Lookup(r, k') {
      AssignLookup(r, k, v, k');
    }
    AssignKeys(r, k, v);
    Assign(r, k, v)
  }

  /** The entries after `r[k] = v`: the entry for `k` replaced in place, or appended. */
  function Assign<V>(r: seq<Entry<V>>, k: string, v: V): seq<Entry<V>> {
    if r == [] then [Entry(k, v)]
    else if r[0].key == k then [Entry(k, v)] + r[1..]
    else [r[0]] + Assign(r[1..], k, v)
  }

  lemma {:induction false} AssignLookup<V>(r: seq<Entry<V>>, k: string, v: V, k': string)
    ensures Lookup(Assign(r, k, v), k') == if k' == k then Some(v) else Lookup(r, k')
  {
    if r != [] {
      if r[0].key == k {
        assert ([Entry(k, v)] + r[1..])[1..] == r[1..];
      } else {
        AssignLookup(r[1..], k, v, k');
        assert ([r[0]] + Assign(r[1..], k, v))[1..] == Assign(r[1..], k, v);
      }
    }
  }

  lemma {:induction false} AssignKeys<V>(r: seq<Entry<V>>, k: string, v: V)
    ensures Keys(Assign(r, k, v)) == if k in Keys(r) then Keys(r) else Keys(r) + [k]
  {
    if r != [] {
      assert Keys(r) == [r[0].key] + Keys(r[1..]);
      if r[0].key == k {
        assert ([Entry(k, v)] + r[1..])[1..] == r[1..];
      } else {
        AssignKeys(r[1..], k, v);
        var t := Assign(r[1..], k, v);
        assert ([r[0]] + t)[1..] == t;
        assert Keys([r[0]] + t) == [r[0].key] + Keys(t);
        assert k in Keys(r) <==> k in Keys(r[1..]);
        assert Keys(r) + [k] == [r[0].key] + (Keys(r[1..]) + [k]);
      }
    }
  }

  /** `delete r[k]`. */
  function Remove<V>(r: seq<Entry<V>>, k: string): (r': seq<Entry<V>>)
    ensures Lookup(r', k) == None
    ensures forall k' :: k' != k ==> Lookup(r', k') == Lookup(r, k')
    ensures k !in Keys(r) ==> r' == r
    ensures forall i :: 0 <= i < |r'| ==> r'[i] in r && r'[i].key != k
    ensures forall i :: 0 <= i < |r| && r[i].key != k ==> r[i] in r'
  {
    forall k' ensures Lookup(Drop(r, k), k') == if k' == k then None else Lookup(r, k') {
      DropLookup(r, k, k');
    }
    DropAbsent(r, k);
    DropSubset(r, k);
    DropKeeps(r, k);
    Drop(r, k)
  }

  /** The entries after `delete r[k]`: every entry for `k` left out. */
  function Drop<V>(r: seq<Entry<V>>, k: string): seq<Entry<V>> {
    if r == [] then []
    else if r[0].key == k then Drop(r[1..], k)
    else [r[0]] + Drop(r[1..], k)
  }

  lemma {:induction false} DropLookup<V>(r: seq<Entry<V>>, k: string, k': string)
    ensures Lookup(Drop(r, k), k') == if k' == k then None else Lookup(r, k')
  {
    if r != [] {
      DropLookup(r[1..], k, k');
      if r[0].key != k {
        assert ([r[0]] + Drop(r[1..], k))[1..] == Drop(r[1..], k);
      }
    }
  }

  lemma {:induction false} DropAbsent<V>(r: seq<Entry<V>>, k: string)
    ensures k !in Keys(r) ==> Drop(r, k) == r
  {
    if r != [] && k !in Keys(r) {
      assert Keys(r) == [r[0].key] + Keys(r[1..]);
      DropAbsent(r[1..], k);
      assert r == [r[0]] + r[1..];
    }
  }

  lemma {:induction false} DropSubset<V>(r: seq<Entry<V>>, k: string)
    ensures forall e :: e in Drop(r, k) ==> e in r && e.key != k
  {
    if r != [] {
      DropSubset(r[1..], k);
      assert forall e :: e in r[1..] ==> e in r;
    }
  }

  lemma {:induction false} DropKeeps<V>(r: seq<Entry<V>>, k: string)
    ensures forall e :: e in r && e.key != k ==> e in Drop(r, k)
  {
    if r != [] {
      DropKeeps(r[1..], k);
      assert forall e :: e in r ==> e == r[0] || e in r[1..];
    }
  }

  /** The object that `JSON.parse` builds from the members of an object text, in order:
      a repeated member overwrites the earlier one in its first position. */
  function FromEntries<V>(members: seq<Entry<V>>): (r: seq<Entry<V>>)
    ensures DistinctKeys(r)
  {
    if members == [] then []
    else
      var last := members[|members| - 1];
      PutKeepsDistinct(FromEntries(members[..|members| - 1]), last.key, last.value);
      Put(FromEntries(members[..|members| - 1]), last.key, last.value)
  }

  /** In a record without repeated keys, looking up the key of an entry finds that entry. */
  lemma {:induction false} LookupAt<V>(r: seq<Entry<V>>, i: nat)
    requires DistinctKeys(r) && i < |r|
    ensures Lookup(r, r[i].key) == Some(r[i].value)
  {
    if i > 0 {
      LookupAt(r[1..], i - 1);
    }
  }

  /** Assignment keeps keys distinct. */
  lemma PutKeepsDistinct<V>(r: seq<Entry<V>>, k: string, v: V)
    requires DistinctKeys(r)
    ensures DistinctKeys(Put(r, k, v))
  {
    if k in Keys(r) {
      SameKeysDistinct(r, Put(r, k, v));
    } else {
      AppendedKeyDistinct(r, Put(r, k, v), k);
    }
  }

  /** Two records with the same keys in the same order are both distinct or neither. */
  lemma SameKeysDistinct<V>(r: seq<Entry<V>>, p: seq<Entry<V>>)
    requires DistinctKeys(r) && Keys(p) == Keys(r)
    ensures DistinctKeys(p)
  {
    var ks := Keys(r);
    forall i, j | 0 <= i < j < |p| ensures p[i].key != p[j].key {
      assert p[i].key == ks[i] == r[i].key && p[j].key == ks[j] == r[j].key;
    }
  }

  /** A record whose keys are those of a distinct record followed by a new key is distinct. */
  lemma AppendedKeyDistinct<V>(r: seq<Entry<V>>, p: seq<Entry<V>>, k: string)
    requires DistinctKeys(r) && k !in Keys(r) && Keys(p) == Keys(r) + [k]
    ensures DistinctKeys(p)
  {
    var ks, kr := Keys(p), Keys(r);
    forall i, j | 0 <= i < j < |p| ensures p[i].key != p[j].key {
      assert p[i].key == ks[i] == kr[i] == r[i].key;
      if j < |r| {
        assert p[j].key == ks[j] == kr[j] == r[j].key;
      } else {
        assert p[j].key == k && kr[i] in kr;
      }
    }
  }

  /** Deletion keeps keys distinct. */
  lemma {:induction false} RemoveKeepsDistinct<V>(r: seq<Entry<V>>, k: string)
    requires DistinctKeys(r)
    ensures DistinctKeys(Remove(r, k))
  {
    DropKeepsDistinct(r, k);
  }

  lemma {:induction false} DropKeepsDistinct<V>(r: seq<Entry<V>>, k: string)
    requires DistinctKeys(r)
    ensures DistinctKeys(Drop(r, k))
  {
    if r != [] {
      DropKeepsDistinct(r[1..], k);
      if r[0].key != k {
        var t := Drop(r[1..], k);
        DropSubset(r[1..], k);
        assert forall e :: e in r[1..] ==> e.key != r[0].key;
        assert forall i :: 0 <= i < |t| ==> t[i] in t;
        assert forall i :: 1 <= i < |[r[0]] + t| ==> ([r[0]] + t)[i] == t[i - 1];
      }
    }
  }

  /** A key that is found names an entry holding the value found. */
  lemma {:induction false} LookupFound<V>(r: seq<Entry<V>>, k: string)
    requires Lookup(r, k).Some?
    ensures exists i :: 0 <= i < |r| && r[i].key == k && r[i].value == Lookup(r, k).value
  {
    if r[0].key != k {
      LookupFound(r[1..], k);
      var i :| 0 <= i < |r[1..]| && r[1..][i].key == k && r[1..][i].value == Lookup(r, k).value;
      assert r[i + 1] == r[1..][i];
    } else {
      assert r[0].key == k && r[0].value == Lookup(r, k).value;
    }
  }

  /** Assigning the value a key already holds leaves the record as it was. */
  lemma {:induction false} PutSame<V>(r: seq<Entry<V>>, k: string, v: V)
    requires Lookup(r, k) == Some(v)
    ensures Put(r, k, v) == r
  {
    AssignSame(r, k, v);
  }

  lemma {:induction false} AssignSame<V>(r: seq<Entry<V>>, k: string, v: V)
    requires Lookup(r, k) == Some(v)
    ensures Assign(r, k, v) == r
  {
    assert r == [r[0]] + r[1..];
    if r[0].key != k {
      assert Lookup(r[1..], k) == Some(v);
      AssignSame(r[1..], k, v);
      assert Assign(r, k, v) == [r[0]] + Assign(r[1..], k, v);
    } else {
      assert r[0] == Entry(k, v);
    }
  }
}

=== FILE: script_args.dfy ===
/**
 * The start-up lines shared by `src/package/install.ts` and `src/package/publish.ts`:
 * pick the namespace argument and read the repository, branch and token from the
 * environment. An unset environment variable is `None`; JavaScript's `||` and `!`
 * treat the empty string as unset too.
 */
module ScriptArgs {
  import opened Wrappers
  import opened Text

  const DefaultBranch: string := "main"

  /** A value `||` and `!` treat as present: defined and not the empty string. */
  predicate Truthy(o: Option<string>) {
    o.Some? && o.value != ""
  }

  /** `process.argv.find(arg => arg.startsWith("@"))`: the first argument starting with `@`. */
  function FindNamespaceArg(argv: seq<string>): (a: Option<string>)
    ensures a.None? <==> forall i :: 0 <= i < |argv| ==> !StartsWith(argv[i], "@")
    ensures a.Some? ==> StartsWith(a.value, "@")
    ensures a.Some? ==>
      exists i :: 0 <= i < |argv| && argv[i] == a.value && forall j :: 0 <= j < i ==> !StartsWith(argv[j], "@")
  {
    if argv == [] then None
    else if StartsWith(argv[0], "@") then Some(argv[0])
    else
      var a := FindNamespaceArg(argv[1..]);
      assert forall i :: 0 <= i < |argv[1..]| ==> argv[1..][i] == argv[i + 1];
      a
  }

  /** How a package script starts: it exits with code 1, or it runs with these settings. */
  datatype Startup =
    | Exit(code: int)
    | Start(namespace: string, repo: string, branch: string, token: string)

  /** The top-level statements of both scripts up to the call of the script's function:
      no namespace argument, or no repository or token, exits with code 1. */
  function ScriptStartup(argv: seq<string>, githubRepo: Option<string>, envRepo: Option<string>,
                         envBranch: Option<string>, envToken: Option<string>): (r: Startup)
    ensures r.Exit? ==> r.code == 1
    ensures r.Start? <==>
      FindNamespaceArg(argv).Some? && (Truthy(envRepo) || Truthy(githubRepo)) && Truthy(envToken)
    ensures r.Start? ==>
      "@" + r.namespace == FindNamespaceArg(argv).value && r.repo != "" && r.branch != "" && r.token == envToken.value
    ensures r.Start? ==> r.repo == (if Truthy(envRepo) then envRepo.value else githubRepo.value)
    ensures r.Start? ==> r.branch == (if Truthy(envBranch) then envBranch.value else DefaultBranch)
  {
    match FindNamespaceArg(argv)
    case None => Exit(1)
    case Some(nsArg) =>
      var namespace := nsArg[1..];
      var repo := if Truthy(envRepo) then envRepo else githubRepo;
      var branch := if Truthy(envBranch) then envBranch.value else DefaultBranch;
      if !Truthy(repo) || !Truthy(envToken) then Exit(1)
      else
        assert "@" + namespace == nsArg;
        Start(namespace, repo.value, branch, envToken.value)
  }
}

=== FILE: shutdown.dfy ===
/**
 * `src/graceful-shutdown.ts`: a registry of cleanup functions run, last registered first,
 * when the process is asked to stop. A cleanup is identified by the order it was
 * registered in; whether it throws (or its promise rejects) is an input. Each call is
 * recorded as an `Attempt`, so the order and the completeness of the calls can be stated.
 */
module GracefulShutdown {

  /** A registered cleanup function, by a name of its own. */
  datatype Cleanup = Cleanup(name: nat)

  /** One call of a cleanup during shutdown: its position in the registry and whether it threw
      (a throw is logged and the loop goes on). */
  datatype Attempt = Attempt(index: nat, cleanup: Cleanup, threw: bool)

  /** The calls a shutdown makes, last registered first. */
  function LifoAttempts(cleanups: seq<Cleanup>, throws: Cleanup -> bool): (attempts: seq<Attempt>)
    ensures |attempts| == |cleanups|
    ensures forall k :: 0 <= k < |attempts| ==>
      attempts[k] == Attempt(|cleanups| - 1 - k, cleanups[|cleanups| - 1 - k], throws(cleanups[|cleanups| - 1 - k]))
  {
    if cleanups == [] then []
    else
      var last := |cleanups| - 1;
      [Attempt(last, cleanups[last], throws(cleanups[last]))] + LifoAttempts(cleanups[..last], throws)
  }

  /** Every registered cleanup is called exactly once, whichever of them throw. */
  lemma {:induction false} EveryCleanupAttempted(cleanups: seq<Cleanup>, throws: Cleanup -> bool, i: nat)
    requires i < |cleanups|
    ensures exists k :: 0 <= k < |cleanups| && LifoAttempts(cleanups, throws)[k].index == i
    ensures forall k, l :: 0 <= k < l < |cleanups| ==>
      LifoAttempts(cleanups, throws)[k].index > LifoAttempts(cleanups, throws)[l].index
  {
    var k := |cleanups| - 1 - i;
    assert LifoAttempts(cleanups, throws)[k].index == i;
  }

  /** Whether cleanups throw changes only what is logged, never which cleanups are called or
      in what order. */
  lemma ThrowsOnlyChangeTheLog(cleanups: seq<Cleanup>, throws: Cleanup -> bool, throws': Cleanup -> bool, k: nat)
    requires k < |cleanups|
    ensures LifoAttempts(cleanups, throws)[k].index == LifoAttempts(cleanups, throws')[k].index
    ensures LifoAttempts(cleanups, throws)[k].cleanup == LifoAttempts(cleanups, throws')[k].cleanup
  {
  }

  /** The module state: the registry and the re-entry flag, plus the calls made so far. */
  class Registry {
    var cleanupFunctions: seq<Cleanup>
    var isShuttingDown: bool
    var attempts: seq<Attempt>

    /** Loading the module: nothing registered, not shutting down. */
    constructor ()
      ensures cleanupFunctions == [] && !isShuttingDown && attempts == []
    {
      cleanupFunctions := [];
      isShuttingDown := false;
      attempts := [];
    }

    /** `registerCleanup(cleanup)`: appended after every earlier one. */
    method RegisterCleanup(cleanup: Cleanup)
      modifies this
      ensures cleanupFunctions == old(cleanupFunctions) + [cleanup]
      ensures isShuttingDown == old(isShuttingDown) && attempts == old(attempts)
    {
      cleanupFunctions := cleanupFunctions + [cleanup];
    }

    /** `gracefulShutdown(signal)`, returning the code passed to `process.exit`. A second
        request while one is in progress exits with 1 and calls nothing; otherwise the flag is
        set first, every cleanup is called last-first, and the exit code is 0. */
    method GracefulShutdown(throws: Cleanup -> bool) returns (exitCode: int)
      modifies this
      ensures old(isShuttingDown) ==> exitCode == 1 && attempts == old(attempts) && isShuttingDown
      ensures !old(isShuttingDown) ==>
        exitCode == 0 && isShuttingDown && attempts == old(attempts) + LifoAttempts(cleanupFunctions, throws)
      ensures cleanupFunctions == old(cleanupFunctions)
    {
      if isShuttingDown {
        return 1;
      }
      isShuttingDown := true;
      var i := |cleanupFunctions| - 1;
      while i >= 0
        invariant -1 <= i < |cleanupFunctions|
        invariant isShuttingDown && cleanupFunctions == old(cleanupFunctions)
        invariant attempts == old(attempts) + LifoAttempts(cleanupFunctions, throws)[..|cleanupFunctions| - 1 - i]
      {
        var cleanup := cleanupFunctions[i];
        var threw := throws(cleanup);
        attempts := attempts + [Attempt(i, cleanup, threw)];
        i := i - 1;
      }
      assert LifoAttempts(cleanupFunctions, throws)[..|cleanupFunctions|] == LifoAttempts(cleanupFunctions, throws);
      return 0;
    }
  }
}

=== FILE: sync.dfy ===
/**
 * `src/sync.ts` as the program runs it: the module's state lives in the fields of one
 * `AssetStore`, and each exported function is a method that updates them in place. Every
 * method is proved to move the state exactly as the matching function of `SyncState` does,
 * so the properties proved there hold of the running program.
 */
module Sync {
  import opened Wrappers
  import opened Text
  import opened Records
  import opened NodePath
  import opened SyncPaths
  import opened Api
  import opened SyncState

  /** `walk(dir)`: list the directory, descend into subdirectories, collect file paths. */
  method WalkDirectory(dir: PathArg, list: seq<DirEntry>) returns (results: seq<PathArg>)
    decreases list
    ensures results == Walk(dir, list)
  {
    results := [];
    var i := 0;
    while i < |list|
      invariant 0 <= i <= |list|
      invariant results == Walk(dir, list[..i])
    {
      var filePath := JoinName(dir, list[i].name);
      WalkStep(dir, list, i);
      match list[i] {
        case DirectoryEntry(_, children) =>
          var nested := WalkDirectory(filePath, children);
          results := results + nested;
        case FileEntry(_) =>
          results := results + [filePath];
      }
      i := i + 1;
    }
    assert list[..|list|] == list;
  }

  /** `getAllAssetFiles(watchingPath)`. */
  method GetAllAssetFiles(watchingPath: PathArg, listing: seq<DirEntry>) returns (files: seq<string>)
    ensures |files| == FileCount(listing)
    ensures files == SyncState.FileTexts(Walk(watchingPath, listing))
  {
    var found := WalkDirectory(watchingPath, listing);
    files := SyncState.FileTexts(found);
  }

  /** The lines of the generated asset map module, built as `saveAssetMap` builds them. */
  method BuildAssetMapLines(paths: seq<Entry<string>>) returns (lines: seq<string>)
    ensures lines == SyncState.AssetMapLines(paths)
  {
    var keys := Sort(Keys(paths));
    lines := [SyncState.Header, SyncState.OpenAssets];
    ghost var head := lines;
    var i := 0;
    while i < |keys|
      invariant 0 <= i <= |keys|
      invariant lines == head + SyncState.EntryLines(paths, keys[..i])
    {
      var assetId := Lookup(paths, keys[i]).GetOr("");
      var line := SyncState.AssetLine(keys[i], assetId);
      EntryLinesStep(paths, keys, i);
      AppendAssociative(head, SyncState.EntryLines(paths, keys[..i]), [line]);
      lines := lines + [line];
      i := i + 1;
    }
    assert keys[..|keys|] == keys;
    lines := lines + [SyncState.CloseAssets, SyncState.GetAssetFunction];
  }

  /** The module state of `sync.ts`. */
  class AssetStore {
    var cache: seq<Entry<string>>     // hashToAssetIdMap
    var paths: seq<Entry<string>>     // pathToAssetIdMap
    var cacheDirty: bool
    var assetMapDirty: bool
    var disabledReason: Option<string>
    var writes: seq<Write>            // the files written so far, in order

    function Model(): Store
      reads this
    {
      Store(cache, paths, cacheDirty, assetMapDirty, disabledReason, writes)
    }

    /** Both maps are JavaScript objects: no key occurs twice. */
    ghost predicate Valid()
      reads this
    {
      DistinctKeys(cache) && DistinctKeys(paths)
    }

    /** Loading the module: read the cache file if there is one. */
    constructor Load(file: CacheFileState, cachePath: string)
      ensures Valid()
      ensures Model() == SyncState.Load(file, cachePath)
    {
      cache := [];
      paths := [];
      cacheDirty := false;
      assetMapDirty := false;
      disabledReason := None;
      writes := [];
      new;
      match file
      case NoCacheFile =>
      case ParsedObject(members) =>
        cache := FromEntries(members);
      case ParsedOther =>
        DisablePersistence(NotObjectReason(cachePath));
      case Unreadable(message) =>
        DisablePersistence(ReadFailureReason(cachePath, message));
    }

    method DisablePersistence(reason: string)
      requires Valid()
      modifies this
      ensures Valid()
      ensures Model() == SyncState.DisablePersistence(old(Model()), reason)
    {
      if disabledReason.Some? && disabledReason.value != "" {
        return;
      }
      disabledReason := Some(reason);
    }

    method SetCacheEntry(hash: string, assetId: string)
      requires Valid()
      modifies this
      ensures Valid()
      ensures Model() == SyncState.SetCacheEntry(old(Model()), hash, assetId)
    {
      if Lookup(cache, hash) == Some(assetId) {
        return;
      }
      PutKeepsDistinct(cache, hash, assetId);
      cache := Put(cache, hash, assetId);
      cacheDirty := true;
    }

    method RemoveCacheEntry(hash: string)
      requires Valid()
      modifies this
      ensures Valid()
      ensures Model() == SyncState.RemoveCacheEntry(old(Model()), hash)
    {
      if hash !in Keys(cache) {
        return;
      }
      RemoveKeepsDistinct(cache, hash);
      cache := Remove(cache, hash);
      cacheDirty := true;
    }

    method SetPathMapping(filePath: string, assetId: string)
      requires Valid()
      modifies this
      ensures Valid()
      ensures Model() == SyncState.SetPathMapping(old(Model()), filePath, assetId)
    {
      if Lookup(paths, filePath) == Some(assetId) {
        return;
      }
      PutKeepsDistinct(paths, filePath, assetId);
      paths := Put(paths, filePath, assetId);
      assetMapDirty := true;
    }

    method RemovePathMapping(filePath: string)
      requires Valid()
      modifies this
      ensures Valid()
      ensures Model() == SyncState.RemovePathMapping(old(Model()), filePath)
    {
      if filePath !in Keys(paths) {
        return;
      }
      RemoveKeepsDistinct(paths, filePath);
      paths := Remove(paths, filePath);
      assetMapDirty := true;
    }

    /** `unlinkAssetFile(filePath)`. */
    method UnlinkAssetFile(filePath: string)
      requires Valid()
      modifies this
      ensures Valid()
      ensures Model() == SyncState.UnlinkAssetFile(old(Model()), filePath)
    {
      RemovePathMapping(filePath);
    }

    /** `saveCache()`; `ok` says whether the write succeeds. */
    method SaveCache(ok: bool) returns (step: SaveStep)
      requires Valid()
      modifies this
      ensures Valid()
      ensures Step(Model(), step) == SyncState.SaveCache(old(Model()), ok)
    {
      if disabledReason.Some? {
        return SkippedDisabled;
      }
      if !cacheDirty {
        return Clean;
      }
      if !ok {
        return WriteFailed;
      }
      writes := writes + [CacheFile(cache)];
      cacheDirty := false;
      return Written;
    }

    /** `saveAssetMap()`. */
    method SaveAssetMap(ok: bool) returns (step: SaveStep)
      requires Valid()
      modifies this
      ensures Valid()
      ensures Step(Model(), step) == SyncState.SaveAssetMap(old(Model()), ok)
    {
      if disabledReason.Some? {
        return SkippedDisabled;
      }
      if !assetMapDirty {
        return Clean;
      }
      var lines := BuildAssetMapLines(paths);
      if !ok {
        return WriteFailed;
      }
      writes := writes + [AssetMapFile(Join(lines, "\n"))];
      assetMapDirty := false;
      return Written;
    }

    /** `save()`. */
    method Save(cacheOk: bool, assetMapOk: bool) returns (saved: Saved)
      requires Valid()
      modifies this
      ensures Valid()
      ensures saved == SyncState.Save(old(Model()), cacheOk, assetMapOk) && saved.store == Model()
    {
      var cacheStep := SaveCache(cacheOk);
      var assetMapStep := SaveAssetMap(assetMapOk);
      saved := Saved(Model(), cacheStep, assetMapStep);
    }

    /** `syncAssetFile(filePath)`. */
    method SyncAssetFile(bleedMode: bool, filePath: string, digest: string, upload: UploadResult) returns (outcome: FileOutcome)
      requires Valid()
      modifies this
      ensures Valid()
      ensures Synced(Model(), outcome) == SyncState.SyncAssetFile(old(Model()), bleedMode, filePath, digest, upload)
    {
      var key := CacheKey(digest, Basename(filePath), bleedMode);
      var cached := Lookup(cache, key);
      if cached.Some? {
        SetPathMapping(filePath, cached.value);
        return Reused(cached.value);
      }
      match upload
      case Returned(assetId) =>
        if assetId.None? || assetId.value == "" {
          return SkippedUnsupported;
        }
        SetCacheEntry(key, assetId.value);
        SetPathMapping(filePath, assetId.value);
        return Uploaded(assetId.value);
      case Threw(message) =>
        if Contains(message, ConfigErrorMarker) {
          DisablePersistence(MissingConfigReason(message));
        }
        return Failed(message);
      case Unfinished =>
        return Hung;
    }

    /** The loop of `syncAssetsOnce()`: each file in turn, until an upload never settles. */
    method SyncFileList(bleedMode: bool, files: seq<string>, answer: string -> FileAnswer) returns (hung: bool)
      requires Valid()
      modifies this
      ensures Valid()
      ensures Run(Model(), hung) == SyncFiles(old(Model()), bleedMode, files, answer)
    {
      ghost var start := Model();
      hung := false;
      var i := 0;
      while i < |files|
        invariant 0 <= i <= |files|
        invariant Valid()
        invariant Run(Model(), hung) == SyncFiles(start, bleedMode, files[..i], answer)
      {
        SyncFilesStep(start, bleedMode, files, answer, i);
        if !hung {
          var f := files[i];
          var outcome := SyncAssetFile(bleedMode, f, answer(f).digest, answer(f).upload);
          hung := outcome.Hung?;
        }
        i := i + 1;
      }
      assert files[..|files|] == files;
    }

    /** `syncAssetsOnce()`: every file of the search path in turn, then `save()`. */
    method SyncAssetsOnce(bleedMode: bool, searchPath: PathArg, listing: seq<DirEntry>,
                          answer: string -> FileAnswer, cacheOk: bool, assetMapOk: bool) returns (result: Once)
      requires Valid()
      modifies this
      ensures Valid()
      ensures result == SyncState.SyncAssetsOnce(old(Model()), bleedMode, searchPath, listing, answer, cacheOk, assetMapOk)
      ensures (match result case Stalled(store) => store case Completed(saved) => saved.store) == Model()
    {
      var files := GetAllAssetFiles(searchPath, listing);
      var hung := SyncFileList(bleedMode, files, answer);
      if hung {
        return Stalled(Model());
      }
      var saved := Save(cacheOk, assetMapOk);
      return Completed(saved);
    }

    /** `cleanCache()`: afterwards every cached asset ID is used by some path. */
    method CleanCache()
      requires Valid()
      modifies this
      ensures Valid()
      ensures Model() == SyncState.CleanCache(old(Model()))
      ensures forall i :: 0 <= i < |cache| ==> cache[i].value in Values(paths)
    {
      ghost var start := Model();
      var unusedHashes := UnusedHashes(cache, Values(paths));
      RemoveCacheEntryList(unusedHashes);
      CleanCacheLeavesUsed(start);
    }

    /** The loop of `cleanCache()`: `removeCacheEntry` for each hash in turn. */
    method RemoveCacheEntryList(hashes: seq<string>)
      requires Valid()
      modifies this
      ensures Valid()
      ensures Model() == RemoveCacheEntries(old(Model()), hashes)
    {
      ghost var start := Model();
      var i := 0;
      while i < |hashes|
        invariant 0 <= i <= |hashes|
        invariant Valid()
        invariant Model() == RemoveCacheEntries(start, hashes[..i])
      {
        RemoveCacheEntriesStep(start, hashes, i);
        RemoveCacheEntry(hashes[i]);
        i := i + 1;
      }
      assert hashes[..|hashes|] == hashes;
    }

    /** `addAssetToCache(filePath, assetId)`, keyed as `syncAssetFile` keys the file. */
    method AddAssetToCache(cwd: seq<string>, bleedMode: bool, filePath: PathArg, fileExists: bool,
                           digest: string, assetId: string, cacheOk: bool, assetMapOk: bool) returns (result: Added)
      requires Valid()
      modifies this
      ensures Valid()
      ensures result == SyncState.AddAssetToCache(old(Model()), cwd, bleedMode, filePath, fileExists, digest, assetId, cacheOk, assetMapOk)
      ensures result.AddRejected? ==> Model() == old(Model())
      ensures result.AddDone? ==> result.saved.store == Model()
    {
      if !fileExists {
        return AddRejected("File not found: " + PathText(filePath));
      }
      if !IsDigits(assetId) {
        return AddRejected(InvalidAssetIdMessage(assetId));
      }
      var absolutePath := AbsolutePath(cwd, filePath);
      var key := CacheKey(digest, Basename(absolutePath), bleedMode);
      SetCacheEntry(key, assetId);
      SetPathMapping(absolutePath, assetId);
      var saved := Save(cacheOk, assetMapOk);
      return AddDone(saved);
    }
  }
}

=== FILE: sync_state.dfy ===
/**
 * The module state of `src/sync.ts` and every operation on it, as values: the
 * hash-to-asset-ID cache, the path-to-asset-ID map, their dirty flags, the reason
 * persistence was disabled, and the files written so far. `Sync.AssetStore` holds the same
 * state in fields and is proved to follow these functions.
 */
module SyncState {
  import opened Wrappers
  import opened Text
  import opened Records
  import opened NodePath
  import opened SyncPaths
  import opened Api

  /** One `writeFile` call that completed: the cache file (its JSON object) or the asset map
      module text. */
  datatype Write = CacheFile(entries: seq<Entry<string>>) | AssetMapFile(text: string)

  datatype Store = Store(
    cache: seq<Entry<string>>,       // hashToAssetIdMap
    paths: seq<Entry<string>>,       // pathToAssetIdMap
    cacheDirty: bool,
    assetMapDirty: bool,
    disabledReason: Option<string>,  // persistenceDisabledReason; `null` is `None`
    writes: seq<Write>)

  predicate PersistenceDisabled(s: Store) {
    s.disabledReason.Some?
  }

  const EmptyStore: Store := Store([], [], false, false, None, [])

  /** `disablePersistence(reason)`: the first (truthy) reason stays; nothing else changes. */
  function DisablePersistence(s: Store, reason: string): (t: Store)
    ensures PersistenceDisabled(t)
    ensures t == s.(disabledReason := t.disabledReason)
    ensures s.disabledReason.Some? && s.disabledReason.value != "" ==> t == s
    ensures !(s.disabledReason.Some? && s.disabledReason.value != "") ==> t.disabledReason == Some(reason)
  {
    if s.disabledReason.Some? && s.disabledReason.value != "" then s
    else s.(disabledReason := Some(reason))
  }

  // ---------------------------------------------------------------------------
  // Loading the cache file when the module is first imported

  /** What the cache file turned out to be. */
  datatype CacheFileState =
    | NoCacheFile                                  // `existsSync` is false
    | ParsedObject(members: seq<Entry<string>>)    // an object or array, its members in order
    | ParsedOther                                  // JSON `null` or a primitive
    | Unreadable(message: string)                  // reading or parsing threw

  function NotObjectReason(cachePath: string): string {
    "Cache file at " + cachePath + " is not a valid JSON object."
  }

  function ReadFailureReason(cachePath: string, message: string): string {
    "Failed to read cache file at " + cachePath + ": " + message
  }

  /** The state right after the module is loaded. A cache file holding `null` or a primitive, or one that
      cannot be read, disables persistence, so it is never overwritten. */
  function Load(file: CacheFileState, cachePath: string): (s: Store)
    ensures s.paths == [] && !s.cacheDirty && !s.assetMapDirty && s.writes == []
    ensures DistinctKeys(s.cache)
    ensures file.NoCacheFile? ==> s == EmptyStore
    ensures file.ParsedObject? ==> !PersistenceDisabled(s) && forall k :: Lookup(s.cache, k) == Lookup(FromEntries(file.members), k)
    ensures file.ParsedOther? ==> s.cache == [] && s.disabledReason == Some(NotObjectReason(cachePath))
    ensures file.Unreadable? ==> s.cache == [] && s.disabledReason == Some(ReadFailureReason(cachePath, file.message))
  {
    match file
    case NoCacheFile => EmptyStore
    case ParsedObject(members) => EmptyStore.(cache := FromEntries(members))
    case ParsedOther => DisablePersistence(EmptyStore, NotObjectReason(cachePath))
    case Unreadable(message) => DisablePersistence(EmptyStore, ReadFailureReason(cachePath, message))
  }

  // ---------------------------------------------------------------------------
  // Mutators: each marks its map dirty exactly when the map changes

  /** `setCacheEntry(hash, assetId)`. */
  function SetCacheEntry(s: Store, hash: string, assetId: string): (t: Store)
    ensures Lookup(t.cache, hash) == Some(assetId)
    ensures forall k :: k != hash ==> Lookup(t.cache, k) == Lookup(s.cache, k)
    ensures t.cacheDirty <==> s.cacheDirty || Lookup(s.cache, hash) != Some(assetId)
    ensures t == s.(cache := t.cache, cacheDirty := t.cacheDirty)
  {
    if Lookup(s.cache, hash) == Some(assetId) then s
    else s.(cache := Put(s.cache, hash, assetId), cacheDirty := true)
  }

  /** `removeCacheEntry(hash)`. */
  function RemoveCacheEntry(s: Store, hash: string): (t: Store)
    ensures Lookup(t.cache, hash) == None
    ensures forall k :: k != hash ==> Lookup(t.cache, k) == Lookup(s.cache, k)
    ensures t.cacheDirty <==> s.cacheDirty || hash in Keys(s.cache)
    ensures t == s.(cache := t.cache, cacheDirty := t.cacheDirty)
  {
    if hash !in Keys(s.cache) then s
    else s.(cache := Remove(s.cache, hash), cacheDirty := true)
  }

  /** `setPathMapping(filePath, assetId)`. */
  function SetPathMapping(s: Store, filePath: string, assetId: string): (t: Store)
    ensures Lookup(t.paths, filePath) == Some(assetId)
    ensures forall k :: k != filePath ==> Lookup(t.paths, k) == Lookup(s.paths, k)
    ensures t.assetMapDirty <==> s.assetMapDirty || Lookup(s.paths, filePath) != Some(assetId)
    ensures t == s.(paths := t.paths, assetMapDirty := t.assetMapDirty)
  {
    if Lookup(s.paths, filePath) == Some(assetId) then s
    else s.(paths := Put(s.paths, filePath, assetId), assetMapDirty := true)
  }

  /** `removePathMapping(filePath)`. */
  function RemovePathMapping(s: Store, filePath: string): (t: Store)
    ensures Lookup(t.paths, filePath) == None
    ensures forall k :: k != filePath ==> Lookup(t.paths, k) == Lookup(s.paths, k)
    ensures t.assetMapDirty <==> s.assetMapDirty || filePath in Keys(s.paths)
    ensures t == s.(paths := t.paths, assetMapDirty := t.assetMapDirty)
  {
    if filePath !in Keys(s.paths) then s
    else s.(paths := Remove(s.paths, filePath), assetMapDirty := true)
  }

  /** `unlinkAssetFile(filePath)`: the file leaves the asset map; its upload stays cached. */
  function UnlinkAssetFile(s: Store, filePath: string): (t: Store)
    ensures Lookup(t.paths, filePath) == None
    ensures t.cache == s.cache && t.cacheDirty == s.cacheDirty && t.writes == s.writes
  {
    RemovePathMapping(s, filePath)
  }

  // ---------------------------------------------------------------------------
  // The generated asset map module

  const Header: string := "// Auto-generated by rbx-asset-sync. Do not edit manually."
  const OpenAssets: string := "export const assets = {"
  const CloseAssets: string := "} as const;\n"
  const GetAssetFunction: string := "export function getAsset(path: keyof typeof assets): string {\n  return assets[path];\n}"

  /** The line for one path, with backslashes turned into forward slashes. */
  function AssetLine(filePath: string, assetId: string): string {
    "  \"" + ForwardSlashes(filePath) + "\": \"rbxassetid://" + assetId + "\","
  }

  /** The lines for `keys`, in that order, each with the asset ID the map holds for it. */
  function EntryLines(paths: seq<Entry<string>>, keys: seq<string>): (lines: seq<string>)
    ensures |lines| == |keys|
    ensures forall i :: 0 <= i < |keys| ==> lines[i] == AssetLine(keys[i], Lookup(paths, keys[i]).GetOr(""))
  {
    seq(|keys|, i requires 0 <= i < |keys| => AssetLine(keys[i], Lookup(paths, keys[i]).GetOr("")))
  }

  /** One more key: the lines as before, then that key's line. */
  lemma EntryLinesStep(paths: seq<Entry<string>>, keys: seq<string>, n: nat)
    requires n < |keys|
    ensures EntryLines(paths, keys[..n + 1]) == EntryLines(paths, keys[..n]) + [AssetLine(keys[n], Lookup(paths, keys[n]).GetOr(""))]
  {
    var longer := EntryLines(paths, keys[..n + 1]);
    var shorter := EntryLines(paths, keys[..n]);
    forall i | 0 <= i < n ensures longer[i] == shorter[i] {
      assert keys[..n + 1][i] == keys[..n][i];
    }
  }

  /** One line per path, in ascending order of paths. */
  function AssetMapBody(paths: seq<Entry<string>>): (lines: seq<string>)
    ensures |lines| == |paths|
  {
    EntryLines(paths, Sort(Keys(paths)))
  }

  /** The lines `saveAssetMap` joins: header, the body, footer. */
  function AssetMapLines(paths: seq<Entry<string>>): (lines: seq<string>)
    ensures |lines| == |paths| + 4
  {
    [Header, OpenAssets] + AssetMapBody(paths) + [CloseAssets, GetAssetFunction]
  }

  function AssetMapText(paths: seq<Entry<string>>): string {
    Join(AssetMapLines(paths), "\n")
  }

  /** Each mapping has its line among the lines for a permutation of the map's keys. */
  lemma MappingHasLine(paths: seq<Entry<string>>, keys: seq<string>, i: nat)
    requires DistinctKeys(paths) && multiset(keys) == multiset(Keys(paths)) && i < |paths|
    ensures AssetLine(paths[i].key, paths[i].value) in EntryLines(paths, keys)
  {
    assert Keys(paths)[i] == paths[i].key;
    assert paths[i].key in multiset(keys);
    var j :| 0 <= j < |keys| && keys[j] == paths[i].key;
    LookupAt(paths, i);
  }

  /** Each line for a permutation of the map's keys is the line of a mapping. */
  lemma LineHasMapping(paths: seq<Entry<string>>, keys: seq<string>, j: nat)
    requires DistinctKeys(paths) && multiset(keys) == multiset(Keys(paths)) && j < |keys|
    ensures exists i :: 0 <= i < |paths| && EntryLines(paths, keys)[j] == AssetLine(paths[i].key, paths[i].value)
  {
    assert keys[j] in multiset(Keys(paths));
    var i :| 0 <= i < |paths| && Keys(paths)[i] == keys[j];
    LookupAt(paths, i);
  }

  /** Every mapping appears in the generated module, every line between the header and the
      footer is the line of a mapping, and those lines follow the sorted order of paths. */
  lemma {:induction false} AssetMapListsMappings(paths: seq<Entry<string>>)
    requires DistinctKeys(paths)
    ensures AssetMapLines(paths) == [Header, OpenAssets] + AssetMapBody(paths) + [CloseAssets, GetAssetFunction]
    ensures forall i :: 0 <= i < |paths| ==> AssetLine(paths[i].key, paths[i].value) in AssetMapBody(paths)
    ensures forall j :: 0 <= j < |paths| ==>
      exists i :: 0 <= i < |paths| && AssetMapBody(paths)[j] == AssetLine(paths[i].key, paths[i].value)
  {
    var keys := Sort(Keys(paths));
    forall i | 0 <= i < |paths|
      ensures AssetLine(paths[i].key, paths[i].value) in AssetMapBody(paths)
    {
      MappingHasLine(paths, keys, i);
    }
    forall j | 0 <= j < |paths|
      ensures exists i :: 0 <= i < |paths| && AssetMapBody(paths)[j] == AssetLine(paths[i].key, paths[i].value)
    {
      LineHasMapping(paths, keys, j);
    }
  }

  // ---------------------------------------------------------------------------
  // Saving

  /** How one save function ended. */
  datatype SaveStep =
    | SkippedDisabled   // persistence is disabled: nothing written
    | Clean             // the map is not dirty: nothing written
    | Written           // the file was written and the flag cleared
    | WriteFailed       // the write rejected: the flag stays set and `save` rejects

  datatype Step = Step(store: Store, step: SaveStep)

  /** `saveCache()`; `ok` says whether the file system accepted the write. */
  function SaveCache(s: Store, ok: bool): (r: Step)
    ensures PersistenceDisabled(s) ==> r == Step(s, SkippedDisabled)
    ensures !PersistenceDisabled(s) && !s.cacheDirty ==> r == Step(s, Clean)
    ensures !PersistenceDisabled(s) && s.cacheDirty ==>
      r.store == s.(writes := s.writes + (if ok then [CacheFile(s.cache)] else []), cacheDirty := !ok)
      && r.step == (if ok then Written else WriteFailed)
  {
    if PersistenceDisabled(s) then Step(s, SkippedDisabled)
    else if !s.cacheDirty then Step(s, Clean)
    else if ok then Step(s.(writes := s.writes + [CacheFile(s.cache)], cacheDirty := false), Written)
    else Step(s, WriteFailed)
  }

  /** `saveAssetMap()`. */
  function SaveAssetMap(s: Store, ok: bool): (r: Step)
    ensures PersistenceDisabled(s) ==> r == Step(s, SkippedDisabled)
    ensures !PersistenceDisabled(s) && !s.assetMapDirty ==> r == Step(s, Clean)
    ensures !PersistenceDisabled(s) && s.assetMapDirty ==>
      r.store == s.(writes := s.writes + (if ok then [AssetMapFile(AssetMapText(s.paths))] else []), assetMapDirty := !ok)
      && r.step == (if ok then Written else WriteFailed)
  {
    if PersistenceDisabled(s) then Step(s, SkippedDisabled)
    else if !s.assetMapDirty then Step(s, Clean)
    else if ok then Step(s.(writes := s.writes + [AssetMapFile(AssetMapText(s.paths))], assetMapDirty := false), Written)
    else Step(s, WriteFailed)
  }

  datatype Saved = Saved(store: Store, cacheStep: SaveStep, assetMapStep: SaveStep) {
    /** `save()` rejects when either write rejected. */
    predicate Rejected() {
      cacheStep == WriteFailed || assetMapStep == WriteFailed
    }
  }

  /** `save()`: both save functions run; each decides from its own flag. */
  function Save(s: Store, cacheOk: bool, assetMapOk: bool): (r: Saved)
    ensures r.store.cache == s.cache && r.store.paths == s.paths && r.store.disabledReason == s.disabledReason
    ensures s.writes <= r.store.writes && |r.store.writes| <= |s.writes| + 2
    ensures PersistenceDisabled(s) ==> r.store == s
    ensures !PersistenceDisabled(s) && !r.Rejected() ==> !r.store.cacheDirty && !r.store.assetMapDirty
  {
    var c := SaveCache(s, cacheOk);
    var m := SaveAssetMap(c.store, assetMapOk);
    Saved(m.store, c.step, m.step)
  }

  /** A save that succeeded leaves nothing dirty, so saving again writes nothing. */
  lemma SaveAgainWritesNothing(s: Store, cacheOk: bool, assetMapOk: bool, cacheOk': bool, assetMapOk': bool)
    requires !Save(s, cacheOk, assetMapOk).Rejected()
    ensures var t := Save(s, cacheOk, assetMapOk).store;
      Save(t, cacheOk', assetMapOk').store == t && !Save(t, cacheOk', assetMapOk').Rejected()
  {
  }

  /** With both maps dirty and persistence enabled, a successful save writes the cache
      object and then the asset map module, two writes. */
  lemma SaveDirtyWritesBoth(s: Store)
    requires !PersistenceDisabled(s) && s.cacheDirty && s.assetMapDirty
    ensures Save(s, true, true).store.writes == s.writes + [CacheFile(s.cache), AssetMapFile(AssetMapText(s.paths))]
  {
  }

  // ---------------------------------------------------------------------------
  // Synchronising one file

  /** The text whose presence in an upload error means the Roblox configuration is missing. */
  const ConfigErrorMarker: string := "environment variable is not set"

  function MissingConfigReason(message: string): string {
    "Missing Roblox configuration (" + message + "). Cache will remain untouched."
  }

  /** What `syncAssetFile` did with a file. */
  datatype FileOutcome =
    | Reused(assetId: string)     // cache hit: no upload
    | Uploaded(assetId: string)   // uploaded and recorded in both maps
    | SkippedUnsupported          // the upload resolved to no asset ID
    | Failed(message: string)     // processing or upload threw; the error was logged
    | Hung                        // the upload never settled

  datatype Synced = Synced(store: Store, outcome: FileOutcome)

  /**
   * `syncAssetFile(filePath)`. `digest` is the SHA-1 of the file's bytes; `upload` is how
   * processing and uploading would end, consulted only on a cache miss.
   */
  function SyncAssetFile(s: Store, bleedMode: bool, filePath: string, digest: string, upload: UploadResult): (r: Synced)
    ensures var key := CacheKey(digest, Basename(filePath), bleedMode);
      (r.outcome.Reused? <==> key in Keys(s.cache))
      && (r.outcome.Reused? || r.outcome.Uploaded? ==>
            Lookup(r.store.cache, key) == Some(r.outcome.assetId)
            && Lookup(r.store.paths, filePath) == Some(r.outcome.assetId)
            && (forall k :: k != filePath ==> Lookup(r.store.paths, k) == Lookup(s.paths, k)))
      && (r.outcome.Reused? ==> r.store.cache == s.cache && Lookup(s.cache, key) == Some(r.outcome.assetId))
      && (r.outcome.Uploaded? ==>
            upload == Returned(Some(r.outcome.assetId)) && r.outcome.assetId != ""
            && (forall k :: k != key ==> Lookup(r.store.cache, k) == Lookup(s.cache, k)))
    ensures !(r.outcome.Reused? || r.outcome.Uploaded?) ==> r.store.cache == s.cache && r.store.paths == s.paths
    // on a miss, how the upload ends decides the outcome
    ensures var key := CacheKey(digest, Basename(filePath), bleedMode);
      key !in Keys(s.cache) ==>
        (upload.Returned? && upload.assetId.Some? && upload.assetId.value != "" ==> r.outcome == Uploaded(upload.assetId.value))
        && (upload.Returned? && (upload.assetId.None? || upload.assetId.value == "") ==> r == Synced(s, SkippedUnsupported))
        && (upload.Threw? ==> r.outcome == Failed(upload.message))
        && (upload.Threw? && Contains(upload.message, ConfigErrorMarker) ==>
              r.store == DisablePersistence(s, MissingConfigReason(upload.message)))
        && (upload.Threw? && !Contains(upload.message, ConfigErrorMarker) ==> r.store == s)
        && (upload.Unfinished? ==> r == Synced(s, Hung))
    // a map is marked dirty exactly when it changed
    ensures r.store.cacheDirty <==> s.cacheDirty || r.outcome.Uploaded?
    ensures r.store.assetMapDirty <==>
      s.assetMapDirty || ((r.outcome.Reused? || r.outcome.Uploaded?) && Lookup(s.paths, filePath) != Some(r.outcome.assetId))
    ensures r.store.writes == s.writes
    ensures r.store.disabledReason != s.disabledReason ==>
      upload.Threw? && Contains(upload.message, ConfigErrorMarker) && r.store.disabledReason == Some(MissingConfigReason(upload.message))
    ensures PersistenceDisabled(s) ==> PersistenceDisabled(r.store)
  {
    var key := CacheKey(digest, Basename(filePath), bleedMode);
    match Lookup(s.cache, key)
    case Some(assetId) => Synced(SetPathMapping(s, filePath, assetId), Reused(assetId))
    case None =>
      match upload
      case Returned(assetId) =>
        if assetId.None? || assetId.value == "" then Synced(s, SkippedUnsupported)
        else Synced(SetPathMapping(SetCacheEntry(s, key, assetId.value), filePath, assetId.value), Uploaded(assetId.value))
      case Threw(message) =>
        if Contains(message, ConfigErrorMarker) then Synced(DisablePersistence(s, MissingConfigReason(message)), Failed(message))
        else Synced(s, Failed(message))
      case Unfinished => Synced(s, Hung)
  }

  /** Synchronising a file again, with the same content, reuses its asset: no upload and no
      change at all. */
  lemma SyncAgainReuses(s: Store, bleedMode: bool, filePath: string, digest: string, upload: UploadResult, upload': UploadResult)
    requires var r := SyncAssetFile(s, bleedMode, filePath, digest, upload); r.outcome.Reused? || r.outcome.Uploaded?
    ensures var r := SyncAssetFile(s, bleedMode, filePath, digest, upload);
      SyncAssetFile(r.store, bleedMode, filePath, digest, upload') == Synced(r.store, Reused(r.outcome.assetId))
  {
  }

  /** Two files with the same content that go through the same processing are uploaded
      once: the second reuses the first's asset. */
  lemma IdenticalContentUploadsOnce(s: Store, bleedMode: bool, file1: string, file2: string, digest: string, upload1: UploadResult, upload2: UploadResult)
    requires TransformOf(Basename(file1), bleedMode) == TransformOf(Basename(file2), bleedMode)
    requires SyncAssetFile(s, bleedMode, file1, digest, upload1).outcome.Uploaded?
    ensures var r1 := SyncAssetFile(s, bleedMode, file1, digest, upload1);
      SyncAssetFile(r1.store, bleedMode, file2, digest, upload2).outcome == Reused(r1.outcome.assetId)
  {
    var r1 := SyncAssetFile(s, bleedMode, file1, digest, upload1);
    assert CacheKey(digest, Basename(file2), bleedMode) == CacheKey(digest, Basename(file1), bleedMode);
  }

  /** The upload error `uploadAsset` raises without an API key names a missing
      environment variable. */
  lemma MissingApiKeyIsConfigError()
    ensures Contains(MissingApiKeyMessage, ConfigErrorMarker)
  {
    ContainsAfter("ROBLOX_API_KEY ", ConfigErrorMarker, "");
    assert "ROBLOX_API_KEY " + ConfigErrorMarker + "" == MissingApiKeyMessage;
  }

  /** Without an API key, a file that misses the cache disables persistence, and the save
      that follows writes nothing: the existing cache and asset map files stay as they were. */
  lemma MissingApiKeyProtectsFiles(s: Store, bleedMode: bool, filePath: string, digest: string,
                                   env: Env, post: PostResponse, polls: seq<Poll>, cacheOk: bool, assetMapOk: bool)
    requires !IsSet(env.apiKey) && s.disabledReason.None?
    requires CacheKey(digest, Basename(filePath), bleedMode) !in Keys(s.cache)
    ensures var upload := UploadAsset(UploadName(Basename(filePath)), env, post, polls).result;
      var r := SyncAssetFile(s, bleedMode, filePath, digest, upload);
      r.store.disabledReason == Some(MissingConfigReason(MissingApiKeyMessage))
      && Save(r.store, cacheOk, assetMapOk).store.writes == s.writes
  {
    MissingApiKeyIsConfigError();
  }

  /** A WAV file is uploaded under an `.ogg` name, so Roblox is asked for an Audio asset. */
  lemma WavUploadsAsAudio(assetName: string, env: Env)
    requires IsWavName(assetName)
    ensures BuildRequest(UploadName(assetName), env).assetType == "Audio"
  {
    UploadNameOfWav(assetName);
    LowerOgg();
  }

  /** `.ogg` is already lower case. */
  lemma LowerOgg()
    ensures Lower(".ogg") == ".ogg"
  {
    var ext := Lower(".ogg");
    assert ext[0] == '.' && ext[1] == 'o' && ext[2] == 'g' && ext[3] == 'g';
  }

  // ---------------------------------------------------------------------------
  // Synchronising every file once

  /** What the file system and Roblox would answer for one file. */
  datatype FileAnswer = FileAnswer(digest: string, upload: UploadResult)

  datatype Run = Run(store: Store, hung: bool)

  /** The loop of `syncAssetsOnce`: each file in turn; an upload that never settles stops it. */
  function SyncFiles(s: Store, bleedMode: bool, files: seq<string>, answer: string -> FileAnswer): (r: Run)
    decreases |files|
    ensures r.store.writes == s.writes
    ensures PersistenceDisabled(s) ==> PersistenceDisabled(r.store)
    ensures forall k :: Lookup(s.cache, k).Some? ==> Lookup(r.store.cache, k) == Lookup(s.cache, k)
  {
    if files == [] then Run(s, false)
    else
      var prev := SyncFiles(s, bleedMode, files[..|files| - 1], answer);
      if prev.hung then prev
      else
        var f := files[|files| - 1];
        var r := SyncAssetFile(prev.store, bleedMode, f, answer(f).digest, answer(f).upload);
        Run(r.store, r.outcome.Hung?)
  }

  /** One more file: the run as before, then that file unless the run already hung. */
  lemma SyncFilesStep(s: Store, bleedMode: bool, files: seq<string>, answer: string -> FileAnswer, n: nat)
    requires n < |files|
    ensures SyncFiles(s, bleedMode, files[..n + 1], answer) ==
      var prev := SyncFiles(s, bleedMode, files[..n], answer);
      if prev.hung then prev
      else
        var r := SyncAssetFile(prev.store, bleedMode, files[n], answer(files[n]).digest, answer(files[n]).upload);
        Run(r.store, r.outcome.Hung?)
  {
    assert files[..n + 1][..n] == files[..n];
  }

  /** The path texts `getAllAssetFiles` returns. */
  function FileTexts(files: seq<PathArg>): (texts: seq<string>)
    ensures |texts| == |files| && forall i :: 0 <= i < |files| ==> texts[i] == PathText(files[i])
  {
    seq(|files|, i requires 0 <= i < |files| => PathText(files[i]))
  }

  datatype Once = Stalled(store: Store) | Completed(saved: Saved)

  /** `syncAssetsOnce()`: walk the search path, synchronise every file, then save. */
  function SyncAssetsOnce(s: Store, bleedMode: bool, searchPath: PathArg, listing: seq<DirEntry>,
                          answer: string -> FileAnswer, cacheOk: bool, assetMapOk: bool): (r: Once)
    ensures r.Stalled? ==> r.store.writes == s.writes
    ensures r.Completed? ==> s.writes <= r.saved.store.writes
  {
    var run := SyncFiles(s, bleedMode, FileTexts(Walk(searchPath, listing)), answer);
    if run.hung then Stalled(run.store) else Completed(Save(run.store, cacheOk, assetMapOk))
  }

  /** A file the run maps to an asset: its key is already cached, or its upload returns an ID. */
  predicate MapsToAsset(s: Store, bleedMode: bool, f: string, a: FileAnswer) {
    CacheKey(a.digest, Basename(f), bleedMode) in Keys(s.cache)
    || (a.upload.Returned? && a.upload.assetId.Some? && a.upload.assetId.value != "")
  }

  /** A run that does not hang visits every file: each one that maps to an asset ends up in
      the asset map, whatever the files after it do. */
  lemma {:induction false} SyncFilesMapsFile(s: Store, bleedMode: bool, files: seq<string>, answer: string -> FileAnswer, j: nat)
    requires j < |files| && !SyncFiles(s, bleedMode, files, answer).hung
    requires MapsToAsset(s, bleedMode, files[j], answer(files[j]))
    ensures Lookup(SyncFiles(s, bleedMode, files, answer).store.paths, files[j]).Some?
    decreases |files|, 1
  {
    var n := |files| - 1;
    if j == n {
      SyncFilesLast(s, bleedMode, files, answer);
      StillMapsToAsset(s, SyncFiles(s, bleedMode, files[..n], answer).store, bleedMode, files[n], answer(files[n]));
    } else {
      SyncFilesMapsEarlier(s, bleedMode, files, answer, j);
    }
  }

  /** The induction step of `SyncFilesMapsFile` for a file before the last. */
  lemma {:induction false} SyncFilesMapsEarlier(s: Store, bleedMode: bool, files: seq<string>, answer: string -> FileAnswer, j: nat)
    requires j < |files| - 1 && !SyncFiles(s, bleedMode, files, answer).hung
    requires MapsToAsset(s, bleedMode, files[j], answer(files[j]))
    ensures Lookup(SyncFiles(s, bleedMode, files, answer).store.paths, files[j]).Some?
    decreases |files|, 0
  {
    var n := |files| - 1;
    SyncFilesLast(s, bleedMode, files, answer);
    assert files[..n][j] == files[j];
    SyncFilesMapsFile(s, bleedMode, files[..n], answer, j);
  }

  /** A file that maps to an asset still does after cache entries are added. */
  lemma StillMapsToAsset(s: Store, t: Store, bleedMode: bool, f: string, a: FileAnswer)
    requires forall k :: Lookup(s.cache, k).Some? ==> Lookup(t.cache, k) == Lookup(s.cache, k)
    requires MapsToAsset(s, bleedMode, f, a)
    ensures MapsToAsset(t, bleedMode, f, a)
  {
    var key := CacheKey(a.digest, Basename(f), bleedMode);
    if key in Keys(s.cache) {
      assert Lookup(t.cache, key) == Lookup(s.cache, key);
    }
  }

  /** The last file of a run that does not hang: the run before it did not hang either, and
      that file keeps every path mapping and adds its own when it maps to an asset. */
  lemma SyncFilesLast(s: Store, bleedMode: bool, files: seq<string>, answer: string -> FileAnswer)
    requires files != [] && !SyncFiles(s, bleedMode, files, answer).hung
    ensures var n := |files| - 1;
      var prev := SyncFiles(s, bleedMode, files[..n], answer);
      var t := SyncFiles(s, bleedMode, files, answer).store;
      !prev.hung
      && (MapsToAsset(prev.store, bleedMode, files[n], answer(files[n])) ==> Lookup(t.paths, files[n]).Some?)
      && (forall g :: Lookup(prev.store.paths, g).Some? ==> Lookup(t.paths, g).Some?)
  {
    var n := |files| - 1;
    var prev := SyncFiles(s, bleedMode, files[..n], answer);
    var f := files[n];
    if MapsToAsset(prev.store, bleedMode, f, answer(f)) {
      SyncFileMapsIt(prev.store, bleedMode, f, answer(f));
    }
    forall g | Lookup(prev.store.paths, g).Some?
      ensures Lookup(SyncAssetFile(prev.store, bleedMode, f, answer(f).digest, answer(f).upload).store.paths, g).Some?
    {
      SyncFileKeepsMapped(prev.store, bleedMode, f, answer(f), g);
    }
  }

  /** A file whose key is cached or whose upload returns an ID gets a path mapping. */
  lemma SyncFileMapsIt(s: Store, bleedMode: bool, f: string, a: FileAnswer)
    requires MapsToAsset(s, bleedMode, f, a)
    ensures Lookup(SyncAssetFile(s, bleedMode, f, a.digest, a.upload).store.paths, f).Some?
  {
  }

  /** Synchronising a file never drops a path mapping. */
  lemma SyncFileKeepsMapped(s: Store, bleedMode: bool, f: string, a: FileAnswer, g: string)
    requires Lookup(s.paths, g).Some?
    ensures Lookup(SyncAssetFile(s, bleedMode, f, a.digest, a.upload).store.paths, g).Some?
  {
  }

  /** A completed `syncAssetsOnce` saves the maps the run built: every walked file that maps
      to an asset is in the saved asset map, no cached upload is forgotten, and a save that
      was not rejected leaves nothing dirty. */
  lemma CompletedRunMapsFiles(s: Store, bleedMode: bool, searchPath: PathArg, listing: seq<DirEntry>,
                              answer: string -> FileAnswer, cacheOk: bool, assetMapOk: bool)
    requires SyncAssetsOnce(s, bleedMode, searchPath, listing, answer, cacheOk, assetMapOk).Completed?
    ensures var saved := SyncAssetsOnce(s, bleedMode, searchPath, listing, answer, cacheOk, assetMapOk).saved;
      var files := FileTexts(Walk(searchPath, listing));
      var run := SyncFiles(s, bleedMode, files, answer);
      saved.store.cache == run.store.cache && saved.store.paths == run.store.paths
      && (forall i :: 0 <= i < |files| && MapsToAsset(s, bleedMode, files[i], answer(files[i])) ==>
            Lookup(saved.store.paths, files[i]).Some?)
      && (forall k :: Lookup(s.cache, k).Some? ==> Lookup(saved.store.cache, k) == Lookup(s.cache, k))
      && (!PersistenceDisabled(saved.store) && !saved.Rejected() ==> !saved.store.cacheDirty && !saved.store.assetMapDirty)
  {
    var files := FileTexts(Walk(searchPath, listing));
    forall i | 0 <= i < |files| && MapsToAsset(s, bleedMode, files[i], answer(files[i]))
      ensures Lookup(SyncFiles(s, bleedMode, files, answer).store.paths, files[i]).Some?
    {
      SyncFilesMapsFile(s, bleedMode, files, answer, i);
    }
  }

  /** Once persistence is disabled, a whole synchronisation run writes no file. */
  lemma DisabledRunWritesNothing(s: Store, bleedMode: bool, searchPath: PathArg, listing: seq<DirEntry>,
                                 answer: string -> FileAnswer, cacheOk: bool, assetMapOk: bool)
    requires PersistenceDisabled(s)
    ensures match SyncAssetsOnce(s, bleedMode, searchPath, listing, answer, cacheOk, assetMapOk)
      case Stalled(t) => t.writes == s.writes
      case Completed(saved) => saved.store.writes == s.writes && PersistenceDisabled(saved.store)
  {
  }

  // ---------------------------------------------------------------------------
  // Cleaning the cache

  /** The cache keys whose asset ID no path uses, in cache order. */
  function UnusedHashes(cache: seq<Entry<string>>, used: set<string>): (hashes: seq<string>)
    ensures forall h :: h in hashes <==> exists i :: 0 <= i < |cache| && cache[i].key == h && cache[i].value !in used
  {
    if cache == [] then []
    else
      var rest := UnusedHashes(cache[1..], used);
      assert forall i :: 1 <= i < |cache| ==> cache[i] == cache[1..][i - 1];
      (if cache[0].value in used then [] else [cache[0].key]) + rest
  }

  /** `removeCacheEntry` for each hash in turn. */
  function RemoveCacheEntries(s: Store, hashes: seq<string>): (t: Store)
    decreases |hashes|
    ensures forall k :: Lookup(t.cache, k) == if k in hashes then None else Lookup(s.cache, k)
    ensures forall i :: 0 <= i < |t.cache| ==> t.cache[i] in s.cache && t.cache[i].key !in hashes
    ensures t.cacheDirty <==> s.cacheDirty || exists h :: h in hashes && h in Keys(s.cache)
    ensures t == s.(cache := t.cache, cacheDirty := t.cacheDirty)
  {
    if hashes == [] then s
    else
      var prev := RemoveCacheEntries(s, hashes[..|hashes| - 1]);
      var h := hashes[|hashes| - 1];
      assert forall x :: x in hashes <==> x in hashes[..|hashes| - 1] || x == h;
      RemoveCacheEntry(prev, h)
  }

  /** One more hash: the cache as before, with that hash removed. */
  lemma RemoveCacheEntriesStep(s: Store, hashes: seq<string>, n: nat)
    requires n < |hashes|
    ensures RemoveCacheEntries(s, hashes[..n + 1]) == RemoveCacheEntry(RemoveCacheEntries(s, hashes[..n]), hashes[n])
  {
    assert hashes[..n + 1][..n] == hashes[..n];
  }

  /** `cleanCache()`: drop every cache entry whose asset ID no path maps to. */
  function CleanCache(s: Store): (t: Store)
    ensures t.paths == s.paths && t.writes == s.writes && t.disabledReason == s.disabledReason
  {
    RemoveCacheEntries(s, UnusedHashes(s.cache, Values(s.paths)))
  }

  /** Cleaning keeps exactly the cache entries whose asset ID a path uses, and marks the cache
      dirty exactly when it removed something. */
  lemma CleanCacheKeepsUsed(s: Store)
    requires DistinctKeys(s.cache)
    ensures var t := CleanCache(s);
      (forall k :: Lookup(t.cache, k) ==
         if Lookup(s.cache, k).Some? && Lookup(s.cache, k).value in Values(s.paths) then Lookup(s.cache, k) else None)
      && (t.cacheDirty <==> s.cacheDirty || exists i :: 0 <= i < |s.cache| && s.cache[i].value !in Values(s.paths))
  {
    var used := Values(s.paths);
    var hashes := UnusedHashes(s.cache, used);
    forall k
      ensures k in hashes <==> Lookup(s.cache, k).Some? && Lookup(s.cache, k).value !in used
    {
      if k in hashes {
        var i :| 0 <= i < |s.cache| && s.cache[i].key == k && s.cache[i].value !in used;
        LookupAt(s.cache, i);
      }
      if Lookup(s.cache, k).Some? {
        assert k in Keys(s.cache);
        var i :| 0 <= i < |s.cache| && Keys(s.cache)[i] == k;
        LookupAt(s.cache, i);
      }
    }
    forall i | 0 <= i < |s.cache| && s.cache[i].value !in used
      ensures s.cache[i].key in hashes && s.cache[i].key in Keys(s.cache)
    {
      assert Keys(s.cache)[i] == s.cache[i].key;
    }
  }

  /** After cleaning, every cached asset ID is used by a path. */
  lemma CleanCacheLeavesUsed(s: Store)
    requires DistinctKeys(s.cache)
    ensures forall i :: 0 <= i < |CleanCache(s).cache| ==> CleanCache(s).cache[i].value in Values(s.paths)
  {
    var t := CleanCache(s);
    var hashes := UnusedHashes(s.cache, Values(s.paths));
    forall i | 0 <= i < |t.cache|
      ensures t.cache[i].value in Values(s.paths)
    {
      var e := t.cache[i];
      var j :| 0 <= j < |s.cache| && s.cache[j] == e;
      assert e.key !in hashes;
    }
  }

  /** Cleaning twice is cleaning once. */
  lemma CleanCacheIdempotent(s: Store)
    requires DistinctKeys(s.cache)
    ensures CleanCache(CleanCache(s)) == CleanCache(s)
  {
    var t := CleanCache(s);
    CleanCacheLeavesUsed(s);
    NoUnusedHashes(t.cache, Values(t.paths));
    assert CleanCache(t) == RemoveCacheEntries(t, []);
  }

  lemma {:induction false} NoUnusedHashes(cache: seq<Entry<string>>, used: set<string>)
    requires forall i :: 0 <= i < |cache| ==> cache[i].value in used
    ensures UnusedHashes(cache, used) == []
  {
    if cache != [] {
      NoUnusedHashes(cache[1..], used);
    }
  }

  // ---------------------------------------------------------------------------
  // Adding a known asset by hand

  function InvalidAssetIdMessage(assetId: string): string {
    "Invalid asset ID: " + assetId + ". Asset ID must be numeric."
  }

  /** The path `addAssetToCache` records: an absolute argument as given, a relative one
      resolved against `cwd`. */
  function AbsolutePath(cwd: seq<string>, filePath: PathArg): (p: string)
    ensures filePath.absolute ==> p == PathText(filePath)
    ensures !filePath.absolute ==> p == PathText(PathArg(true, Normalize(true, cwd + filePath.segments)))
  {
    if filePath.absolute then PathText(filePath) else PathText(PathArg(true, Resolve(cwd, filePath)))
  }

  datatype Added = AddRejected(message: string) | AddDone(saved: Saved)

  /** The body of `addAssetToCache` once the cache key is known. */
  function AddWithKey(s: Store, key: string, cwd: seq<string>, filePath: PathArg, fileExists: bool,
                      assetId: string, cacheOk: bool, assetMapOk: bool): (r: Added)
    ensures !fileExists ==> r == AddRejected("File not found: " + PathText(filePath))
    ensures fileExists && !IsDigits(assetId) ==> r == AddRejected(InvalidAssetIdMessage(assetId))
    ensures fileExists && IsDigits(assetId) ==>
      r.AddDone? && Lookup(r.saved.store.cache, key) == Some(assetId)
      && Lookup(r.saved.store.paths, AbsolutePath(cwd, filePath)) == Some(assetId)
      && (forall k :: k != key ==> Lookup(r.saved.store.cache, k) == Lookup(s.cache, k))
      && (forall k :: k != AbsolutePath(cwd, filePath) ==> Lookup(r.saved.store.paths, k) == Lookup(s.paths, k))
      && r.saved == Save(SetPathMapping(SetCacheEntry(s, key, assetId), AbsolutePath(cwd, filePath), assetId), cacheOk, assetMapOk)
  {
    if !fileExists then AddRejected("File not found: " + PathText(filePath))
    else if !IsDigits(assetId) then AddRejected(InvalidAssetIdMessage(assetId))
    else
      var t := SetPathMapping(SetCacheEntry(s, key, assetId), AbsolutePath(cwd, filePath), assetId);
      AddDone(Save(t, cacheOk, assetMapOk))
  }

  /** The cache key `addAssetToCache` computes: the bleed qualifier only, never the WAV one. */
  function ManualCacheKeyAsWritten(digest: string, assetName: string, bleedMode: bool): (key: string)
    ensures !IsWavName(assetName) ==> key == CacheKey(digest, assetName, bleedMode)
    ensures IsWavName(assetName) ==> key == digest
  {
    ImageIsNotWav(assetName);
    digest + (if bleedMode && IsImageName(assetName) then "(bleed)" else "")
  }

  /** `addAssetToCache(filePath, assetId)` as written. */
  function AddAssetToCacheAsWritten(s: Store, cwd: seq<string>, bleedMode: bool, filePath: PathArg, fileExists: bool,
                                    digest: string, assetId: string, cacheOk: bool, assetMapOk: bool): (r: Added)
    ensures !fileExists ==> r == AddRejected("File not found: " + PathText(filePath))
    ensures fileExists && !IsDigits(assetId) ==> r == AddRejected(InvalidAssetIdMessage(assetId))
    ensures r.AddDone? <==> fileExists && IsDigits(assetId)
    ensures r.AddDone? ==> Lookup(r.saved.store.paths, AbsolutePath(cwd, filePath)) == Some(assetId)
    ensures r.AddDone? && IsWavName(Basename(AbsolutePath(cwd, filePath))) ==>
      Lookup(r.saved.store.cache, digest) == Some(assetId)
    ensures r.AddDone? && !IsWavName(Basename(AbsolutePath(cwd, filePath))) ==>
      Lookup(r.saved.store.cache, CacheKey(digest, Basename(AbsolutePath(cwd, filePath)), bleedMode)) == Some(assetId)
  {
    var key := ManualCacheKeyAsWritten(digest, Basename(AbsolutePath(cwd, filePath)), bleedMode);
    AddWithKey(s, key, cwd, filePath, fileExists, assetId, cacheOk, assetMapOk)
  }

  /** A WAV file added by hand is not found by the next synchronisation of that file: the
      key written lacks `(wav->ogg)`, so the file is uploaded again. */
  lemma ManualWavMappingIsMissed(s: Store, cwd: seq<string>, bleedMode: bool, filePath: PathArg, digest: string,
                                 assetId: string, cacheOk: bool, assetMapOk: bool, syncPath: string, upload: UploadResult)
    requires IsDigits(assetId)
    requires IsWavName(Basename(AbsolutePath(cwd, filePath))) && Basename(syncPath) == Basename(AbsolutePath(cwd, filePath))
    requires CacheKey(digest, Basename(syncPath), bleedMode) !in Keys(s.cache)
    ensures var r := AddAssetToCacheAsWritten(s, cwd, bleedMode, filePath, true, digest, assetId, cacheOk, assetMapOk);
      r.AddDone? && !SyncAssetFile(r.saved.store, bleedMode, syncPath, digest, upload).outcome.Reused?
  {
    var name := Basename(syncPath);
    assert CacheKey(digest, name, bleedMode) == digest + "(wav->ogg)";
    assert CacheKey(digest, name, bleedMode) != digest;
  }

  /** `addAssetToCache(filePath, assetId)` with the cache key `syncAssetFile` uses. */
  function AddAssetToCache(s: Store, cwd: seq<string>, bleedMode: bool, filePath: PathArg, fileExists: bool,
                           digest: string, assetId: string, cacheOk: bool, assetMapOk: bool): (r: Added)
    ensures !fileExists ==> r == AddRejected("File not found: " + PathText(filePath))
    ensures fileExists && !IsDigits(assetId) ==> r == AddRejected(InvalidAssetIdMessage(assetId))
    ensures r.AddDone? <==> fileExists && IsDigits(assetId)
    ensures r.AddDone? ==>
      var key := CacheKey(digest, Basename(AbsolutePath(cwd, filePath)), bleedMode);
      Lookup(r.saved.store.cache, key) == Some(assetId)
      && Lookup(r.saved.store.paths, AbsolutePath(cwd, filePath)) == Some(assetId)
      && (forall k :: k != key ==> Lookup(r.saved.store.cache, k) == Lookup(s.cache, k))
      && (forall k :: k != AbsolutePath(cwd, filePath) ==> Lookup(r.saved.store.paths, k) == Lookup(s.paths, k))
      && r.saved == Save(SetPathMapping(SetCacheEntry(s, key, assetId), AbsolutePath(cwd, filePath), assetId), cacheOk, assetMapOk)
  {
    var key := CacheKey(digest, Basename(AbsolutePath(cwd, filePath)), bleedMode);
    AddWithKey(s, key, cwd, filePath, fileExists, assetId, cacheOk, assetMapOk)
  }

  /** A file added by hand is reused by the next synchronisation of a file with the same
      name and content, whatever its type: no upload happens. */
  lemma AddThenSyncReuses(s: Store, cwd: seq<string>, bleedMode: bool, filePath: PathArg, digest: string,
                          assetId: string, cacheOk: bool, assetMapOk: bool, syncPath: string, upload: UploadResult)
    requires IsDigits(assetId) && Basename(syncPath) == Basename(AbsolutePath(cwd, filePath))
    ensures var r := AddAssetToCache(s, cwd, bleedMode, filePath, true, digest, assetId, cacheOk, assetMapOk);
      r.AddDone? && SyncAssetFile(r.saved.store, bleedMode, syncPath, digest, upload).outcome == Reused(assetId)
  {
  }
}

=== FILE: syncpaths.dfy ===
/**
 * The pure helpers of `src/sync.ts`: where a file sits relative to the search path, the
 * display name sent to Roblox, the cache key that makes the cache content-addressed, the
 * name under which a file is uploaded, and the recursive directory walk.
 */
module SyncPaths {
  import opened Wrappers
  import opened Text
  import opened NodePath

  /** Longest display name Roblox accepts. */
  const MaxDisplayNameLength: nat := 50
  const Ellipsis: string := "..."

  // ---------------------------------------------------------------------------
  // Display names

  /**
   * `computeNormalizedAssetPath`: the file's path below the search path, prefixed by the
   * search path's own last segment; the search path's last segment when both are the
   * same; the path as given otherwise. A relative path whose text starts with `..` counts
   * as outside, even when its first segment is a name such as `..assets`.
   */
  function NormalizedAssetPath(cwd: seq<string>, searchPath: PathArg, filePath: PathArg): (r: string)
    ensures var base := LastSegment(Resolve(cwd, searchPath));
      r == base || StartsWith(r, base + "/") || r == PathText(filePath)
    ensures var s := Resolve(cwd, searchPath); var f := Resolve(cwd, filePath);
      r != PathText(filePath) ==> |s| <= |f| && f[..|s|] == s
  {
    var absoluteSearch := Resolve(cwd, searchPath);
    var absoluteFile := Resolve(cwd, filePath);
    var parts := Relative(absoluteSearch, absoluteFile);
    var relative := Join(parts, "/");
    var baseSegment := LastSegment(absoluteSearch);
    assert !(|absoluteSearch| <= |absoluteFile| && absoluteFile[..|absoluteSearch|] == absoluteSearch)
      ==> StartsWith(relative, "..") by {
      if !(|absoluteSearch| <= |absoluteFile| && absoluteFile[..|absoluteSearch|] == absoluteSearch) {
        JoinHead(parts, "/");
      }
    }
    assert (baseSegment + "/" + relative)[..|baseSegment + "/"|] == baseSegment + "/";
    if relative == "" then baseSegment
    else if !StartsWith(relative, "..") && !StartsWith(relative, "/") then baseSegment + "/" + relative
    else PathText(filePath)
  }

  /** `truncateAssetPathForRoblox`: short paths unchanged; long ones become `...` followed
      by their last 47 characters. */
  function TruncateAssetPathForRoblox(normalizedPath: string): (displayName: string)
    ensures |displayName| <= MaxDisplayNameLength
    ensures |normalizedPath| <= MaxDisplayNameLength <==> displayName == normalizedPath
    ensures |normalizedPath| > MaxDisplayNameLength ==>
      StartsWith(displayName, Ellipsis) && EndsWith(normalizedPath, displayName[|Ellipsis|..])
      && |displayName| == MaxDisplayNameLength
  {
    if |normalizedPath| <= MaxDisplayNameLength then normalizedPath
    else Ellipsis + normalizedPath[|normalizedPath| - (MaxDisplayNameLength - |Ellipsis|)..]
  }

  datatype DisplayInfo = DisplayInfo(normalizedPath: string, displayName: string)

  /** `getUploadDisplayInfo`. */
  function GetUploadDisplayInfo(cwd: seq<string>, searchPath: PathArg, filePath: PathArg): (info: DisplayInfo)
    ensures info.normalizedPath == NormalizedAssetPath(cwd, searchPath, filePath)
    ensures |info.displayName| <= MaxDisplayNameLength
    ensures info.displayName == info.normalizedPath <==> |info.normalizedPath| <= MaxDisplayNameLength
    ensures info.displayName != info.normalizedPath ==>
      StartsWith(info.displayName, Ellipsis) && EndsWith(info.normalizedPath, info.displayName[|Ellipsis|..])
  {
    var normalizedPath := NormalizedAssetPath(cwd, searchPath, filePath);
    DisplayInfo(normalizedPath, TruncateAssetPathForRoblox(normalizedPath))
  }

  /** Truncating a display name again changes nothing. */
  lemma TruncateIdempotent(p: string)
    ensures TruncateAssetPathForRoblox(TruncateAssetPathForRoblox(p)) == TruncateAssetPathForRoblox(p)
  {
  }

  lemma {:induction false} JoinHead(parts: seq<string>, sep: string)
    requires parts != []
    ensures StartsWith(Join(parts, sep), parts[0])
  {
    if |parts| > 1 {
      assert Join(parts, sep) == parts[0] + (sep + Join(parts[1..], sep));
    }
  }

  /** Texts whose first segment is a plain name not starting with `..` neither start with
      `..` nor with a separator. */
  lemma JoinOfNamesIsInside(rest: seq<string>)
    requires rest != [] && AllNames(rest) && !StartsWith(rest[0], "..")
    ensures var t := Join(rest, "/"); t != "" && !StartsWith(t, "..") && !StartsWith(t, "/")
  {
    var t := Join(rest, "/");
    JoinHead(rest, "/");
    assert IsName(rest[0]);
    assert t[0] == rest[0][0];
    if |rest[0]| >= 2 {
      assert t[..2] == rest[0][..2];
    } else {
      assert rest[0] == [rest[0][0]];
    }
  }

  /** The search path itself is named by its last segment. */
  lemma NormalizedSearchRoot(cwd: seq<string>, searchPath: PathArg, filePath: PathArg)
    requires Resolve(cwd, filePath) == Resolve(cwd, searchPath)
    ensures NormalizedAssetPath(cwd, searchPath, filePath) == LastSegment(Resolve(cwd, searchPath))
  {
    var a := Resolve(cwd, searchPath);
    assert CommonPrefixLength(a, a) == |a|;
    assert Relative(a, a) == [];
  }

  /** A file below the search path is named by the search path's last segment followed by
      its path below the search path. */
  lemma NormalizedInside(cwd: seq<string>, searchPath: PathArg, filePath: PathArg, rest: seq<string>)
    requires Resolve(cwd, filePath) == Resolve(cwd, searchPath) + rest
    requires rest != [] && AllNames(rest) && !StartsWith(rest[0], "..")
    ensures NormalizedAssetPath(cwd, searchPath, filePath)
         == LastSegment(Resolve(cwd, searchPath)) + "/" + Join(rest, "/")
  {
    var a := Resolve(cwd, searchPath);
    var b := a + rest;
    var n := CommonPrefixLength(a, b);
    assert forall i :: 0 <= i < |a| ==> a[i] == b[i];
    assert b[n..] == rest;
    assert Relative(a, b) == rest;
    JoinOfNamesIsInside(rest);
  }

  /** A file whose first segment below the search path starts with `..` is treated as
      outside it and keeps its path as given. */
  lemma NormalizedDotDotChild(cwd: seq<string>, searchPath: PathArg, filePath: PathArg, rest: seq<string>)
    requires Resolve(cwd, filePath) == Resolve(cwd, searchPath) + rest
    requires rest != [] && StartsWith(rest[0], "..")
    ensures NormalizedAssetPath(cwd, searchPath, filePath) == PathText(filePath)
  {
    var a := Resolve(cwd, searchPath);
    var b := a + rest;
    var n := CommonPrefixLength(a, b);
    assert forall i :: 0 <= i < |a| ==> a[i] == b[i];
    assert b[n..] == rest;
    JoinHead(rest, "/");
  }

  /** A file that is not below the search path keeps its path as given. */
  lemma NormalizedOutside(cwd: seq<string>, searchPath: PathArg, filePath: PathArg)
    requires var s := Resolve(cwd, searchPath); var f := Resolve(cwd, filePath);
      !(|s| <= |f| && f[..|s|] == s)
    ensures NormalizedAssetPath(cwd, searchPath, filePath) == PathText(filePath)
  {
    var s := Resolve(cwd, searchPath);
    var f := Resolve(cwd, filePath);
    var n := CommonPrefixLength(s, f);
    assert s[..|s|] == s;
    var parts := Relative(s, f);
    assert parts[0] == "..";
    JoinHead(parts, "/");
  }

  // ---------------------------------------------------------------------------
  // Cache keys and upload names

  /** `/\.(png|jpg|jpeg)$/i`. */
  predicate IsImageName(name: string) {
    var n := Lower(name);
    EndsWith(n, ".png") || EndsWith(n, ".jpg") || EndsWith(n, ".jpeg")
  }

  /** `/\.wav$/i`. */
  predicate IsWavName(name: string) {
    EndsWith(Lower(name), ".wav")
  }

  /** The processing a file goes through before upload. */
  datatype Transform = Unchanged | Bled | WavToOgg

  function TransformOf(assetName: string, bleedMode: bool): (t: Transform)
    ensures t == Bled <==> bleedMode && IsImageName(assetName)
    ensures t == WavToOgg <==> IsWavName(assetName)
  {
    if bleedMode && IsImageName(assetName) then Bled
    else if IsWavName(assetName) then WavToOgg
    else Unchanged
  }

  function Qualifier(t: Transform): string {
    match t
    case Unchanged => ""
    case Bled => "(bleed)"
    case WavToOgg => "(wav->ogg)"
  }

  /** A name never looks like both an image and a WAV file, so at most one qualifier is
      appended to a digest. */
  lemma ImageIsNotWav(name: string)
    ensures !(IsImageName(name) && IsWavName(name))
  {
    var n := Lower(name);
    assert IsWavName(name) ==> n[|n| - 1] == 'v';
    assert IsImageName(name) ==> n[|n| - 1] == 'g';
  }

  /** The two optional suffixes of a cache key together are the qualifier of the file's
      processing. */
  lemma QualifierParts(assetName: string, bleedMode: bool)
    ensures (if bleedMode && IsImageName(assetName) then "(bleed)" else "")
      + (if IsWavName(assetName) then "(wav->ogg)" else "")
      == Qualifier(TransformOf(assetName, bleedMode))
  {
    ImageIsNotWav(assetName);
  }

  /** The cache key of `syncAssetFile`: the content digest, then `(bleed)` for an image
      processed in bleed mode, then `(wav->ogg)` for a WAV file. */
  function CacheKey(digest: string, assetName: string, bleedMode: bool): (key: string)
    ensures key == digest + Qualifier(TransformOf(assetName, bleedMode))
  {
    var bleedPart: string := if bleedMode && IsImageName(assetName) then "(bleed)" else "";
    var wavPart: string := if IsWavName(assetName) then "(wav->ogg)" else "";
    QualifierParts(assetName, bleedMode);
    AppendAssociative(digest, bleedPart, wavPart);
    digest + bleedPart + wavPart
  }

  /** Length of a hexadecimal SHA-1 digest. */
  const DigestLength: nat := 40

  /** Cache keys are content-addressed: two files share a key exactly when they have the
      same digest and go through the same processing. */
  lemma CacheKeyInjective(d1: string, n1: string, b1: bool, d2: string, n2: string, b2: bool)
    requires |d1| == DigestLength && |d2| == DigestLength
    ensures CacheKey(d1, n1, b1) == CacheKey(d2, n2, b2)
        <==> d1 == d2 && TransformOf(n1, b1) == TransformOf(n2, b2)
  {
    var k1 := CacheKey(d1, n1, b1);
    var k2 := CacheKey(d2, n2, b2);
    var q1 := Qualifier(TransformOf(n1, b1));
    var q2 := Qualifier(TransformOf(n2, b2));
    if k1 == k2 {
      assert d1 == k1[..DigestLength] == k2[..DigestLength] == d2;
      assert q1 == k1[DigestLength..] == k2[DigestLength..] == q2;
    }
  }

  /** The file name sent with the upload: a WAV file is sent under its stem with an `.ogg`
      extension, every other file under its own name. */
  function UploadName(assetName: string): (name: string)
    ensures !IsWavName(assetName) ==> name == assetName
    ensures IsWavName(assetName) ==> EndsWith(name, ".ogg")
  {
    if IsWavName(assetName) then ParsedName(assetName) + ".ogg" else assetName
  }

  /** A name ending in a character other than `/` has a non-empty stem. */
  lemma StemNotEmpty(name: string)
    requires name != [] && name[|name| - 1] != '/' && ExtName(name) != name
    ensures ParsedName(name) != ""
  {
    assert StripTrailingSlashes(name) == name;
    var base := Basename(name);
    assert base != "";
    var ext := ExtOfBase(base);
    assert ParsedName(name) + ext == base;
  }

  /** A stem with `.ogg` appended has the extension `.ogg`. */
  lemma OggExtension(stem: string)
    requires stem != "" && '/' !in stem
    ensures ExtName(stem + ".ogg") == ".ogg"
  {
    var name := stem + ".ogg";
    assert '/' !in name;
    assert StripTrailingSlashes(name) == name;
    assert Basename(name) == name;
    assert name[|stem|..] == ".ogg";
    assert name[|stem| + 1..] == "ogg";
    assert name[|stem|] == '.';
    assert forall j :: |stem| < j < |name| ==> name[j] != '.';
    LastIndexOfAt(name, '.', |stem|);
  }

  /** A WAV file is uploaded under a name with the extension `.ogg`. */
  lemma UploadNameOfWav(assetName: string)
    requires IsWavName(assetName)
    ensures ExtName(UploadName(assetName)) == ".ogg"
  {
    var lower := Lower(assetName);
    assert lower[|lower| - 4..] == ".wav";
    assert LowerChar(assetName[|assetName| - 1]) == 'v';
    assert ExtName(assetName) != assetName by {
      var base := Basename(assetName);
      var ext := ExtOfBase(base);
      assert |ext| < |base| || ext == [];
    }
    StemNotEmpty(assetName);
    var stem := ParsedName(assetName);
    assert '/' !in stem by {
      assert stem + ExtName(assetName) == Basename(assetName);
      assert forall c :: c in stem ==> c in Basename(assetName);
    }
    OggExtension(stem);
  }

  // ---------------------------------------------------------------------------
  // Directory walk

  /** A directory listing as `readdirSync` and `statSync` see it. */
  datatype DirEntry = FileEntry(name: string) | DirectoryEntry(name: string, children: seq<DirEntry>)

  /** The number of files in a listing, at any depth. */
  function FileCount(list: seq<DirEntry>): nat
    decreases list
  {
    if list == [] then 0
    else
      FileCount(list[..|list| - 1])
      + match list[|list| - 1]
        case FileEntry(_) => 1
        case DirectoryEntry(_, children) => FileCount(children)
  }

  /** Every name in the listing, at any depth, is a plain name, as `readdirSync` gives them. */
  predicate PlainNames(list: seq<DirEntry>)
    decreases list
  {
    forall i :: 0 <= i < |list| ==>
      IsName(list[i].name) && (list[i].DirectoryEntry? ==> PlainNames(list[i].children))
  }

  /** `walk(dir)` of `getAllAssetFiles`: the files of the listing, depth first, in listing
      order, each joined to `dir`. */
  /** Every path keeps the directory's kind (absolute or relative) and is normalised, as
      `path.join` leaves it. */
  predicate AllJoined(absolute: bool, files: seq<PathArg>) {
    forall i :: 0 <= i < |files| ==> files[i].absolute == absolute && IsNormal(absolute, files[i].segments)
  }

  function Walk(dir: PathArg, list: seq<DirEntry>): (files: seq<PathArg>)
    decreases list
    ensures |files| == FileCount(list)
    ensures AllJoined(dir.absolute, files)
  {
    if list == [] then []
    else
      var entry := list[|list| - 1];
      var child := JoinName(dir, entry.name);
      var last := match entry
        case FileEntry(_) => [child]
        case DirectoryEntry(_, children) => Walk(child, children);
      Walk(dir, list[..|list| - 1]) + last
  }

  /** `f` lies strictly below the directory with segments `base`. */
  predicate Below(base: seq<string>, f: PathArg) {
    |f.segments| > |base| && f.segments[..|base|] == base
  }

  /** With plain names, every file the walk finds lies below the normalised `dir`. */
  lemma {:induction false} WalkBelow(dir: PathArg, list: seq<DirEntry>)
    requires PlainNames(list)
    decreases list
    ensures forall f :: f in Walk(dir, list) ==> Below(Normalize(dir.absolute, dir.segments), f)
  {
    if list != [] {
      var n := |list| - 1;
      var entry := list[n];
      var child := JoinName(dir, entry.name);
      var base := Normalize(dir.absolute, dir.segments);
      PlainNamesSplit(list);
      WalkBelow(dir, list[..n]);
      var last := match entry
        case FileEntry(_) => [child]
        case DirectoryEntry(_, children) => Walk(child, children);
      assert Walk(dir, list) == Walk(dir, list[..n]) + last;
      NormalizeAppendName(dir.absolute, dir.segments, entry.name);
      if entry.DirectoryEntry? {
        WalkBelow(child, entry.children);
        NormalizeNormal(child.absolute, child.segments);
        BelowParent(base, entry.name, last);
      } else {
        assert Below(base, child);
      }
    }
  }

  /** The names of a listing without its last entry, and the last entry's, are plain. */
  lemma PlainNamesSplit(list: seq<DirEntry>)
    requires list != [] && PlainNames(list)
    ensures var n := |list| - 1;
      PlainNames(list[..n]) && IsName(list[n].name) && (list[n].DirectoryEntry? ==> PlainNames(list[n].children))
  {
    var n := |list| - 1;
    forall i | 0 <= i < n ensures list[..n][i] == list[i] { }
  }

  /** Below `base + [name]` is below `base`. */
  lemma BelowParent(base: seq<string>, name: string, files: seq<PathArg>)
    requires forall f :: f in files ==> Below(base + [name], f)
    ensures forall f :: f in files ==> Below(base, f)
  {
    forall f | f in files ensures Below(base, f) {
      assert f.segments[..|base|] == f.segments[..|base| + 1][..|base|];
    }
  }

  /** The files of the walk are exactly those of the entries: a file entry's own path, and
      the files of a directory entry's walk. */
  lemma WalkMembers(dir: PathArg, list: seq<DirEntry>)
    ensures forall f :: f in Walk(dir, list) <==> exists i :: 0 <= i < |list| && EntryHolds(dir, list[i], f)
  {
    forall f | f in Walk(dir, list) ensures exists i :: 0 <= i < |list| && EntryHolds(dir, list[i], f) {
      WalkFromEntries(dir, list, f);
    }
    forall i, f | 0 <= i < |list| && EntryHolds(dir, list[i], f) ensures f in Walk(dir, list) {
      WalkHasEntry(dir, list, i, f);
    }
  }

  lemma {:induction false} WalkHasEntry(dir: PathArg, list: seq<DirEntry>, i: nat, f: PathArg)
    requires i < |list| && EntryHolds(dir, list[i], f)
    ensures f in Walk(dir, list)
  {
    var n := |list| - 1;
    var prev := Walk(dir, list[..n]);
    var last := Walk(dir, list)[|prev|..];
    assert Walk(dir, list) == prev + last;
    if i == n {
      assert f in last;
    } else {
      assert list[..n][i] == list[i];
      WalkHasEntry(dir, list[..n], i, f);
    }
  }

  lemma {:induction false} WalkFromEntries(dir: PathArg, list: seq<DirEntry>, f: PathArg)
    requires f in Walk(dir, list)
    ensures exists i :: 0 <= i < |list| && EntryHolds(dir, list[i], f)
  {
    var n := |list| - 1;
    var prev := Walk(dir, list[..n]);
    var last := Walk(dir, list)[|prev|..];
    assert Walk(dir, list) == prev + last;
    if f in prev {
      WalkFromEntries(dir, list[..n], f);
      var i :| 0 <= i < n && EntryHolds(dir, list[..n][i], f);
      assert list[..n][i] == list[i];
    } else {
      assert f in last && EntryHolds(dir, list[n], f);
    }
  }

  /** `f` is what the entry contributes to a walk of `dir`. */
  predicate EntryHolds(dir: PathArg, entry: DirEntry, f: PathArg) {
    match entry
    case FileEntry(name) => f == JoinName(dir, name)
    case DirectoryEntry(name, children) => f in Walk(JoinName(dir, name), children)
  }

  /** One more entry of the listing: the files as before, then that entry's. */
  lemma WalkStep(dir: PathArg, list: seq<DirEntry>, n: nat)
    requires n < |list|
    ensures Walk(dir, list[..n + 1]) == Walk(dir, list[..n]) +
      match list[n]
      case FileEntry(_) => [JoinName(dir, list[n].name)]
      case DirectoryEntry(_, children) => Walk(JoinName(dir, list[n].name), children)
  {
    assert list[..n + 1][..n] == list[..n];
  }

}

=== FILE: text.dfy ===
/**
 * The JavaScript string operations the source relies on, over `string` (a sequence of
 * characters): `startsWith`, `endsWith`, `includes`, `join`, ASCII case folding,
 * `replace(/\\/g, "/")`, number-to-text conversion, and the default ordering of
 * `Array.prototype.sort` on strings together with a sort that realises it.
 */
module Text {

  predicate StartsWith(s: string, prefix: string) {
    |prefix| <= |s| && s[..|prefix|] == prefix
  }

  predicate EndsWith(s: string, suffix: string) {
    |suffix| <= |s| && s[|s| - |suffix|..] == suffix
  }

  /** `s.includes(needle)`. */
  predicate Contains(s: string, needle: string)
  {
    StartsWith(s, needle) || (s != [] && Contains(s[1..], needle))
  }

  /** A needle occurring right after a prefix is contained in the whole text. */
  lemma {:induction false} ContainsAfter(prefix: string, needle: string, rest: string)
    ensures Contains(prefix + needle + rest, needle)
  {
    if prefix == [] {
      assert prefix + needle + rest == needle + rest;
    } else {
      assert (prefix + needle + rest)[1..] == prefix[1..] + needle + rest;
      ContainsAfter(prefix[1..], needle, rest);
    }
  }

  lemma AppendAssociative<T>(a: seq<T>, b: seq<T>, c: seq<T>)
    ensures a + b + c == a + (b + c)
  {
  }

  /** Lower-casing of ASCII letters only. `toLowerCase` also lowers other letters, but none
      of them lowers into a letter of the extensions the source compares with (`.png`,
      `.jpg`, `.jpeg`, `.mp3`, `.ogg`, `.fbx`, `.wav`), so those comparisons come out the same. */
  function LowerChar(c: char): char {
    if 'A' <= c <= 'Z' then (c as int + 32) as char else c
  }

  function Lower(s: string): (r: string)
    ensures |r| == |s| && forall i :: 0 <= i < |s| ==> r[i] == LowerChar(s[i])
  {
    seq(|s|, i requires 0 <= i < |s| => LowerChar(s[i]))
  }

  /** `parts.join(sep)`. */
  function Join(parts: seq<string>, sep: string): string {
    if parts == [] then ""
    else if |parts| == 1 then parts[0]
    else parts[0] + sep + Join(parts[1..], sep)
  }

  /** `s.replace(/\\/g, "/")`: every backslash becomes a forward slash. */
  function ForwardSlashes(s: string): (r: string)
    ensures |r| == |s|
    ensures '\\' !in r
    ensures forall i :: 0 <= i < |s| ==> r[i] == (if s[i] == '\\' then '/' else s[i])
  {
    seq(|s|, i requires 0 <= i < |s| => if s[i] == '\\' then '/' else s[i])
  }

  /** Decimal text of a natural number, as a template literal renders it. */
  function NatToString(n: nat): (r: string)
    ensures r != [] && forall i :: 0 <= i < |r| ==> '0' <= r[i] <= '9'
    decreases n
  {
    var d := ['0' + (n % 10) as char];
    if n < 10 then d else NatToString(n / 10) + d
  }

  /** True when every character is an ASCII digit and there is at least one (`/^\d+$/`). */
  predicate IsDigits(s: string) {
    s != [] && forall i :: 0 <= i < |s| ==> '0' <= s[i] <= '9'
  }

  // ---------------------------------------------------------------------------
  // Ordering used by `Array.prototype.sort()` without a comparator: character by
  // character, a proper prefix first.

  predicate LexLe(a: string, b: string) {
    a == [] || (b != [] && (a[0] < b[0] || (a[0] == b[0] && LexLe(a[1..], b[1..]))))
  }

  lemma {:induction false} LexLeTotal(a: string, b: string)
    ensures LexLe(a, b) || LexLe(b, a)
  {
    if a != [] && b != [] && a[0] == b[0] {
      LexLeTotal(a[1..], b[1..]);
    }
  }

  lemma {:induction false} LexLeAntisymmetric(a: string, b: string)
    requires LexLe(a, b) && LexLe(b, a)
    ensures a == b
  {
    if a != [] && b != [] {
      LexLeAntisymmetric(a[1..], b[1..]);
      assert a == [a[0]] + a[1..] && b == [b[0]] + b[1..];
    }
  }

  lemma {:induction false} LexLeTransitive(a: string, b: string, c: string)
    requires LexLe(a, b) && LexLe(b, c)
    ensures LexLe(a, c)
  {
    if a != [] && b != [] && c != [] && a[0] == b[0] && b[0] == c[0] {
      LexLeTransitive(a[1..], b[1..], c[1..]);
    }
  }

  predicate Sorted(s: seq<string>) {
    forall i, j :: 0 <= i < j < |s| ==> LexLe(s[i], s[j])
  }

  /** Inserts `x` into a sorted sequence, before the first element it does not follow. */
  function Insert(x: string, s: seq<string>): (r: seq<string>)
    requires Sorted(s)
    ensures Sorted(r)
    ensures multiset(r) == multiset(s) + multiset{x}
  {
    if s == [] then [x]
    else if LexLe(x, s[0]) then
      InsertFirst(x, s);
      [x] + s
    else
      var tail := Insert(x, s[1..]);
      InsertLater(x, s, tail);
      [s[0]] + tail
  }

  /** A string that precedes the head of a sorted sequence can go first. */
  lemma InsertFirst(x: string, s: seq<string>)
    requires Sorted(s) && s != [] && LexLe(x, s[0])
    ensures Sorted([x] + s)
    ensures multiset([x] + s) == multiset(s) + multiset{x}
  {
    forall i, j | 0 <= i < j < |[x] + s| ensures LexLe(([x] + s)[i], ([x] + s)[j]) {
      if i == 0 && j > 1 {
        LexLeTransitive(x, s[0], s[j - 1]);
      }
    }
  }

  /** A string that follows the head of a sorted sequence goes into its tail. */
  lemma InsertLater(x: string, s: seq<string>, tail: seq<string>)
    requires Sorted(s) && s != [] && !LexLe(x, s[0])
    requires Sorted(tail) && multiset(tail) == multiset(s[1..]) + multiset{x}
    ensures Sorted([s[0]] + tail)
    ensures multiset([s[0]] + tail) == multiset(s) + multiset{x}
  {
    LexLeTotal(x, s[0]);
    assert s == [s[0]] + s[1..];
    forall i, j | 0 <= i < j < |[s[0]] + tail| ensures LexLe(([s[0]] + tail)[i], ([s[0]] + tail)[j]) {
      if i == 0 {
        var y := tail[j - 1];
        assert y in multiset(tail);
        if y != x {
          assert y in multiset(s[1..]);
          assert y in s[1..];
        }
      }
    }
  }

  /** `keys.sort()`: the same strings, in ascending order. */
  function Sort(s: seq<string>): (r: seq<string>)
    ensures Sorted(r)
    ensures multiset(r) == multiset(s)
    ensures |r| == |s|
  {
    if s == [] then []
    else
      assert s == [s[0]] + s[1..];
      Insert(s[0], Sort(s[1..]))
  }

  /** A sorted sequence of distinct strings is strictly increasing. */
  lemma SortedDistinctIsStrict(s: seq<string>, i: nat, j: nat)
    requires Sorted(s) && i < j < |s| && s[i] != s[j]
    ensures !LexLe(s[j], s[i])
  {
    if LexLe(s[j], s[i]) {
      LexLeAntisymmetric(s[i], s[j]);
    }
  }
}

=== FILE: wrappers.dfy ===
/** The optional value used wherever the source has `undefined` or `null`. */
module Wrappers {

  datatype Option<+T> = None | Some(value: T) {

    /** The wrapped value, or `default` when there is none. */
    function GetOr(default: T): T {
      match this
      case Some(v) => v
      case None => default
    }
  }
}
